=== FILE: README.md ===
# skillSync auth service — a Dafny model

This project models the credential core of the skillSync authentication service. That service is a Go gRPC back end for a job board with two kinds of account, candidates and employers. The model covers:

- **Passwords.** Hashing a password and checking a password against a hash.
- **JSON Web Tokens.** Minting a token for a user id and a role, validating it, and reading it out of an `Authorization: Bearer` header.
- **One-time codes (OTPs).** The six-digit codes mailed at signup, on resend and on password reset. They live in a verification table keyed by email, with an expiry and a verified flag.
- **Candidate and employer repositories.** Login, signup, email verification, OTP resend, profile update, skills and education, and the employer pagination arithmetic.
- **Use cases.** The candidate, employer and role-dispatching auth use cases.
- **gRPC handlers.** From the gRPC layer, only these parts are modelled:
  - how `VerifyToken` picks and strips the token;
  - how the four OTP handlers parse the code text;
  - the defaults, filters and page count of the two pagination handlers.

The state is an immutable record, `Store.Db`. It holds:

- the verification table;
- the candidate and employer tables;
- the employer id counter;
- the skills and education tables;
- an outbox of mailed codes.

Every operation is a pure function from a state and its inputs to a new state and a result.

Everything outside the model is passed in as a parameter:

- **Database and mail calls.** Each one a modelled operation makes, lookups and reads included, becomes an `Io` parameter, `Done` or `Fails(reason)`. This lets every error branch be stated. The repositories' `UpdatePassword` members give only the write's effect on the tables; the use case that calls them takes that write's `Io`.
- **The clock.** It is a `Time` parameter. Token minting reads the clock twice, so it takes a `Jwt.Readings` pair.
- **Randomness.** `rand.Intn(900000)` is a `Draw` in `[0, 900000)`, and the mailed code is `100000 + draw`.
- **bcrypt.** It is a `Crypto.Bcrypt` record of functions. Its properties are predicates that lemmas assume explicitly: `Sound` means a hash checks against its own password, and `Discriminating` means it rejects any other password among those it reads whole (at most 71 ASCII characters).
- **HMAC-SHA256 signing and JWS serialisation.** They are a `Crypto.Jose` record, and `Coherent` says that parsing a serialised token gives back its claims and signature.

GORM's behaviour is written out where it matters:

- **`FirstOrCreate(...).Assign(struct)`** writes only non-zero fields. An existing row therefore keeps its verified flag.
- **`Where("email = ?", email).Assign(map)`** writes every listed key. An existing row therefore gets its flag reset to false. When no row matches, GORM's create path copies only struct and map conditions into the new row, not a string `Where`. The row is therefore created with an empty email (see Findings).
- **`First`** returns the earliest matching row.
- **`Where(...).Update`** updates every matching row.
- **Employer rows** are matched against string ids through their decimal form.

Go's truncating division is `Grpc.Quot`, and its 32-bit wrap-around is `EmployerRepo.Wrap32`.

Some of the source's behaviour is surprising. The model keeps it as the code has it:

- **Token signing secrets.** The employer repository signs tokens with the `JWT_SECRET` environment value (`internal/repository/postgres/employerpg.go:29`). The gRPC `VerifyToken` checks tokens against the secret handed to `NewJWTMaker`. The two coincide only when configured alike, and `Jwt.ForeignSecretRejected` states what happens when they differ.
- **The candidate token stub.** The candidate use case's `ExtractUserIDFromToken` is a stub that returns an empty id (`internal/usecase/candidate_usecase.go:87-89`). It is modelled as such.
- **The candidate `VerifyToken`.** It calls a `VerifyToken` method that the JWT maker does not have. It is modelled as `ValidateToken`.
- **The candidate branch of `AuthUsecase.Login`.** It applies `strconv.Itoa` to a string id. The model uses the id as it is.

## Model

| member | source | states |
|---|---|---|
| Text.TrimPrefix | pkg/jwt.go:103 | with the prefix present, prefix followed by the result is the input; otherwise the input comes back unchanged |
| Text.TrimSpace | internal/repository/postgres/candidatepb.go:109 | the result is a contiguous slice of the input with only white space cut from either end, it is itself trimmed, and it is empty exactly when the input is all white space |
| Text.TrimTrimmed | internal/repository/postgres/candidatepb.go:429 | trimming an already trimmed name is the identity, so names stored trimmed come back unchanged |
| Text.ToLower | internal/usecase/auth_usecase.go:21 | lower-casing keeps the length and maps each character independently |
| Text.ToLowerIdempotent | internal/usecase/auth_usecase.go:76 | lower-casing a role twice is the same as once |
| Text.Itoa | internal/usecase/auth_usecase.go:36 | the decimal text is non-empty, all digits, has no leading zero and denotes the number |
| Text.ItoaInjective | internal/repository/postgres/employerpg.go:103 | two employer ids with the same decimal text are the same id |
| Text.FormatInt | internal/usecase/auth_usecase.go:114 | a signed integer prints as its magnitude's digits, with a minus sign when negative, and every 64-bit value reads back as itself through `ParseInt64` |
| Text.ParseUint64 | internal/grpcServer/grpc_usecase.go:86 | parsing succeeds exactly on non-empty all-digit text whose value fits in 64 unsigned bits, giving that value; every failure is a syntax or a range error, and it is a range error exactly when the leading run of digits already exceeds 64 bits |
| Text.ParseItoa | internal/grpcServer/grpc_usecase.go:433 | parsing undoes printing for every 64-bit value |
| Text.ParseInt64 | internal/repository/postgres/candidatepb.go:39 | the value half of `Atoi` / `ParseInt`: always in 64-bit range; in-range decimal text, bare, with `+` or with `-`, gives its signed value; text that is empty, bare sign, or has a non-digit after an in-range run of digits gives 0; a run of digits beyond the range clamps to the bound of its sign |
| Text.UuidMalformed | domain/models/candidate.go:4 | every UUID text, the form `gen_random_uuid()` produces, is text `Atoi` rejects with a syntax error, so it reads as 0 |
| Text.LessEqTotal | internal/repository/postgres/candidatepb.go:417 | the byte-wise order used for `ORDER BY skill ASC` compares any two names |
| Text.LessEqTransitive | internal/repository/postgres/candidatepb.go:417 | that order is transitive, so a sorted result is sorted pairwise |
| Crypto.HashThenCheck | pkg/password.go:28-39 | under a sound hasher a successful hash checks against its own password |
| Crypto.OtherPasswordFails | pkg/password.go:37-39 | under a discriminating hasher no other password checks against it, both passwords being at most 71 ASCII characters, which bcrypt reads whole |
| Jwt.NewClaims | pkg/jwt.go:31-40 | claims carry the user id and role; the expiry is 24 hours after the first clock reading and the issue time is the second reading, so the lifetime is 24 hours less the gap between the readings |
| Jwt.GenerateToken | pkg/jwt.go:31-49 | under a coherent serialiser the token parses back to those claims signed with the maker's secret |
| Jwt.ValidateToken | pkg/jwt.go:52-72 | a token is accepted exactly when it parses, its signature is the maker's over its claims, its issue time (if any) is not in the future and its expiry (if any) is not past; a bad signature is reported first, then an early issue time, then an expiry |
| Jwt.ExtractUserIDFromToken | pkg/jwt.go:75-89 | yields the token's user id exactly when the token is authentic; every failure is "invalid token" |
| Jwt.GenerateValidate | pkg/jwt.go:31-89 | a minted token validates to its own claims and user id from the second reading until 24 hours after the first |
| Jwt.GeneratedTokenExpires | pkg/jwt.go:55-62 | past 24 hours after the first reading the same token is refused as expired |
| Jwt.GeneratedTokenNotYetIssued | pkg/jwt.go:52-62 | before the second reading, its issue time, a minted token is refused as used before issued |
| Jwt.StraddledReadingsShortenLifetime | pkg/jwt.go:36-37 | when the two clock readings straddle a second boundary the token is accepted 86399 seconds after issue and refused as expired 24 hours after issue |
| Jwt.TimelessClaimsAccepted | pkg/jwt.go:52-62 | correctly signed claims with no issue time and no expiry are accepted at any time |
| Jwt.ForeignSecretRejected | internal/repository/postgres/employerpg.go:29 | a token minted under one secret is refused by a maker with another (signature invalid, invalid token) |
| Jwt.ExtractTokenFromHeader | pkg/jwt.go:92-109 | an empty header, a header without `Bearer ` and a bare `Bearer ` are each refused with their own error; otherwise the token is the non-empty rest of the header |
| Jwt.HeaderRoundTrip | pkg/jwt.go:92-109 | the token of a header built from a non-empty token is that token |
| Store.FirstIndex | internal/repository/postgres/candidatepb.go:134-140 | finds the first row satisfying a condition, or reports that none does |
| Store.UpdateWhere | internal/repository/postgres/candidatepb.go:320-325 | every matching row is rewritten and every other row kept, in place |
| Store.SelectWhere | internal/repository/postgres/candidatepb.go:84-88 | exactly the rows satisfying the condition, each as many times as the table holds it, and none that fails it |
| Store.CandidateIndexByEmail | internal/repository/postgres/candidatepb.go:134-140 | the index of the first candidate with that email, or none has it |
| Store.CandidateIndexById | internal/repository/postgres/candidatepb.go:80-98 | the index of the first candidate with that id, or none has it |
| Store.CandidateByEmail | internal/repository/postgres/candidatepb.go:134-140 | the first stored candidate with that email in table order, and none exactly when no row has it |
| Store.CandidateById | internal/repository/postgres/candidatepb.go:80-98 | the first stored candidate with that id in table order, and none exactly when no row has it |
| Store.EmployerIndexByEmail | internal/repository/postgres/employerpg.go:69-82 | the index of the first employer with that email, or none has it |
| Store.EmployerIndexById | internal/repository/postgres/employerpg.go:53-59 | the index of the first employer whose decimal id is the text, or none has it |
| Store.EmployerByEmail | internal/repository/postgres/employerpg.go:69-82 | the first stored employer with that email, and none exactly when no row has it |
| Store.EmployerById | internal/repository/postgres/employerpg.go:53-59 | the first stored employer whose decimal id is the text, and none exactly when no row has it |
| Store.SetCandidatePasswordByEmail | internal/repository/postgres/candidatepb.go:320-325 | every candidate with the email gets the hash; every other row is unchanged |
| Store.SetCandidatePasswordById | internal/repository/postgres/candidatepb.go:327-332 | every candidate with the id gets the hash; every other row is unchanged |
| Store.MarkCandidatesVerified | internal/repository/postgres/candidatepb.go:231 | every candidate with the email is marked verified; every other row is unchanged |
| Store.SetEmployerPasswordByEmail | internal/repository/postgres/employerpg.go:270-275 | every employer with the email gets the hash; every other row is unchanged |
| Store.SetEmployerPasswordById | internal/repository/postgres/employerpg.go:277-282 | every employer with the id gets the hash; every other row is unchanged |
| Store.MarkEmployersVerified | internal/repository/postgres/employerpg.go:207-210 | every employer with the email is marked verified; every other row is unchanged |
| Otp.Code | pkg/password.go:46 | a mailed code always has six digits |
| Otp.CodeDeterminesDraw | pkg/password.go:46 | distinct draws give distinct codes |
| Otp.CheckOtp | internal/repository/postgres/candidatepb.go:300-318 | a code is accepted exactly when the email is registered, the code matches and it has not expired; otherwise the error names which check failed, in that order |
| Otp.ReadCheck | internal/repository/postgres/candidatepb.go:208-221 | a failed read of the verification row is "email not found or not registered", as is a missing row; after a successful read the answer is the code check's, so success means the code is the stored one and unexpired |
| Otp.AssignStruct | pkg/password.go:53-63 | an existing row gets only the non-zero code and expiry and keeps its flag and role; a missing row is created unverified; no other email changes |
| Otp.AssignMap | internal/repository/postgres/employerpg.go:158-166 | as written: an existing row takes exactly the code and expiry given, unverified, keeps its role, and no other email changes; for a new email the row is created under the empty email, unless one already exists there, when the write fails with a unique violation |
| Otp.FreshEmailWritesBlankRow | internal/repository/postgres/employerpg.go:158-166 | for a new email the map-form write succeeds, but the code lands on the empty email's row and the email itself stays unregistered |
| Otp.AssignMapIntended | internal/repository/postgres/employerpg.go:158-166 | the corrected write files the code and expiry, unverified, under the email itself, keeping its role and every other email |
| Otp.IntendedAssignRecordsEmail | internal/repository/postgres/employerpg.go:158-166 | after the corrected write the code is accepted for that email until its expiry and expired after |
| Otp.AssignFormsDiffer | pkg/password.go:53-63 | with a non-zero code and expiry: on an existing row the map form is the struct form with the flag cleared; for a new email it files the struct form's row under the empty email, or fails when that is taken |
| Otp.IssueOtp | pkg/password.go:41-78 | a failed write changes nothing; a write stores the drawn code expiring offset seconds from now, keeps an existing row's verified flag and role, touches no other email, and mails the code only when the write succeeded |
| Otp.SentCodeWindow | pkg/password.go:41-78 | the code sent is accepted until now plus the offset, expired after it, and any other code is invalid |
| Otp.SendOtp | pkg/password.go:41-78 | a failed write changes nothing and is reported with its prefix; a write stores the drawn code expiring `otpexpiry` seconds from now, keeps an existing flag, and the code is mailed exactly when the write and the mail succeed |
| Otp.ReissueOtp | internal/repository/postgres/employerpg.go:152-178 | the written reissue touches only the email's and the empty email's rows and the outbox; it succeeds exactly when both writes fit and succeed and the mail goes out; a taken empty-email row refuses a new email with the prefixed unique violation and no change; an existing row gets a second code whose expiry offset is the first code, with its flag reset; only the second code is mailed |
| Otp.ReissueOutlivesFiveMinutes | internal/repository/postgres/employerpg.go:172 | a reissue succeeds exactly when the map-form write fits, and then the mailed code is still accepted more than a day later |
| Otp.SecondFreshEmailRefused | internal/repository/postgres/employerpg.go:158-166 | after one new email has been sent a code, a second new email is refused with "failed to store OTP in the database: duplicate key value violates unique constraint" and nothing changes |
| Otp.ReissueOtpIntended | internal/repository/postgres/employerpg.go:152-178 | the corrected reissue writes one code with status false to the email's own row, touches nothing else, and mails it exactly when the write and the mail succeed |
| Otp.IntendedReissueWindow | internal/repository/postgres/employerpg.go:152-166 | the corrected reissue's code is accepted for exactly five minutes |
| Skills.MatchIndex | internal/repository/postgres/candidatepb.go:116-118 | the index of a row of that candidate whose name equals the given one ignoring case, or no row does |
| Skills.Upsert | internal/repository/postgres/candidatepb.go:116-130 | the intended write: a row of the candidate whose name matches ignoring case is rewritten in place to the trimmed name and no other row changes; without a match exactly one row is appended |
| Skills.AddSkills | internal/repository/postgres/candidatepb.go:106-131 | a blank name is refused without change; a name matching a stored one ignoring case is refused with "WHERE conditions required" without change; otherwise success needs the lookup and the write and appends exactly the trimmed row; nothing outside the skills table changes |
| Skills.ReAddRefused | internal/repository/postgres/candidatepb.go:116-122 | adding " go " for a candidate who has "Go" is refused and leaves the table as it was |
| Skills.AddSkillsIntended | internal/repository/postgres/candidatepb.go:106-131 | the corrected add succeeds exactly when the name is non-blank and the lookup and write succeed, and then performs the upsert |
| Skills.AddSkillsPreservesWellFormed | internal/repository/postgres/candidatepb.go:106-131 | adding keeps every stored name trimmed and non-empty and no candidate with two names that differ only in case |
| Skills.IntendedAddPreservesWellFormed | internal/repository/postgres/candidatepb.go:106-131 | the corrected upsert keeps the table well formed too |
| Skills.Insert | internal/repository/postgres/candidatepb.go:417 | inserting into a sorted list keeps it sorted and adds exactly that row |
| Skills.SortBySkill | internal/repository/postgres/candidatepb.go:417 | the result is sorted by name and is a permutation of the input |
| Skills.SortKeepsRows | internal/repository/postgres/candidatepb.go:417 | ordering the rows neither adds nor drops one |
| Skills.RowsOf | internal/repository/postgres/candidatepb.go:417 | exactly the candidate's rows, each as many times as the table holds it |
| Skills.Names | internal/repository/postgres/candidatepb.go:424-434 | exactly the non-empty trimmed names of the rows |
| Skills.Trimmed | internal/repository/postgres/candidatepb.go:424-434 | one trimmed skill text per row, in row order |
| Skills.NamesAreNonBlankTrimmed | internal/repository/postgres/candidatepb.go:424-434 | the names are the rows' trimmed texts with blank ones filtered out, in row order and with repeats kept, so each name occurs as often as rows carry it |
| Skills.NamesOfSelection | internal/repository/postgres/candidatepb.go:424-434 | the names read from any reordering of a candidate's rows are that candidate's non-blank names, each trimmed |
| Skills.GetSkills | internal/repository/postgres/candidatepb.go:412-442 | a failed query is reported with its prefix; otherwise the names are those of a permutation of the candidate's rows sorted by name, and are exactly the candidate's non-blank names, trimmed |
| Skills.NamesOfClean | internal/repository/postgres/candidatepb.go:424-434 | rows whose names are already clean keep one name per row, in order |
| Skills.GetSkillsSorted | internal/repository/postgres/candidatepb.go:412-442 | on a well-formed table there is one name per row of the candidate, in ascending order |
| Skills.AddThenGet | internal/repository/postgres/candidatepb.go:106-131 | a skill the written add accepts is among those read back, under its trimmed name |
| Skills.IntendedAddThenGet | internal/repository/postgres/candidatepb.go:106-131 | the corrected add of any non-blank name succeeds and the name is read back, new or a second spelling |
| CandidateRepo.Login | internal/repository/postgres/candidatepb.go:142-170 | succeeds exactly when the query succeeds and the first candidate with the email has a matching hash; the response carries its id, the role "candidate" and a token for both; every failure is "invalid email or password" |
| CandidateRepo.LoginTokenValidates | internal/repository/postgres/candidatepb.go:155-166 | the login token validates to the candidate's id and role from its issue time until its expiry, 24 hours after the first clock reading |
| CandidateRepo.SignupWith | internal/repository/postgres/candidatepb.go:172-199 | refuses a registered email; success appends the new candidate, writes a fresh unverified code with the given offset and mails it; a failure after the verification row leaves the row in place |
| CandidateRepo.Signup | internal/repository/postgres/candidatepb.go:172-199 | as written: success needs an unregistered email and every write; it appends the candidate, stores an unverified code that expires 5 seconds after issue, and mails it |
| CandidateRepo.SignupIntended | internal/repository/postgres/candidatepb.go:172-199 | the corrected signup does the same with a code that expires 300 seconds after issue |
| CandidateRepo.SignupCodeLastsFiveSeconds | internal/repository/postgres/candidatepb.go:186 | the written signup code is accepted five seconds after issue and expired one second later |
| CandidateRepo.IntendedSignupCodeLastsFiveMinutes | internal/repository/postgres/candidatepb.go:172-199 | the corrected signup code is accepted for exactly five minutes |
| CandidateRepo.VerifyEmail | internal/repository/postgres/candidatepb.go:207-237 | a failed read or code check changes nothing and returns its error; an accepted code sets the email's flag and verifies every candidate with that email, leaving the others; each write failure has its own error |
| CandidateRepo.SignupThenVerify | internal/repository/postgres/candidatepb.go:172-237 | the code mailed at signup, used in its window, verifies the new candidate |
| CandidateRepo.VerifyPasswordResetOtp | internal/repository/postgres/candidatepb.go:300-318 | the code is accepted exactly when the read succeeds and the code is the email's stored one and has not expired; otherwise the error says which check failed |
| CandidateRepo.ResendOtp | internal/repository/postgres/candidatepb.go:239-270 | a failed read and an unregistered email are refused without change; the written resend keeps the flag and role, stores a second code whose expiry offset is the first code, and mails the second |
| CandidateRepo.ResentCodeOutlivesFiveMinutes | internal/repository/postgres/candidatepb.go:264 | the resent code is still accepted more than a day later |
| CandidateRepo.ResendOtpIntended | internal/repository/postgres/candidatepb.go:239-270 | the corrected resend refuses a failed read or unregistered email, replaces only the code and expiry of a registered email and mails that code |
| CandidateRepo.IntendedResendWindow | internal/repository/postgres/candidatepb.go:239-270 | the corrected resent code is accepted for exactly five minutes |
| CandidateRepo.SendPasswordResetOtp | internal/repository/postgres/candidatepb.go:272-298 | only the email's and the empty email's verification rows and the outbox change; success needs the map-form write to fit, both writes and the mail; a taken empty-email row refuses a new email with the prefixed unique violation; success leaves an unverified row with the second code expiring the first code's value in seconds after now, mails only that code, and for a new email leaves the first code on the empty email's row |
| CandidateRepo.MergeEmptyInput | internal/repository/postgres/candidatepb.go:57-74 | an update with every field empty keeps the profile |
| CandidateRepo.MergeIdempotent | internal/repository/postgres/candidatepb.go:57-74 | applying the same update twice is applying it once |
| CandidateRepo.Merge | internal/repository/postgres/candidatepb.go:57-74 | each non-empty input field replaces the stored one and each empty one keeps it; id, password and flag never change |
| CandidateRepo.UpdateCandidate | internal/repository/postgres/candidatepb.go:49-78 | a failed lookup returns its error unchanged and an unknown id is "record not found", both without change; a failed save changes nothing; on success only the first row with that id changes, to the merge of the row and the input |
| CandidateRepo.GetCandidateByUserId | internal/repository/postgres/candidatepb.go:80-98 | a query error is returned as is and an unknown id is "record not found"; otherwise the profile is the candidate with its skills and education, each row as many times as the table holds it |
| CandidateRepo.AddEducation | internal/repository/postgres/candidatepb.go:100-104 | success appends the row with the caller's id as its owner; failure changes nothing |
| CandidateRepo.AddEducationThenProfile | internal/repository/postgres/candidatepb.go:80-104 | an education row added for an existing candidate appears once more in that candidate's profile |
| CandidateRepo.UpdatePassword | internal/repository/postgres/candidatepb.go:320-325 | every candidate with the email gets the hash; every other row and every other table is unchanged |
| CandidateRepo.UpdatePasswordById | internal/repository/postgres/candidatepb.go:327-332 | every candidate with the id gets the hash; every other row and every other table is unchanged |
| CandidateUsecase.Signup | internal/usecase/candidate_usecase.go:67-83 | an email a candidate has is refused without change; past that check and the hash, the result is the repository's written signup on the hashed request, which appends exactly the candidate with the hashed password |
| CandidateUsecase.SignupThenLogin | internal/usecase/candidate_usecase.go:67-83 | after signup the same email and password log in as the new candidate |
| CandidateUsecase.ExtractUserIdFromToken | internal/usecase/candidate_usecase.go:87-89 | the stub always succeeds with an empty id |
| CandidateUsecase.StubIgnoresToken | internal/usecase/candidate_usecase.go:87-89 | the stub's answer does not depend on the token |
| CandidateUsecase.VerifyToken | internal/usecase/candidate_usecase.go:92-94 | the claims come back exactly when the token is authentic, and they are the signed claims; every failure is one of the library's four errors |
| CandidateUsecase.ResetPassword | internal/usecase/candidate_usecase.go:109-124 | a code that is not accepted changes nothing and returns its error; success sets the new hash on every candidate with the email and changes nothing else |
| CandidateUsecase.ResetCodeReplays | internal/usecase/candidate_usecase.go:109-124 | the written reset leaves the code valid, so the same code resets the password again |
| CandidateUsecase.ResetPasswordIntended | internal/usecase/candidate_usecase.go:109-124 | the corrected reset sets the hash the same way and spends the code |
| CandidateUsecase.IntendedResetCodeIsSpent | internal/usecase/candidate_usecase.go:109-124 | after the corrected reset the same code is refused as expired |
| CandidateUsecase.ChangePassword | internal/usecase/candidate_usecase.go:126-147 | an unknown user and a wrong current password are refused without change; success rehashes exactly the rows with that id |
| CandidateUsecase.ChangeThenCheck | internal/usecase/candidate_usecase.go:126-147 | after a change the new password checks, and a different old one no longer does when both are read whole by bcrypt |
| CandidateUsecase.GetProfile | internal/usecase/candidate_usecase.go:32-38 | an unauthentic token is refused; an authentic one gets exactly the repository's answer for the token's user |
| CandidateUsecase.UpdateCandidateProfile | internal/usecase/candidate_usecase.go:39-48 | an unauthentic token is refused; otherwise the token's user is updated |
| CandidateUsecase.AddSkills | internal/usecase/candidate_usecase.go:49-56 | an unauthentic token is refused; otherwise the skill is added for the token's user |
| CandidateUsecase.AddEducation | internal/usecase/candidate_usecase.go:57-66 | an unauthentic token is refused; an authentic one gets exactly the repository's add for the token's user, success or failure |
| CandidateUsecase.LoginThenGetProfile | internal/usecase/candidate_usecase.go:32-38 | a freshly logged-in candidate's token fetches that candidate's profile |
| EmployerRepo.GetEmployerByEmail | internal/repository/postgres/employerpg.go:69-82 | an empty email and a failed query are errors; a missing employer is no error and no employer; a found one is the first row with that email |
| EmployerRepo.CreateEmployer | internal/repository/postgres/employerpg.go:32-37 | success appends the profile under the next id and advances the counter; failure changes nothing |
| EmployerRepo.CreateKeepsIdsFresh | internal/repository/postgres/employerpg.go:32-37 | creating keeps every stored id below the counter, so ids stay unique |
| EmployerRepo.Login | internal/repository/postgres/employerpg.go:84-117 | a failed query, an unknown email and a wrong password each have their own error; success carries the decimal id, the role "employer" and a token |
| EmployerRepo.LoginSubjectIsEmployerId | internal/repository/postgres/employerpg.go:103-112 | the response id parses back to the employer's id, and while the token is live it validates to that id and the role "employer" |
| EmployerRepo.SendOtp | internal/repository/postgres/employerpg.go:152-178 | only the email's and the empty email's verification rows and the outbox change; success needs the map-form write to fit, both writes and the mail; a taken empty-email row refuses a new email with the prefixed unique violation; success leaves an unverified row with the second code expiring the first code's value in seconds after now, and mails only that code |
| EmployerRepo.ResendOtp | internal/repository/postgres/employerpg.go:218-220 | for every input the outcome is `SendOtp`'s, state and result |
| EmployerRepo.SendPasswordResetOtp | internal/repository/postgres/employerpg.go:222-248 | the separately written reset code path has, for every input, exactly `SendOtp`'s outcome, state and result |
| EmployerRepo.VerifyPasswordResetOtp | internal/repository/postgres/employerpg.go:250-268 | the code is accepted exactly when the read succeeds and the code is the email's stored one and has not expired; otherwise the error says which check failed |
| EmployerRepo.ResendUpserts | internal/repository/postgres/employerpg.go:218-220 | resending succeeds exactly when the map-form write fits, and then leaves an unverified row for the email holding the mailed code |
| EmployerRepo.VerifyEmail | internal/repository/postgres/employerpg.go:180-216 | a failed read or code check changes nothing; an accepted code sets the flag and verifies every employer with the email, leaving the others; each write failure has its own error |
| EmployerRepo.SendThenVerify | internal/repository/postgres/employerpg.go:152-216 | `SendOtp` succeeds exactly when the map-form write fits, and then its mailed code verifies the email within its window |
| EmployerRepo.UpdateEmployer | internal/repository/postgres/employerpg.go:39-51 | a failed lookup returns its error unchanged and an unknown id is "record not found", both without change; a failed save changes nothing; on success only that employer changes, to the input's fields |
| EmployerRepo.Overwrite | internal/repository/postgres/employerpg.go:44-50 | the six editable fields become the input's, empty or not; id, password and flags are kept |
| EmployerRepo.OverwriteIdempotent | internal/repository/postgres/employerpg.go:44-50 | repeating the update changes nothing |
| EmployerRepo.UpdatePassword | internal/repository/postgres/employerpg.go:270-275 | every employer with the email gets the hash; every other row and every other table is unchanged |
| EmployerRepo.UpdatePasswordById | internal/repository/postgres/employerpg.go:277-282 | every employer whose decimal id is the text gets the hash; every other row and every other table is unchanged |
| EmployerRepo.Wrap32 | internal/repository/postgres/employerpg.go:356 | the 32-bit result agrees with the exact value modulo 2^32 and equals it when in range |
| EmployerRepo.ClampPage | internal/repository/postgres/employerpg.go:325-327 | the page is at least 1 and a valid page is kept |
| EmployerRepo.ClampLimit | internal/repository/postgres/employerpg.go:328-330 | the limit lies in [1, 100]; a limit in range is kept, any other becomes 10 |
| EmployerRepo.ClampIdempotent | internal/repository/postgres/employerpg.go:325-330 | clamping twice is clamping once |
| EmployerRepo.Offset | internal/repository/postgres/employerpg.go:356 | the 32-bit offset agrees with the exact offset modulo 2^32 and equals it whenever the exact offset fits |
| EmployerRepo.OffsetIntended | internal/repository/postgres/employerpg.go:356 | the exact offset is a multiple of the limit: the rows on the pages before the requested one |
| EmployerRepo.OffsetAgreesInRange | internal/repository/postgres/employerpg.go:356 | for pages that fit, the 32-bit offset equals the exact offset |
| EmployerRepo.OffsetWraps | internal/repository/postgres/employerpg.go:356 | the page 2147483647 with limit 10 wraps to offset -20, so the first page is served instead of an empty one |
| EmployerUsecase.Phone | internal/usecase/employer_usecase.go:76-80 | a missing or empty phone is 0, and so is any text `ParseInt` rejects as malformed; decimal text in range is its value; digits beyond the range clamp to the 64-bit bound of their sign; the result is a 64-bit integer |
| EmployerUsecase.PhoneRoundTrip | internal/usecase/employer_usecase.go:76-80 | a printed phone number reads back as itself |
| EmployerUsecase.SendOtp | internal/usecase/employer_usecase.go:119-145 | a failed write changes nothing and is reported with its prefix; a write stores the drawn code expiring `expiry` seconds from now and keeps an existing flag; the code is mailed exactly when the write and the mail succeed |
| EmployerUsecase.Signup | internal/usecase/employer_usecase.go:59-116 | an empty or taken email is refused; success appends the employer under the next id with the hash, mails one code and reports the id; a failed code write after creation leaves the employer in place |
| EmployerUsecase.SignupThenVerify | internal/usecase/employer_usecase.go:59-145 | the code mailed at signup verifies the new employer within five minutes |
| EmployerUsecase.ResetPassword | internal/usecase/employer_usecase.go:190-205 | a code that is not accepted changes nothing; success sets the new hash on every employer with the email and changes nothing else |
| EmployerUsecase.ResetCodeReplays | internal/usecase/employer_usecase.go:190-205 | the written reset leaves the code valid for a second reset |
| EmployerUsecase.ResetPasswordIntended | internal/usecase/employer_usecase.go:190-205 | the corrected reset sets the hash the same way and spends the code |
| EmployerUsecase.IntendedResetCodeIsSpent | internal/usecase/employer_usecase.go:190-205 | after the corrected reset the same code is refused as expired |
| EmployerUsecase.ChangePassword | internal/usecase/employer_usecase.go:210-231 | an unknown employer and a wrong current password are refused without change; success rehashes exactly that employer |
| EmployerUsecase.ChangeThenCheck | internal/usecase/employer_usecase.go:210-231 | after a change the new password checks, and a different old one no longer does when both are read whole by bcrypt |
| EmployerUsecase.Paging | internal/usecase/employer_usecase.go:234-245 | the use case's clamp followed by the repository's gives the repository's page, limit and offset for the raw request; the page is at least 1 and the limit in [1, 100] |
| AuthUsecase.Subject | internal/usecase/auth_usecase.go:20-58 | a user is authenticated only for a known role with a stored row of that email whose hash matches |
| AuthUsecase.Login | internal/usecase/auth_usecase.go:20-58 | an unknown role is refused; success coincides with an authenticated subject and carries its id, the lower-cased role and a token for both; every other failure is "invalid credentials" |
| AuthUsecase.UnknownEmployerPanics | internal/usecase/auth_usecase.go:28-35 | an employer login for an email with no employer row reaches the nil dereference |
| AuthUsecase.LoginIntended | internal/usecase/auth_usecase.go:20-58 | the corrected login answers "invalid credentials" for the missing employer and succeeds exactly when the subject is authenticated |
| AuthUsecase.IntendedLoginExtends | internal/usecase/auth_usecase.go:20-58 | wherever the written login is defined the corrected one agrees with it |
| AuthUsecase.LoginIgnoresRoleCase | internal/usecase/auth_usecase.go:21 | two spellings of a role that differ only in case log in identically |
| AuthUsecase.EmployerLoginIgnoresCandidates | internal/usecase/auth_usecase.go:28-36 | an employer login does not depend on the candidate table |
| AuthUsecase.LoginTokenValidates | internal/usecase/auth_usecase.go:48-58 | the login token validates to the response's id and role from its issue time until its expiry, 24 hours after the first clock reading |
| AuthUsecase.Signup | internal/usecase/auth_usecase.go:75-117 | an unknown role and a hash failure are refused without change; an employer signup appends the employer under the next id; a candidate signup appends the candidate; neither mails a code |
| AuthUsecase.CandidateIdLost | internal/usecase/auth_usecase.go:104-116 | a generated id that `Atoi` rejects as malformed, every UUID among them, is reported as "0" |
| AuthUsecase.SignupThenLogin | internal/usecase/auth_usecase.go:75-117 | a new employer logs in with the same password and the login reports the id the signup did |
| Grpc.SelectToken | internal/grpcServer/grpc_usecase.go:617-630 | a non-empty request token wins; any token chosen comes from the request or the authorization metadata |
| Grpc.RequestTokenWins | internal/grpcServer/grpc_usecase.go:617-630 | with a request token the metadata does not matter |
| Grpc.StripBearer | internal/grpcServer/grpc_usecase.go:638-640 | one leading `Bearer ` is removed and anything else kept |
| Grpc.StripBearerRoundTrip | internal/grpcServer/grpc_usecase.go:638-640 | exactly one prefix is removed |
| Grpc.VerifyToken | internal/grpcServer/grpc_usecase.go:612-654 | no token is "No token provided"; every refusal is unauthenticated; the reply is the token's user id and role exactly when the stripped token validates |
| Grpc.MintedTokenAccepted | internal/grpcServer/grpc_usecase.go:612-654 | a minted token is accepted while live, from the request or from the metadata behind `Bearer `, giving its user and role |
| Grpc.ParseOtp | internal/grpcServer/grpc_usecase.go:86-89 | the code text parses exactly when it is 64-bit decimal, to its value; otherwise the error names the text |
| Grpc.MailedCodeParses | internal/grpcServer/grpc_usecase.go:86-89 | every mailed code's text parses back to the code |
| Grpc.CandidateVerifyEmail | internal/grpcServer/grpc_usecase.go:81-97 | unparsable text is refused without change; success is the repository's verification |
| Grpc.CandidateResetPassword | internal/grpcServer/grpc_usecase.go:125-142 | unparsable text is refused with the format prefix and no change; otherwise the state is the written reset's, its error is passed on, and success is its success |
| Grpc.EmployerVerifyEmail | internal/grpcServer/grpc_usecase.go:431-449 | unparsable text is an invalid argument; success is the repository's verification |
| Grpc.EmployerResetPassword | internal/grpcServer/grpc_usecase.go:465-482 | unparsable text is refused with the format prefix and no change; otherwise the state is the written reset's, its error is passed on, and success is its success |
| Grpc.NonDecimalRefused | internal/grpcServer/grpc_usecase.go:81-482 | text with a non-digit is refused by all four handlers without changing the state |
| Grpc.MailedCodeReachesOperation | internal/grpcServer/grpc_usecase.go:431-449 | a mailed code's text gets past the parse gate to the employer verification |
| Grpc.Paging | internal/grpcServer/grpc_usecase.go:658-665 | no pagination means page 1, limit 10; otherwise the request's values are used unchecked |
| Grpc.CandidateFilters | internal/grpcServer/grpc_usecase.go:667-680 | a filter key is present exactly when its value is given: non-empty text or a positive experience |
| Grpc.EmployerFilters | internal/grpcServer/grpc_usecase.go:767-777 | a filter key is present exactly when its text is non-empty |
| Grpc.FiltersCarryValues | internal/grpcServer/grpc_usecase.go:667-777 | each present filter carries the request's value |
| Grpc.Quot | internal/grpcServer/grpc_usecase.go:735 | Go's division agrees with floor division on non-negative operands |
| Grpc.CeilingDivision | internal/grpcServer/grpc_usecase.go:735-738 | the formula gives the least number of pages, at least one, that hold every row |
| Grpc.TotalPages | internal/grpcServer/grpc_usecase.go:735-738 | the written page count is at least one and, for a positive limit, exactly the pages the rows need |
| Grpc.TotalPagesIntended | internal/grpcServer/grpc_usecase.go:735-738 | the corrected page count is the number of pages of the limit the repository actually served |
| Grpc.TotalPagesAgreeInRange | internal/grpcServer/grpc_usecase.go:735-738 | for limits in [1, 100] the two page counts agree |
| Grpc.TotalPagesMisreports | internal/grpcServer/grpc_usecase.go:735-738 | a limit of 200 gives 5 pages although 100 were served, and a request with limit 0 reaches the division |
| Grpc.TotalPagesNegativeLimit | internal/grpcServer/grpc_usecase.go:735-738 | a request with limit -1 reaches the division, and an empty table is reported as two pages where one was served |
| Grpc.Pagination | internal/grpcServer/grpc_usecase.go:740-746 | the response echoes the page and limit used and, for counts in range, the count and its page number |
| Grpc.PagesBound | internal/grpcServer/grpc_usecase.go:735-738 | there are never more pages than rows, except the single page of an empty result |

## Left out

- Mail delivery, SMTP and its configuration: sending is an `Io` outcome plus an outbox entry. The message text and `strconv.Itoa` of the code in the body are not modelled.
- Resume upload to cloud storage (`AddResume`, `AddResumeFromBytes`), Google OAuth login and callback, and the HTTP handlers and routes are left out. They are I/O around the core.
- The ILIKE matching, `Count` and `Find` of the two pagination queries are left out. The result rows and the count are inputs. Only the clamp, offset and page arithmetic are modelled.
- The candidate repository's `GetCandidatesWithPagination` is not part of this model.
- Employer use-case functions that only delegate to the repository are left out, since their contracts are the repository members: `GetProfile`, `GetProfileById`, `Login`, `VerifyEmail`, `ResendOtp`, `ForgotPassword`, `ExtractUserIDFromToken` and `UpdateProfile`. The same holds for the candidate use case's delegating `Login`, `VerifyEmail`, `ResendOtp` and `ForgotPassword`.
- Jwt.GenerateToken: the signing-error branch is dropped, because HMAC signing with a byte key cannot fail. The serialiser is abstract, so the token's text is not modelled.
- Grpc.ParseOtp: the error text quotes the input as plain text; `strconv.Quote` escaping is not modelled.
- Grpc.NonDecimalRefused: for the candidate handlers it states only that the request is refused. The status code that gRPC attaches to a plain Go error is not modelled.
- Store.EmployerById: ids are compared with the exact decimal text. PostgreSQL's casting of text such as "012" or " 12" to an integer is not modelled.
- Text.ToLower: only ASCII letters are lower-cased. Unicode case mapping is not modelled.
- Text.LessEqTotal: ordering is by code point, as under the C collation. Locale collations are not modelled.
- Skills: the skills table has no primary key in the source. The model's well-formedness invariant records what `AddSkills` maintains; it is not a database constraint.
- Skills.AddThenGet: `AddSkills` writes through the `Skills` struct, whose table is `skills`, while `GetSkills` reads `Table("candidate_skills")` (`internal/repository/postgres/candidatepb.go:417`). The model treats the two names as one table. Nothing in the modelled code creates `candidate_skills`, so whether it is the same table depends on the deployed database.
- Store.CandidateByEmail: GORM's `First` orders by primary key. Candidate ids are random UUIDs, so when two candidate rows share an email the database returns the one with the smaller id, while the model returns the earlier-inserted one. Employer ids come from a counter, so for employers the two orders agree.
- CandidateRepo.SignupWith: the definition of the verification table is not part of this model. The model assumes email is its unique key, so a second insert for the same email fails with a unique violation.
- Jwt.ValidateToken: every refusal is one fixed text per kind (malformed, bad signature, used before issued, expired), not the library's wrapped error text with its inner cause. A token is still accepted in its expiry second, and an early issue time is reported as "Token used before issued", as the early jwt v4 releases do. Later v4 releases refuse a token in its expiry second and lower-case that message. The module file that pins the release is not part of this model. The `nbf` (not before) claim is not modelled, because the tokens minted here never carry it. The expiry message omits the "by <duration>" suffix the library appends.
- AuthUsecase.Login: the nil-employer input is excluded by its precondition, since the source panics there. `AuthUsecase.LoginIntended` covers it.
- Grpc.TotalPages: a zero limit is excluded by its precondition, since the source divides by zero there. `Grpc.TotalPagesIntended` covers it. A negative limit is admitted; `Grpc.TotalPagesNegativeLimit` shows one case.
- Otp.AssignMap: the model assumes email is the verification table's unique key, so a second create under the empty email conflicts. Without such a key the source would add another empty-email row instead. The PostgreSQL message is modelled without the constraint's name and detail.
- Crypto.OtherPasswordFails: bcrypt reads only the first 72 bytes of the password and its NUL terminator, so a password that extends a 72-byte one checks against its hash. The property is promised only for passwords of at most 71 ASCII characters. The UTF-8 byte length of other text is not modelled.
- Bcrypt cost, salts and the HMAC, base64 and JSON encodings are abstract functions. Their round-trip behaviour is assumed through the `Sound`, `Discriminating` and `Coherent` predicates, which each lemma names as a precondition.
- The logger, configuration loading, `main.go` wiring and the gRPC server plumbing are left out.

## Findings

| source | as written | input that shows it | evidently intended | confidence | as-written member | corrected member |
|---|---|---|---|---|---|---|
| internal/repository/postgres/employerpg.go:172 | `SendOtp`, `ResendOtp` and both `SendPasswordResetOtp` store a five-minute code, then pass that code to `pkg.SendOtp` as its expiry offset in seconds; a second code overwrites it | any reissue: code 123456 expires 123456 seconds (about 34 hours) after issue | one code, valid for five minutes | high, not executed | Otp.ReissueOtp, shown by Otp.ReissueOutlivesFiveMinutes | Otp.ReissueOtpIntended, proved by Otp.IntendedReissueWindow |
| internal/repository/postgres/candidatepb.go:264 | the candidate `ResendOtp` passes its freshly drawn code as the expiry offset | resend to a registered email: the mailed code stays valid for more than a day | the resent code is valid for five minutes | high, not executed | CandidateRepo.ResendOtp, shown by CandidateRepo.ResentCodeOutlivesFiveMinutes | CandidateRepo.ResendOtpIntended, proved by CandidateRepo.IntendedResendWindow |
| internal/repository/postgres/candidatepb.go:186 | candidate `Signup` passes 5 as the offset, so the signup code lasts five seconds | signup at time t: the code is expired at t + 6 | five minutes, as every other code path uses | medium, not executed | CandidateRepo.Signup, shown by CandidateRepo.SignupCodeLastsFiveSeconds | CandidateRepo.SignupIntended, proved by CandidateRepo.IntendedSignupCodeLastsFiveMinutes |
| internal/usecase/candidate_usecase.go:109-124 | the candidate password reset checks the code but never spends it | reset with an accepted code, then again with the same code within its window: both succeed | a reset code works once | medium, not executed | CandidateUsecase.ResetPassword, shown by CandidateUsecase.ResetCodeReplays | CandidateUsecase.ResetPasswordIntended, proved by CandidateUsecase.IntendedResetCodeIsSpent |
| internal/usecase/employer_usecase.go:190-205 | the employer password reset checks the code but never spends it | the same replay as for candidates | a reset code works once | medium, not executed | EmployerUsecase.ResetPassword, shown by EmployerUsecase.ResetCodeReplays | EmployerUsecase.ResetPasswordIntended, proved by EmployerUsecase.IntendedResetCodeIsSpent |
| internal/usecase/auth_usecase.go:29-35 | the repository returns a nil employer with no error for an unknown email, and `Login` reads its password | role "Employer", an email with no employer row | "invalid credentials" | high, not executed | AuthUsecase.Login, shown by AuthUsecase.UnknownEmployerPanics | AuthUsecase.LoginIntended, proved by AuthUsecase.IntendedLoginExtends |
| internal/grpcServer/grpc_usecase.go:735-738 | the page count divides by the request's raw limit, not the clamped one | limit 0 divides by zero; limit -1 reports two pages for an empty table; 1000 rows with limit 200 report 5 pages although 100 of 10 rows were served | pages of the limit actually applied | high, not executed | Grpc.TotalPages, shown by Grpc.TotalPagesMisreports and Grpc.TotalPagesNegativeLimit | Grpc.TotalPagesIntended, proved by Grpc.TotalPagesAgreeInRange |
| internal/repository/postgres/candidatepb.go:116-122 | a second spelling of a stored skill is "updated" through `Model(&existingSkill).Updates(skills)`, but a skill row has no primary key and global updates are off, so GORM refuses the update for lack of a `WHERE` condition | a candidate with "Go" adds " go ": "WHERE conditions required", nothing written | the stored row takes the new spelling and level | medium, not executed | Skills.AddSkills, shown by Skills.ReAddRefused | Skills.AddSkillsIntended, proved by Skills.IntendedAddThenGet |
| internal/repository/postgres/employerpg.go:356 | `(page - 1) * limit` is computed in 32 bits and wraps | page 2147483647, limit 10 gives offset -20, which serves the first page | the exact offset, an empty page past the end | medium, not executed | EmployerRepo.Offset, shown by EmployerRepo.OffsetWraps | EmployerRepo.OffsetIntended, proved by EmployerRepo.OffsetAgreesInRange |
| internal/repository/postgres/employerpg.go:158-166 | `SendOtp` and both `SendPasswordResetOtp` upsert with `Where("email = ?", email).Assign(map).FirstOrCreate`; on the create path GORM copies no string condition into the row, so it is created with an empty email | a first code sent to an email with no verification row: the code lands on the empty email's row; the next new email conflicts with it | the row is created under that email | medium, not executed | Otp.AssignMap, shown by Otp.FreshEmailWritesBlankRow and Otp.SecondFreshEmailRefused | Otp.AssignMapIntended, proved by Otp.IntendedAssignRecordsEmail |

=== FILE: auth_usecase.dfy ===
/** The role-dispatching use case: `Login` and `Signup` look at the
    lower-cased role and go to the employer or the candidate repository. */
module AuthUsecase {
  import opened Wrappers
  import opened Text
  import opened Crypto
  import opened Jwt
  import opened Store
  import opened Models
  import EmployerRepo

  const ErrInvalidRole := "invalid role"
  const ErrInvalidCredentials := "invalid credentials"
  const EmployerRegistered := "Employer registered successfully"
  const CandidateRegistered := "Candidate registered successfully"

  /** The roles the use case knows, after lower-casing. */
  predicate KnownRole(role: string) {
    role == "candidate" || role == "employer"
  }

  // ---------------------------------------------------------------------
  // Login

  /** The one input on which `Login` dereferences a missing employer: the
      repository reports "no such employer" as a nil result without an
      error, and the password check then reads through it. */
  predicate NilEmployer(db: Db, req: LoginRequest, lookup: Io) {
    && ToLower(req.role) == "employer"
    && EmployerRepo.GetEmployerByEmail(db, req.email, lookup) == Ok(None)
  }

  /** The user a login request names and authenticates, with the id the
      response carries: the employer's decimal id or the candidate's own. */
  function Subject(db: Db, b: Bcrypt, req: LoginRequest, lookup: Io): (r: Option<string>)
    ensures r.Some? ==> lookup.Done? && KnownRole(ToLower(req.role))
    ensures r.Some? && ToLower(req.role) == "employer" ==>
      exists e :: e in db.employers && e.email == req.email && Itoa(e.id) == r.value && CheckPassword(b, req.password, e.password)
    ensures r.Some? && ToLower(req.role) == "candidate" ==>
      exists c :: c in db.candidates && c.email == req.email && c.id == r.value && CheckPassword(b, req.password, c.password)
  {
    var role := ToLower(req.role);
    if lookup.Fails? || !KnownRole(role) then None
    else if role == "employer" then
      match EmployerByEmail(db, req.email)
      case Some(e) => if req.email != "" && CheckPassword(b, req.password, e.password) then Some(Itoa(e.id)) else None
      case None => None
    else
      match CandidateByEmail(db, req.email)
      case Some(c) => if CheckPassword(b, req.password, c.password) then Some(c.id) else None
      case None => None
  }

  /** `Login` as written. An unknown role is refused before any lookup;
      every lookup or password failure is "invalid credentials"; success
      carries the id, the lower-cased role and a token for both. The
      missing-employer case is excluded: the source panics there. */
  function Login(db: Db, jwt: JwtMaker, jose: Jose, b: Bcrypt, req: LoginRequest, clock: Readings, lookup: Io): (r: Result<LoginResponse>)
    requires !NilEmployer(db, req, lookup)
    ensures !KnownRole(ToLower(req.role)) ==> r == Err(ErrInvalidRole)
    ensures r.Err? ==> r.error in {ErrInvalidRole, ErrInvalidCredentials}
    ensures r.Ok? <==> Subject(db, b, req, lookup).Some?
    ensures r.Ok? ==>
      var id := Subject(db, b, req, lookup).value;
      r.value == LoginResponse(id, ToLower(req.role), GenerateToken(jwt, jose, id, ToLower(req.role), clock), "")
  {
    var role := ToLower(req.role);
    if !KnownRole(role) then Err(ErrInvalidRole)
    else if role == "employer" then
      match EmployerRepo.GetEmployerByEmail(db, req.email, lookup)
      case Err(_) => Err(ErrInvalidCredentials)
      case Ok(found) =>
        match found
        case Some(e) =>
          if !CheckPassword(b, req.password, e.password) then Err(ErrInvalidCredentials)
          else Respond(jwt, jose, Itoa(e.id), role, clock)
    else
      if lookup.Fails? then Err(ErrInvalidCredentials)
      else match CandidateByEmail(db, req.email)
        case None => Err(ErrInvalidCredentials)
        case Some(c) =>
          if !CheckPassword(b, req.password, c.password) then Err(ErrInvalidCredentials)
          else Respond(jwt, jose, c.id, role, clock)
  }

  /** The success response: the id, the role and a fresh token for both. */
  function Respond(jwt: JwtMaker, jose: Jose, userId: string, role: string, clock: Readings): Result<LoginResponse> {
    Ok(LoginResponse(userId, role, GenerateToken(jwt, jose, userId, role, clock), ""))
  }

  /** A registered email with role "employer" and no employer row reaches
      the dereference: such a request is outside `Login`'s domain. */
  lemma UnknownEmployerPanics(db: Db, req: LoginRequest)
    requires db.employers == []
    requires req.role == "Employer" && req.email != ""
    ensures NilEmployer(db, req, Done)
  {
    assert ToLower(req.role) == "employer";
  }

  /** `Login` as evidently intended: the missing employer is one more
      "invalid credentials". */
  function LoginIntended(db: Db, jwt: JwtMaker, jose: Jose, b: Bcrypt, req: LoginRequest, clock: Readings, lookup: Io): (r: Result<LoginResponse>)
    ensures !KnownRole(ToLower(req.role)) ==> r == Err(ErrInvalidRole)
    ensures NilEmployer(db, req, lookup) ==> r == Err(ErrInvalidCredentials)
    ensures r.Ok? <==> Subject(db, b, req, lookup).Some?
  {
    if NilEmployer(db, req, lookup) then Err(ErrInvalidCredentials)
    else Login(db, jwt, jose, b, req, clock, lookup)
  }

  /** Wherever the written `Login` is defined the intended one agrees with
      it. */
  lemma IntendedLoginExtends(db: Db, jwt: JwtMaker, jose: Jose, b: Bcrypt, req: LoginRequest, clock: Readings, lookup: Io)
    requires !NilEmployer(db, req, lookup)
    ensures LoginIntended(db, jwt, jose, b, req, clock, lookup) == Login(db, jwt, jose, b, req, clock, lookup)
  {
  }

  /** The role is matched case-insensitively: two spellings of it log in
      the same way. */
  lemma LoginIgnoresRoleCase(db: Db, jwt: JwtMaker, jose: Jose, b: Bcrypt, req: LoginRequest, clock: Readings, lookup: Io, role: string)
    requires ToLower(role) == ToLower(req.role)
    ensures LoginIntended(db, jwt, jose, b, req.(role := role), clock, lookup) == LoginIntended(db, jwt, jose, b, req, clock, lookup)
  {
  }

  /** A login as employer reads only the employer table: candidates do not
      change its answer. */
  lemma EmployerLoginIgnoresCandidates(db: Db, jwt: JwtMaker, jose: Jose, b: Bcrypt, req: LoginRequest, clock: Readings, lookup: Io,
                                       candidates: seq<Candidate>)
    requires ToLower(req.role) == "employer"
    ensures LoginIntended(db.(candidates := candidates), jwt, jose, b, req, clock, lookup) == LoginIntended(db, jwt, jose, b, req, clock, lookup)
  {
  }

  /** The token of a successful login validates to the response's id and
      role while it is live. */
  lemma LoginTokenValidates(db: Db, jwt: JwtMaker, jose: Jose, b: Bcrypt, req: LoginRequest, clock: Readings, lookup: Io, later: int)
    requires jose.Coherent()
    requires LoginIntended(db, jwt, jose, b, req, clock, lookup).Ok?
    requires Live(clock, later)
    ensures var resp := LoginIntended(db, jwt, jose, b, req, clock, lookup).value;
      ValidateToken(jwt, jose, resp.token, later) == Ok(Claims(resp.id, resp.role, clock.second, clock.first + TokenLifetime))
  {
    var resp := LoginIntended(db, jwt, jose, b, req, clock, lookup).value;
    GenerateValidate(jwt, jose, resp.id, resp.role, clock, later);
  }

  // ---------------------------------------------------------------------
  // Signup

  /** The id `CreateCandidate` reports: `strconv.Atoi` of the generated id
      with the error discarded, written back with `strconv.Itoa`. */
  function ReportedCandidateId(newId: string): string {
    FormatInt(ParseInt64(newId))
  }

  /** `Signup`: refuse an unknown role, hash the password (its error is
      returned as is), then create an employer with the company name, email
      and hash, or a candidate with the name, email and hash. Neither path
      sends a code. */
  function Signup(db: Db, b: Bcrypt, req: SignupRequest, newId: string, create: Io): (s: Step<AuthResponse>)
    ensures !KnownRole(ToLower(req.role)) ==> s == Step(db, Err(ErrInvalidRole))
    ensures KnownRole(ToLower(req.role)) && HashPassword(b, req.password).Err? ==> s == Step(db, Err(HashPassword(b, req.password).error))
    ensures s.result.Ok? <==> KnownRole(ToLower(req.role)) && HashPassword(b, req.password).Ok? && create.Done?
    ensures s.result.Err? ==> s.db == db
    ensures s.db.verifications == db.verifications && s.db.outbox == db.outbox
    ensures s.result.Ok? && ToLower(req.role) == "employer" ==>
      && s.db.candidates == db.candidates
      && s.db.employers == db.employers + [Employer(db.nextEmployerId, req.email, HashPassword(b, req.password).value, req.name,
                                                    0, "", "", "", false, false)]
      && s.result.value == AuthResponse(Itoa(db.nextEmployerId), EmployerRegistered)
    ensures s.result.Ok? && ToLower(req.role) == "candidate" ==>
      && s.db.employers == db.employers
      && s.db.candidates == db.candidates + [Candidate(newId, req.email, HashPassword(b, req.password).value, req.name, 0, 0, "", "", false)]
      && s.result.value == AuthResponse(ReportedCandidateId(newId), CandidateRegistered)
  {
    var role := ToLower(req.role);
    if !KnownRole(role) then Step(db, Err(ErrInvalidRole))
    else match HashPassword(b, req.password)
      case Err(e) => Step(db, Err(e))
      case Ok(hash) =>
        if role == "employer" then
          var created := EmployerRepo.CreateEmployer(db, Employer(0, req.email, hash, req.name, 0, "", "", "", false, false), create);
          if created.result.Err? then Step(created.db, Err(created.result.error))
          else Step(created.db, Ok(AuthResponse(Itoa(created.result.value), EmployerRegistered)))
        else if create.Fails? then Step(db, Err(create.reason))
        else
          var row := Candidate(newId, req.email, hash, req.name, 0, 0, "", "", false);
          Step(db.(candidates := db.candidates + [row]), Ok(AuthResponse(ReportedCandidateId(newId), CandidateRegistered)))
  }

  /** A generated id that `strconv.Atoi` cannot read is reported as "0".
      Every UUID is such an id, so the response never carries the
      candidate's real id. */
  lemma CandidateIdLost(db: Db, b: Bcrypt, req: SignupRequest, newId: string)
    requires ToLower(req.role) == "candidate" && HashPassword(b, req.password).Ok?
    requires MalformedInt(newId) || UuidText(newId)
    ensures Signup(db, b, req, newId, Done).result == Ok(AuthResponse("0", CandidateRegistered))
  {
    if UuidText(newId) {
      UuidMalformed(newId);
    }
    assert Itoa(0) == "0";
  }

  /** A signed-up employer can log in with the same password, and the login
      reports the id the signup did. */
  lemma SignupThenLogin(db: Db, jwt: JwtMaker, jose: Jose, b: Bcrypt, req: SignupRequest, clock: Readings)
    requires b.Sound()
    requires ToLower(req.role) == "employer" && req.email != ""
    requires forall e :: e in db.employers ==> e.email != req.email
    requires Signup(db, b, req, "", Done).result.Ok?
    ensures var s := Signup(db, b, req, "", Done);
      var r := LoginIntended(s.db, jwt, jose, b, LoginRequest(req.email, req.password, req.role), clock, Done);
      r.Ok? && r.value.id == s.result.value.id && r.value.role == "employer"
  {
    var s := Signup(db, b, req, "", Done);
    var e := s.db.employers[|db.employers|];
    HashThenCheck(b, req.password);
    assert e in s.db.employers;
  }
}

=== FILE: candidate_repo.dfy ===
/** The PostgreSQL candidate repository: login, signup with its first code,
    email verification, code resend, the password-reset code and the
    profile merge. Skills live in module `Skills`. */
module CandidateRepo {
  import opened Wrappers
  import opened Crypto
  import opened Jwt
  import opened Store
  import opened Otp
  import opened Models

  const ErrBadLogin := "invalid email or password"
  const LoginSuccessful := "Login successful"
  const CandidateRole := "candidate"
  const SignupCreated := "Candidate created successfully"
  const ErrStatusUpdate := "failed to update verification status"
  const ErrCandidateStatusUpdate := "failed to update candidate verification status"
  const ErrOtpUpdate := "failed to update OTP in the database"

  /** The expiry offset `Signup` hands to `pkg.SendOtp`: five seconds. */
  const SignupOffset: nat := 5

  // ---------------------------------------------------------------------
  // Login

  /** The candidate a login request names, when its password matches. */
  predicate Admits(db: Db, b: Bcrypt, req: LoginRequest) {
    && CandidateByEmail(db, req.email).Some?
    && CheckPassword(b, req.password, CandidateByEmail(db, req.email).value.password)
  }

  /** `Login`: an unknown email, a failed query and a wrong password all give
      the same message; success carries a token for the candidate's id and
      role "candidate", minted with the two clock readings. */
  function Login(db: Db, jwt: JwtMaker, jose: Jose, b: Bcrypt, req: LoginRequest, clock: Readings, query: Io): (r: Result<LoginResponse>)
    ensures r.Ok? <==> query.Done? && Admits(db, b, req)
    ensures r.Err? ==> r.error == ErrBadLogin
    ensures r.Ok? ==>
      var c := CandidateByEmail(db, req.email).value;
      && r.value.id == c.id && r.value.role == CandidateRole && r.value.message == LoginSuccessful
      && r.value.token == GenerateToken(jwt, jose, c.id, CandidateRole, clock)
  {
    if query.Fails? then Err(ErrBadLogin)
    else match CandidateByEmail(db, req.email)
      case None => Err(ErrBadLogin)
      case Some(c) =>
        if !CheckPassword(b, req.password, c.password) then Err(ErrBadLogin)
        else Ok(LoginResponse(c.id, CandidateRole, GenerateToken(jwt, jose, c.id, CandidateRole, clock), LoginSuccessful))
  }

  /** The token a successful login returns validates, under the same maker
      and while it is live, to the candidate's id and the role "candidate". */
  lemma LoginTokenValidates(db: Db, jwt: JwtMaker, jose: Jose, b: Bcrypt, req: LoginRequest, clock: Readings, later: int)
    requires jose.Coherent()
    requires Login(db, jwt, jose, b, req, clock, Done).Ok?
    requires Live(clock, later)
    ensures var resp := Login(db, jwt, jose, b, req, clock, Done).value;
      ValidateToken(jwt, jose, resp.token, later) == Ok(Claims(resp.id, CandidateRole, clock.second, clock.first + TokenLifetime))
  {
    var c := CandidateByEmail(db, req.email).value;
    GenerateValidate(jwt, jose, c.id, CandidateRole, clock, later);
  }

  // ---------------------------------------------------------------------
  // Signup

  /** Only the candidate table, the verification table and the outbox may
      differ. */
  predicate OthersKept(db: Db, db': Db) {
    && db'.employers == db.employers
    && db'.nextEmployerId == db.nextEmployerId
    && db'.skills == db.skills
    && db'.education == db.education
  }

  /** The row `Signup` inserts: the request's email, name and (already
      hashed) password, everything else zero. */
  function NewCandidate(id: string, req: SignupRequest): Candidate {
    Candidate(id, req.email, req.password, req.name, 0, 0, "", "", false)
  }

  /** Shared shape of `Signup` for a given expiry offset: insert the
      verification row (a second row for the same email violates the key),
      issue a code through `pkg.SendOtp`, then insert the candidate whose id
      the database generates (`newId`). */
  function SignupWith(offset: nat, db: Db, req: SignupRequest, now: Time, draw: Draw, newId: string,
                      createRecord: Io, store: Io, mail: Io, createCandidate: Io): (s: Step<AuthResponse>)
    ensures OthersKept(db, s.db)
    ensures req.email in db.verifications ==> s == Step(db, Err(ErrUniqueViolation))
    ensures s.result.Ok? <==>
      req.email !in db.verifications && createRecord.Done? && store.Done? && mail.Done? && createCandidate.Done?
    ensures s.result.Ok? ==>
      && s.result.value == AuthResponse(newId, SignupCreated)
      && s.db.candidates == db.candidates + [NewCandidate(newId, req)]
      && s.db.verifications == db.verifications[req.email := Verification(Code(draw), now + offset, false, req.role)]
      && s.db.outbox == db.outbox + [Mail(req.email, Code(draw))]
    ensures s.result.Err? ==> s.db.candidates == db.candidates
    ensures req.email !in db.verifications && createRecord.Done? ==>
      req.email in s.db.verifications && !s.db.verifications[req.email].verified
  {
    if req.email in db.verifications then Step(db, Err(ErrUniqueViolation))
    else if createRecord.Fails? then Step(db, Err(createRecord.reason))
    else
      var db1 := db.(verifications := db.verifications[req.email := Verification(0, 0, false, req.role)]);
      var sent := SendOtp(db1, req.email, offset, now, draw, store, mail);
      if sent.result.Err? then Step(sent.db, Err(sent.result.error))
      else if createCandidate.Fails? then Step(sent.db, Err(createCandidate.reason))
      else Step(sent.db.(candidates := sent.db.candidates + [NewCandidate(newId, req)]), Ok(AuthResponse(newId, SignupCreated)))
  }

  /** `Signup` as written: the code's expiry offset is 5 seconds. */
  function Signup(db: Db, req: SignupRequest, now: Time, draw: Draw, newId: string,
                  createRecord: Io, store: Io, mail: Io, createCandidate: Io): (s: Step<AuthResponse>)
    ensures s.result.Ok? <==>
      req.email !in db.verifications && createRecord.Done? && store.Done? && mail.Done? && createCandidate.Done?
    ensures s.result.Ok? ==>
      && s.db.verifications == db.verifications[req.email := Verification(Code(draw), now + 5, false, req.role)]
      && s.db.candidates == db.candidates + [NewCandidate(newId, req)]
      && s.db.outbox == db.outbox + [Mail(req.email, Code(draw))]
  {
    SignupWith(SignupOffset, db, req, now, draw, newId, createRecord, store, mail, createCandidate)
  }

  /** `Signup` with the five-minute offset every other issuer uses. */
  function SignupIntended(db: Db, req: SignupRequest, now: Time, draw: Draw, newId: string,
                          createRecord: Io, store: Io, mail: Io, createCandidate: Io): (s: Step<AuthResponse>)
    ensures s.result.Ok? <==>
      req.email !in db.verifications && createRecord.Done? && store.Done? && mail.Done? && createCandidate.Done?
    ensures s.result.Ok? ==>
      && s.db.verifications == db.verifications[req.email := Verification(Code(draw), now + 300, false, req.role)]
      && s.db.candidates == db.candidates + [NewCandidate(newId, req)]
      && s.db.outbox == db.outbox + [Mail(req.email, Code(draw))]
  {
    SignupWith(FiveMinutes, db, req, now, draw, newId, createRecord, store, mail, createCandidate)
  }

  /** As written, the code mailed at signup is already expired six seconds
      later. */
  lemma SignupCodeLastsFiveSeconds(db: Db, req: SignupRequest, now: Time, draw: Draw, newId: string)
    requires req.email !in db.verifications
    ensures var s := Signup(db, req, now, draw, newId, Done, Done, Done, Done);
      && s.result.Ok?
      && CheckOtp(s.db.verifications, req.email, Code(draw), now + SignupOffset) == Ok(())
      && CheckOtp(s.db.verifications, req.email, Code(draw), now + 6) == Err(ErrOtpExpired)
  {
  }

  /** With the intended offset the mailed code is accepted for the full five
      minutes and rejected as expired only after them. */
  lemma IntendedSignupCodeLastsFiveMinutes(db: Db, req: SignupRequest, now: Time, draw: Draw, newId: string, later: Time)
    requires req.email !in db.verifications
    ensures var s := SignupIntended(db, req, now, draw, newId, Done, Done, Done, Done);
      && s.result.Ok?
      && (now <= later <= now + FiveMinutes ==> CheckOtp(s.db.verifications, req.email, Code(draw), later) == Ok(()))
      && (later > now + FiveMinutes ==> CheckOtp(s.db.verifications, req.email, Code(draw), later) == Err(ErrOtpExpired))
  {
  }

  // ---------------------------------------------------------------------
  // Verification

  /** `VerifyEmail`: after reading the row and the shared code check, mark the
      verification row and then every candidate row with this email as
      verified. */
  function VerifyEmail(db: Db, email: string, otp: nat, now: Time, read: Io, markRecord: Io, markCandidate: Io): (s: Step<()>)
    ensures s.db.employers == db.employers && s.db.skills == db.skills && s.db.education == db.education
    ensures s.db.outbox == db.outbox
    ensures read.Fails? ==> s == Step(db, Err(ErrNotRegistered))
    ensures ReadCheck(db.verifications, email, otp, now, read).Err? ==> s == Step(db, ReadCheck(db.verifications, email, otp, now, read))
    ensures s.result.Ok? <==> read.Done? && Accepts(db.verifications, email, otp, now) && markRecord.Done? && markCandidate.Done?
    ensures read.Done? && Accepts(db.verifications, email, otp, now) && markRecord.Done? ==>
      && email in s.db.verifications && s.db.verifications[email].verified
      && OthersUnchanged(db.verifications, s.db.verifications, email)
    ensures s.result.Ok? ==>
      && |s.db.candidates| == |db.candidates|
      && (forall i :: 0 <= i < |db.candidates| && db.candidates[i].email == email ==> s.db.candidates[i].isVerified)
      && (forall i :: 0 <= i < |db.candidates| && db.candidates[i].email != email ==> s.db.candidates[i] == db.candidates[i])
    ensures s.result.Err? ==> s.db.candidates == db.candidates
  {
    var check := ReadCheck(db.verifications, email, otp, now, read);
    if check.Err? then Step(db, check)
    else if markRecord.Fails? then Step(db, Err(ErrStatusUpdate))
    else
      var db1 := db.(verifications := db.verifications[email := db.verifications[email].(verified := true)]);
      if markCandidate.Fails? then Step(db1, Err(ErrCandidateStatusUpdate))
      else Step(db1.(candidates := MarkCandidatesVerified(db1.candidates, email)), Ok(()))
  }

  /** `VerifyPasswordResetOtp`: the same read and three checks, writing
      nothing. */
  function VerifyPasswordResetOtp(db: Db, email: string, otp: nat, now: Time, read: Io): (r: Result<()>)
    ensures r.Ok? <==> read.Done? && Accepts(db.verifications, email, otp, now)
    ensures read.Fails? || email !in db.verifications ==> r == Err(ErrNotRegistered)
    ensures read.Done? && email in db.verifications && db.verifications[email].otp != otp ==> r == Err(ErrInvalidOtp)
    ensures r.Err? ==> r.error in {ErrNotRegistered, ErrInvalidOtp, ErrOtpExpired}
  {
    ReadCheck(db.verifications, email, otp, now, read)
  }

  /** Signing up and then entering the mailed code within its five seconds
      verifies the new candidate. */
  lemma SignupThenVerify(db: Db, req: SignupRequest, now: Time, draw: Draw, newId: string, later: Time)
    requires req.email !in db.verifications
    requires now <= later <= now + SignupOffset
    ensures var s := Signup(db, req, now, draw, newId, Done, Done, Done, Done);
      var v := VerifyEmail(s.db, req.email, Code(draw), later, Done, Done, Done);
      && v.result.Ok?
      && v.db.candidates[|db.candidates|] == NewCandidate(newId, req).(isVerified := true)
  {
    var s := Signup(db, req, now, draw, newId, Done, Done, Done, Done);
    assert s.db.candidates[|db.candidates|] == NewCandidate(newId, req);
  }

  // ---------------------------------------------------------------------
  // Reissuing codes

  /** `ResendOtp`: requires the row to be read, writes a fresh code with a
      five-minute expiry (status untouched), then calls `pkg.SendOtp` with
      that code as the expiry offset, which draws and mails a second code. */
  function ResendOtp(db: Db, email: string, now: Time, first: Draw, second: Draw, read: Io, update: Io, store: Io, mail: Io): (s: Step<()>)
    ensures AccountsUnchanged(db, s.db)
    ensures OthersUnchanged(db.verifications, s.db.verifications, email)
    ensures read.Fails? || email !in db.verifications ==> s == Step(db, Err(ErrNotRegistered))
    ensures update.Fails? ==> s.db == db && s.result.Err?
    ensures read.Done? && email in db.verifications && update.Done? ==>
      && email in s.db.verifications
      && s.db.verifications[email].verified == db.verifications[email].verified
      && s.db.verifications[email].role == db.verifications[email].role
    ensures read.Done? && email in db.verifications && update.Done? && store.Done? ==>
      && s.db.verifications[email].otp == Code(second)
      && s.db.verifications[email].expiry == now + Code(first)
    ensures s.db.outbox == db.outbox +
      (if read.Done? && email in db.verifications && update.Done? && store.Done? && mail.Done? then [Mail(email, Code(second))] else [])
    ensures s.result.Ok? <==> read.Done? && email in db.verifications && update.Done? && store.Done? && mail.Done?
  {
    if read.Fails? || email !in db.verifications then Step(db, Err(ErrNotRegistered))
    else if update.Fails? then Step(db, Err(ErrOtpUpdate))
    else
      var code := Code(first);
      var db1 := db.(verifications := db.verifications[email := db.verifications[email].(otp := code, expiry := now + FiveMinutes)]);
      var sent := SendOtp(db1, email, code, now, second, store, mail);
      if sent.result.Err? then Step(sent.db, Err("failed to send OTP: " + sent.result.error)) else sent
  }

  /** As written, a resent code outlives its five minutes by more than a day. */
  lemma ResentCodeOutlivesFiveMinutes(db: Db, email: string, now: Time, first: Draw, second: Draw)
    requires email in db.verifications
    ensures var s := ResendOtp(db, email, now, first, second, Done, Done, Done, Done);
      && s.result.Ok?
      && CheckOtp(s.db.verifications, email, Code(second), now + CodeFloor) == Ok(())
  {
  }

  /** What `ResendOtp` evidently means: one fresh code with a five-minute
      expiry, written once and mailed. */
  function ResendOtpIntended(db: Db, email: string, now: Time, draw: Draw, read: Io, update: Io, mail: Io): (s: Step<()>)
    ensures AccountsUnchanged(db, s.db)
    ensures OthersUnchanged(db.verifications, s.db.verifications, email)
    ensures read.Fails? || email !in db.verifications ==> s == Step(db, Err(ErrNotRegistered))
    ensures read.Done? && email in db.verifications && update.Done? ==>
      && email in s.db.verifications
      && s.db.verifications[email] == db.verifications[email].(otp := Code(draw), expiry := now + FiveMinutes)
    ensures s.db.outbox == db.outbox +
      (if read.Done? && email in db.verifications && update.Done? && mail.Done? then [Mail(email, Code(draw))] else [])
    ensures s.result.Ok? <==> read.Done? && email in db.verifications && update.Done? && mail.Done?
  {
    if read.Fails? || email !in db.verifications then Step(db, Err(ErrNotRegistered))
    else if update.Fails? then Step(db, Err(ErrOtpUpdate))
    else
      var db1 := db.(verifications := db.verifications[email := db.verifications[email].(otp := Code(draw), expiry := now + FiveMinutes)]);
      if mail.Fails? then Step(db1, Err("failed to send OTP: " + mail.reason))
      else Step(db1.(outbox := db1.outbox + [Mail(email, Code(draw))]), Ok(()))
  }

  /** The intended resend gives the mailed code exactly five minutes. */
  lemma IntendedResendWindow(db: Db, email: string, now: Time, draw: Draw, later: Time)
    requires email in db.verifications
    ensures var s := ResendOtpIntended(db, email, now, draw, Done, Done, Done);
      && s.result.Ok?
      && (now <= later <= now + FiveMinutes ==> CheckOtp(s.db.verifications, email, Code(draw), later) == Ok(()))
      && (later > now + FiveMinutes ==> CheckOtp(s.db.verifications, email, Code(draw), later) == Err(ErrOtpExpired))
  {
  }

  /** `SendPasswordResetOtp`: the map-form reissue. */
  function SendPasswordResetOtp(db: Db, email: string, now: Time, first: Draw, second: Draw, store1: Io, store2: Io, mail: Io): (s: Step<()>)
    ensures AccountsUnchanged(db, s.db)
    ensures OthersKeptBut(db.verifications, s.db.verifications, email)
    ensures s.result.Ok? <==> store1.Done? && MapWriteFits(db.verifications, email) && store2.Done? && mail.Done?
    ensures store1.Done? && !MapWriteFits(db.verifications, email) ==> s == Step(db, Err(ErrStoreOtp + ErrUniqueViolation))
    ensures s.result.Ok? ==>
      && email in s.db.verifications
      && s.db.verifications[email] ==
           Verification(Code(second), now + Code(first), false, if email in db.verifications then db.verifications[email].role else "")
      && s.db.outbox == db.outbox + [Mail(email, Code(second))]
    ensures s.result.Ok? && email != UnkeyedEmail && email !in db.verifications ==>
      && UnkeyedEmail in s.db.verifications
      && s.db.verifications[UnkeyedEmail] == Verification(Code(first), now + FiveMinutes, false, "")
  {
    ReissueOtp(db, email, now, first, second, store1, store2, mail)
  }

  // ---------------------------------------------------------------------
  // Profile

  /** Overwrites a field only with a non-empty input. */
  function Keep(input: string, current: string): string {
    if input != "" then input else current
  }

  /** Overwrites a number only with a non-zero input. */
  function KeepNumber(input: int, current: int): int {
    if input != 0 then input else current
  }

  /** The candidate `UpdateCandidate` saves: every non-empty, non-zero input
      field replaces the stored one; id, password and status stay. */
  function Merge(c: Candidate, input: UpdateCandidateInput): (r: Candidate)
    ensures r.id == c.id && r.password == c.password && r.isVerified == c.isVerified
    ensures (input.email != "" ==> r.email == input.email) && (input.email == "" ==> r.email == c.email)
    ensures (input.name != "" ==> r.name == input.name) && (input.name == "" ==> r.name == c.name)
    ensures (input.phone != 0 ==> r.phone == input.phone) && (input.phone == 0 ==> r.phone == c.phone)
    ensures (input.experience != 0 ==> r.experience == input.experience) && (input.experience == 0 ==> r.experience == c.experience)
    ensures (input.currentLocation != "" ==> r.currentLocation == input.currentLocation)
    ensures (input.currentLocation == "" ==> r.currentLocation == c.currentLocation)
    ensures (input.preferredLocation != "" ==> r.preferredLocation == input.preferredLocation)
    ensures (input.preferredLocation == "" ==> r.preferredLocation == c.preferredLocation)
  {
    c.(email := Keep(input.email, c.email),
       name := Keep(input.name, c.name),
       phone := KeepNumber(input.phone, c.phone),
       experience := KeepNumber(input.experience, c.experience),
       currentLocation := Keep(input.currentLocation, c.currentLocation),
       preferredLocation := Keep(input.preferredLocation, c.preferredLocation))
  }

  /** An input with every field empty or zero changes nothing. */
  lemma MergeEmptyInput(c: Candidate)
    ensures Merge(c, UpdateCandidateInput("", "", 0, 0, "", "")) == c
  {
  }

  /** Applying the same update twice is applying it once. */
  lemma MergeIdempotent(c: Candidate, input: UpdateCandidateInput)
    ensures Merge(Merge(c, input), input) == Merge(c, input)
  {
  }

  /** `UpdateCandidate`: the first row with the id is merged with the input
      and saved in place; a failed lookup passes its error on as is, and no
      row gives `record not found`. */
  function UpdateCandidate(db: Db, input: UpdateCandidateInput, userId: string, lookup: Io, save: Io): (s: Step<()>)
    ensures OthersKept(db, s.db) && s.db.verifications == db.verifications && s.db.outbox == db.outbox
    ensures lookup.Fails? ==> s == Step(db, Err(lookup.reason))
    ensures lookup.Done? && CandidateById(db, userId).None? ==> s == Step(db, Err(ErrRecordNotFound))
    ensures lookup.Done? && CandidateById(db, userId).Some? && save.Fails? ==> s == Step(db, Err(save.reason))
    ensures s.result.Ok? <==> lookup.Done? && CandidateById(db, userId).Some? && save.Done?
    ensures s.result.Err? ==> s.db == db
    ensures s.result.Ok? ==>
      var i := CandidateIndexById(db.candidates, userId).value;
      && |s.db.candidates| == |db.candidates|
      && s.db.candidates[i] == Merge(db.candidates[i], input)
      && (forall k :: 0 <= k < |db.candidates| && k != i ==> s.db.candidates[k] == db.candidates[k])
  {
    if lookup.Fails? then Step(db, Err(lookup.reason))
    else match CandidateIndexById(db.candidates, userId)
    case None => Step(db, Err(ErrRecordNotFound))
    case Some(i) =>
      if save.Fails? then Step(db, Err(save.reason))
      else Step(db.(candidates := db.candidates[i := Merge(db.candidates[i], input)]), Ok(()))
  }

  /** A candidate with the skill and education rows that carry its id. */
  datatype Profile = Profile(candidate: Candidate, skills: seq<Skill>, education: seq<Education>)

  /** `GetCandidateByUserID`: the skill and education rows of the id, then the
      candidate itself; a failed query or a missing candidate is an error. */
  function GetCandidateByUserId(db: Db, userId: string, query: Io): (r: Result<Profile>)
    ensures query.Fails? ==> r == Err(query.reason)
    ensures query.Done? && CandidateById(db, userId).None? ==> r == Err(ErrRecordNotFound)
    ensures r.Ok? <==> query.Done? && CandidateById(db, userId).Some?
    ensures r.Ok? ==>
      && r.value.candidate in db.candidates && r.value.candidate.id == userId
      && (forall row :: row in r.value.skills <==> row in db.skills && row.candidateId == userId)
      && (forall row :: row in r.value.education <==> row in db.education && row.candidateId == userId)
    ensures r.Ok? ==>
      && (forall row :: multiset(r.value.skills)[row] == if row.candidateId == userId then multiset(db.skills)[row] else 0)
      && (forall row :: multiset(r.value.education)[row] == if row.candidateId == userId then multiset(db.education)[row] else 0)
  {
    if query.Fails? then Err(query.reason)
    else match CandidateById(db, userId)
      case None => Err(ErrRecordNotFound)
      case Some(c) => Ok(Profile(c, SelectWhere(db.skills, (row: Skill) => row.candidateId == userId),
                                  SelectWhere(db.education, (row: Education) => row.candidateId == userId)))
  }

  /** `UpdatePassword`: every candidate row with the email gets the hash. */
  function UpdatePassword(db: Db, email: string, hash: string): (r: Db)
    ensures r == db.(candidates := r.candidates)
    ensures |r.candidates| == |db.candidates|
    ensures forall i :: 0 <= i < |db.candidates| ==>
      r.candidates[i] == (if db.candidates[i].email == email then db.candidates[i].(password := hash) else db.candidates[i])
  {
    db.(candidates := SetCandidatePasswordByEmail(db.candidates, email, hash))
  }

  /** `UpdatePasswordByID`. */
  function UpdatePasswordById(db: Db, userId: string, hash: string): (r: Db)
    ensures r == db.(candidates := r.candidates)
    ensures |r.candidates| == |db.candidates|
    ensures forall i :: 0 <= i < |db.candidates| ==>
      r.candidates[i] == (if db.candidates[i].id == userId then db.candidates[i].(password := hash) else db.candidates[i])
  {
    db.(candidates := SetCandidatePasswordById(db.candidates, userId, hash))
  }

  /** `AddEducation`: a new row for the candidate. */
  function AddEducation(db: Db, edu: Education, userId: string, create: Io): (s: Step<()>)
    ensures s.result.Ok? <==> create.Done?
    ensures s.result.Ok? ==> s.db == db.(education := db.education + [edu.(candidateId := userId)])
    ensures s.result.Err? ==> s.db == db
  {
    if create.Fails? then Step(db, Err(create.reason))
    else Step(db.(education := db.education + [edu.(candidateId := userId)]), Ok(()))
  }

  /** An education row added for an existing candidate is part of that
      candidate's profile afterwards, with the candidate's id. */
  lemma AddEducationThenProfile(db: Db, edu: Education, userId: string)
    requires CandidateById(db, userId).Some?
    ensures var s := AddEducation(db, edu, userId, Done);
      var p := GetCandidateByUserId(s.db, userId, Done);
      && p.Ok?
      && edu.(candidateId := userId) in p.value.education
      && multiset(p.value.education)[edu.(candidateId := userId)]
           == multiset(GetCandidateByUserId(db, userId, Done).value.education)[edu.(candidateId := userId)] + 1
  {
    var row := edu.(candidateId := userId);
    var s := AddEducation(db, edu, userId, Done);
    assert s.db.education[|db.education|] == row;
    assert multiset(s.db.education) == multiset(db.education) + multiset{row};
  }
}

=== FILE: candidate_usecase.dfy ===
/** The candidate use case: signup with a duplicate check and hashing, the
    OTP-gated password reset, the password change gated on the current
    password, and the profile operations guarded by the bearer token. */
module CandidateUsecase {
  import opened Wrappers
  import opened Crypto
  import opened Jwt
  import opened Store
  import opened Otp
  import opened Models
  import CandidateRepo
  import Skills

  const ErrEmailExists := "email already exists"
  const ErrHash := "failed to hash password"
  const ErrUserNotFound := "user not found"
  const ErrWrongCurrent := "current password is incorrect"
  const ErrHashNew := "failed to hash new password"

  // ---------------------------------------------------------------------
  // Signup

  /** `Signup`: refuse an email a candidate already has (a failed lookup
      counts as "no candidate"), hash the password, and hand the request with
      only the hash to the repository. */
  function Signup(db: Db, b: Bcrypt, req: SignupRequest, now: Time, draw: Draw, newId: string,
                  lookup: Io, createRecord: Io, store: Io, mail: Io, createCandidate: Io): (s: Step<AuthResponse>)
    ensures lookup.Done? && CandidateByEmail(db, req.email).Some? ==> s == Step(db, Err(ErrEmailExists))
    ensures HashPassword(b, req.password).Err? && s.result.Err? ==> s.db == db
    ensures s.result.Ok? ==>
      && (lookup.Fails? || CandidateByEmail(db, req.email).None?)
      && HashPassword(b, req.password).Ok?
      && s.db.candidates == db.candidates + [CandidateRepo.NewCandidate(newId, req.(password := HashPassword(b, req.password).value))]
    ensures s.result.Ok? <==>
      && (lookup.Fails? || CandidateByEmail(db, req.email).None?)
      && HashPassword(b, req.password).Ok?
      && req.email !in db.verifications
      && createRecord.Done? && store.Done? && mail.Done? && createCandidate.Done?
    ensures (lookup.Fails? || CandidateByEmail(db, req.email).None?) && HashPassword(b, req.password).Ok? ==>
      s == CandidateRepo.Signup(db, req.(password := HashPassword(b, req.password).value), now, draw, newId,
                                createRecord, store, mail, createCandidate)
  {
    if lookup.Done? && CandidateByEmail(db, req.email).Some? then Step(db, Err(ErrEmailExists))
    else match HashPassword(b, req.password)
      case Err(_) => Step(db, Err(ErrHash))
      case Ok(hash) =>
        CandidateRepo.Signup(db, req.(password := hash), now, draw, newId, createRecord, store, mail, createCandidate)
  }

  /** After a successful signup the same email and password log in, as the
      new candidate: the row is the first with that email and its stored hash
      matches the password. */
  lemma SignupThenLogin(db: Db, b: Bcrypt, jwt: JwtMaker, jose: Jose, req: SignupRequest, now: Time, draw: Draw, newId: string,
                        lookup: Io, clock: Readings)
    requires b.Sound()
    requires lookup.Done?
    requires Signup(db, b, req, now, draw, newId, lookup, Done, Done, Done, Done).result.Ok?
    ensures var s := Signup(db, b, req, now, draw, newId, lookup, Done, Done, Done, Done);
      var r := CandidateRepo.Login(s.db, jwt, jose, b, LoginRequest(req.email, req.password, req.role), clock, Done);
      r.Ok? && r.value.id == newId
  {
    var s := Signup(db, b, req, now, draw, newId, lookup, Done, Done, Done, Done);
    var hash := HashPassword(b, req.password).value;
    var row := CandidateRepo.NewCandidate(newId, req.(password := hash));
    FirstWithEmailIsAppended(db.candidates, row);
    HashThenCheck(b, req.password);
  }

  /** Appending a row whose email no earlier row has makes it the row an
      email lookup finds. */
  lemma FirstWithEmailIsAppended(cs: seq<Candidate>, row: Candidate)
    requires forall c :: c in cs ==> c.email != row.email
    ensures CandidateIndexByEmail(cs + [row], row.email) == Some(|cs|)
  {
    var cs' := cs + [row];
    assert cs'[|cs|] == row;
    assert forall k :: 0 <= k < |cs| ==> cs'[k] == cs[k];
  }

  // ---------------------------------------------------------------------
  // Tokens

  /** `ExtractUserIDFromToken` of this use case is a stub: the empty id and
      no error, whatever the token. */
  function ExtractUserIdFromToken(token: string): (r: Result<string>)
    ensures r.Ok? && r.value == ""
  {
    Ok("")
  }

  /** The stub cannot tell tokens apart. */
  lemma StubIgnoresToken(t1: string, t2: string)
    ensures ExtractUserIdFromToken(t1) == ExtractUserIdFromToken(t2)
  {
  }

  /** `VerifyToken`: the claims of a valid token. */
  function VerifyToken(jwt: JwtMaker, jose: Jose, token: string, now: int): (r: Result<Claims>)
    ensures r.Ok? <==> Authentic(jwt, jose, token, now)
    ensures r.Ok? ==> jose.parse(token) == Some(Jws(r.value, jose.sign(jwt.secretKey, r.value)))
    ensures r.Err? ==> r.error in {ErrMalformed, ErrSignatureInvalid, ErrUsedBeforeIssued, ErrExpired}
  {
    ValidateToken(jwt, jose, token, now)
  }

  // ---------------------------------------------------------------------
  // Passwords

  /** Every candidate row with the email now holds the hash; the rest of the
      table is as it was. */
  predicate PasswordSetByEmail(cs: seq<Candidate>, cs': seq<Candidate>, email: string, hash: string) {
    && |cs'| == |cs|
    && (forall i :: 0 <= i < |cs| && cs[i].email == email ==> cs'[i] == cs[i].(password := hash))
    && (forall i :: 0 <= i < |cs| && cs[i].email != email ==> cs'[i] == cs[i])
  }

  /** `ResetPassword`: the reset code must pass the shared check; then the
      new password's hash replaces the stored one. The code is left as it
      was. */
  function ResetPassword(db: Db, b: Bcrypt, email: string, otp: nat, newPassword: string, now: Time, read: Io, update: Io): (s: Step<()>)
    ensures !(read.Done? && Accepts(db.verifications, email, otp, now)) ==>
      s == Step(db, ReadCheck(db.verifications, email, otp, now, read))
    ensures s.result.Ok? <==> read.Done? && Accepts(db.verifications, email, otp, now) && HashPassword(b, newPassword).Ok? && update.Done?
    ensures s.result.Err? ==> s.db == db
    ensures s.result.Ok? ==>
      && s.db == db.(candidates := s.db.candidates)
      && PasswordSetByEmail(db.candidates, s.db.candidates, email, HashPassword(b, newPassword).value)
  {
    var check := CandidateRepo.VerifyPasswordResetOtp(db, email, otp, now, read);
    if check.Err? then Step(db, check)
    else match HashPassword(b, newPassword)
      case Err(_) => Step(db, Err(ErrHash))
      case Ok(hash) =>
        if update.Fails? then Step(db, Err(update.reason))
        else Step(CandidateRepo.UpdatePassword(db, email, hash), Ok(()))
  }

  /** As written, a reset code can be used again: a second reset with the same
      code, before it expires, succeeds as well. */
  lemma ResetCodeReplays(db: Db, b: Bcrypt, email: string, otp: nat, p1: string, p2: string, now: Time, later: Time)
    requires Accepts(db.verifications, email, otp, later)
    requires now <= later
    requires HashPassword(b, p1).Ok? && HashPassword(b, p2).Ok?
    ensures var s1 := ResetPassword(db, b, email, otp, p1, now, Done, Done);
      && s1.result.Ok?
      && ResetPassword(s1.db, b, email, otp, p2, later, Done, Done).result.Ok?
  {
  }

  /** What `ResetPassword` evidently means: a used code is spent. The record's
      expiry is moved to 0, before any clock reading. */
  function ResetPasswordIntended(db: Db, b: Bcrypt, email: string, otp: nat, newPassword: string, now: Time, read: Io, update: Io): (s: Step<()>)
    ensures !(read.Done? && Accepts(db.verifications, email, otp, now)) ==>
      s == Step(db, ReadCheck(db.verifications, email, otp, now, read))
    ensures s.result.Ok? <==> read.Done? && Accepts(db.verifications, email, otp, now) && HashPassword(b, newPassword).Ok? && update.Done?
    ensures s.result.Err? ==> s.db == db
    ensures s.result.Ok? ==>
      && PasswordSetByEmail(db.candidates, s.db.candidates, email, HashPassword(b, newPassword).value)
      && email in s.db.verifications && s.db.verifications[email].expiry == 0
  {
    var check := CandidateRepo.VerifyPasswordResetOtp(db, email, otp, now, read);
    if check.Err? then Step(db, check)
    else match HashPassword(b, newPassword)
      case Err(_) => Step(db, Err(ErrHash))
      case Ok(hash) =>
        if update.Fails? then Step(db, Err(update.reason))
        else
          var db1 := CandidateRepo.UpdatePassword(db, email, hash);
          Step(db1.(verifications := db1.verifications[email := db1.verifications[email].(expiry := 0)]), Ok(()))
  }

  /** With the code spent, a second reset with it fails as expired. */
  lemma IntendedResetCodeIsSpent(db: Db, b: Bcrypt, email: string, otp: nat, p1: string, p2: string, now: Time, later: Time, read: Io, update: Io)
    requires ResetPasswordIntended(db, b, email, otp, p1, now, read, update).result.Ok?
    ensures var s1 := ResetPasswordIntended(db, b, email, otp, p1, now, read, update);
      ResetPasswordIntended(s1.db, b, email, otp, p2, later, read, update).result == Err(ErrOtpExpired)
  {
  }

  /** `ChangePassword`: the candidate must exist (any failure of the profile
      query reads as "user not found") and the current password must match;
      then the new password's hash is stored by id. */
  function ChangePassword(db: Db, b: Bcrypt, userId: string, current: string, newPassword: string, lookup: Io, update: Io): (s: Step<()>)
    ensures lookup.Fails? || CandidateById(db, userId).None? ==> s == Step(db, Err(ErrUserNotFound))
    ensures lookup.Done? && CandidateById(db, userId).Some? && !CheckPassword(b, current, CandidateById(db, userId).value.password) ==>
      s == Step(db, Err(ErrWrongCurrent))
    ensures s.result.Err? ==> s.db == db
    ensures s.result.Ok? <==>
      && lookup.Done? && CandidateById(db, userId).Some?
      && CheckPassword(b, current, CandidateById(db, userId).value.password)
      && HashPassword(b, newPassword).Ok? && update.Done?
    ensures s.result.Ok? ==>
      && s.db == db.(candidates := s.db.candidates)
      && |s.db.candidates| == |db.candidates|
      && (forall i :: 0 <= i < |db.candidates| && db.candidates[i].id == userId ==>
            s.db.candidates[i] == db.candidates[i].(password := HashPassword(b, newPassword).value))
      && (forall i :: 0 <= i < |db.candidates| && db.candidates[i].id != userId ==> s.db.candidates[i] == db.candidates[i])
  {
    match CandidateRepo.GetCandidateByUserId(db, userId, lookup)
    case Err(_) => Step(db, Err(ErrUserNotFound))
    case Ok(profile) =>
      if !CheckPassword(b, current, profile.candidate.password) then Step(db, Err(ErrWrongCurrent))
      else match HashPassword(b, newPassword)
        case Err(_) => Step(db, Err(ErrHashNew))
        case Ok(hash) =>
          if update.Fails? then Step(db, Err(update.reason))
          else Step(CandidateRepo.UpdatePasswordById(db, userId, hash), Ok(()))
  }

  /** After a successful change the new password is the one that matches:
      the old one no longer does when it differs and both are read whole. */
  lemma ChangeThenCheck(db: Db, b: Bcrypt, userId: string, current: string, newPassword: string, update: Io)
    requires b.Sound() && b.Discriminating()
    requires ChangePassword(db, b, userId, current, newPassword, Done, update).result.Ok?
    ensures var s := ChangePassword(db, b, userId, current, newPassword, Done, update);
      var c := CandidateById(s.db, userId);
      && c.Some?
      && CheckPassword(b, newPassword, c.value.password)
      && (current != newPassword && WithinKey(current) && WithinKey(newPassword) ==> !CheckPassword(b, current, c.value.password))
  {
    var s := ChangePassword(db, b, userId, current, newPassword, Done, update);
    var i := CandidateIndexById(db.candidates, userId).value;
    assert s.db.candidates[i].id == userId;
    var j := CandidateIndexById(s.db.candidates, userId).value;
    assert db.candidates[j].id == userId;
    HashThenCheck(b, newPassword);
    if current != newPassword {
      OtherPasswordFails(b, newPassword, current);
    }
  }

  // ---------------------------------------------------------------------
  // Token-guarded profile operations

  /** `GetProfile`: the token's subject's profile. */
  function GetProfile(db: Db, jwt: JwtMaker, jose: Jose, token: string, now: int, query: Io): (r: Result<CandidateRepo.Profile>)
    ensures !Authentic(jwt, jose, token, now) ==> r == Err(ErrInvalidToken)
    ensures r.Ok? ==>
      && Authentic(jwt, jose, token, now)
      && r.value.candidate.id == jose.parse(token).value.claims.userId
    ensures Authentic(jwt, jose, token, now) ==>
      r == CandidateRepo.GetCandidateByUserId(db, jose.parse(token).value.claims.userId, query)
  {
    match ExtractUserIDFromToken(jwt, jose, token, now)
    case Err(e) => Err(e)
    case Ok(userId) => CandidateRepo.GetCandidateByUserId(db, userId, query)
  }

  /** `UpdateCandidateProfile`: merges the input into the token subject's
      row; an invalid token changes nothing. */
  function UpdateCandidateProfile(db: Db, jwt: JwtMaker, jose: Jose, input: UpdateCandidateInput, token: string, now: int, lookup: Io, save: Io): (s: Step<()>)
    ensures !Authentic(jwt, jose, token, now) ==> s == Step(db, Err(ErrInvalidToken))
    ensures Authentic(jwt, jose, token, now) ==>
      s == CandidateRepo.UpdateCandidate(db, input, jose.parse(token).value.claims.userId, lookup, save)
  {
    match ExtractUserIDFromToken(jwt, jose, token, now)
    case Err(e) => Step(db, Err(e))
    case Ok(userId) => CandidateRepo.UpdateCandidate(db, input, userId, lookup, save)
  }

  /** `AddSkills`: adds the skill for the token's subject; an invalid token
      changes nothing. */
  function AddSkills(db: Db, jwt: JwtMaker, jose: Jose, skill: Skill, token: string, now: int, query: Io, write: Io): (s: Step<()>)
    ensures !Authentic(jwt, jose, token, now) ==> s == Step(db, Err(ErrInvalidToken))
    ensures Authentic(jwt, jose, token, now) ==>
      s == Skills.AddSkills(db, skill, jose.parse(token).value.claims.userId, query, write)
  {
    match ExtractUserIDFromToken(jwt, jose, token, now)
    case Err(e) => Step(db, Err(e))
    case Ok(userId) => Skills.AddSkills(db, skill, userId, query, write)
  }

  /** `AddEducation`: adds the row for the token's subject; an invalid token
      changes nothing. */
  function AddEducation(db: Db, jwt: JwtMaker, jose: Jose, edu: Education, token: string, now: int, create: Io): (s: Step<()>)
    ensures !Authentic(jwt, jose, token, now) ==> s == Step(db, Err(ErrInvalidToken))
    ensures Authentic(jwt, jose, token, now) && create.Done? ==>
      s.result.Ok? && s.db.education == db.education + [edu.(candidateId := jose.parse(token).value.claims.userId)]
    ensures Authentic(jwt, jose, token, now) ==>
      s == CandidateRepo.AddEducation(db, edu, jose.parse(token).value.claims.userId, create)
  {
    match ExtractUserIDFromToken(jwt, jose, token, now)
    case Err(e) => Step(db, Err(e))
    case Ok(userId) => CandidateRepo.AddEducation(db, edu, userId, create)
  }

  /** A logged-in candidate's token reaches their own row: the profile read
      with it is the candidate's. */
  lemma LoginThenGetProfile(db: Db, jwt: JwtMaker, jose: Jose, b: Bcrypt, req: LoginRequest, clock: Readings, now: int)
    requires jose.Coherent()
    requires CandidateRepo.Login(db, jwt, jose, b, req, clock, Done).Ok?
    requires Live(clock, now)
    ensures var resp := CandidateRepo.Login(db, jwt, jose, b, req, clock, Done).value;
      var p := GetProfile(db, jwt, jose, resp.token, now, Done);
      p.Ok? && p.value.candidate.id == resp.id
  {
    var resp := CandidateRepo.Login(db, jwt, jose, b, req, clock, Done).value;
    CandidateRepo.LoginTokenValidates(db, jwt, jose, b, req, clock, now);
    var c := CandidateByEmail(db, req.email).value;
    assert CandidateById(db, c.id).Some?;
  }
}

=== FILE: crypto.dfy ===
/** The cryptographic primitives the service calls but does not implement:
    bcrypt (`golang.org/x/crypto/bcrypt`) and the HS256 JSON Web Signature of
    `github.com/golang-jwt/jwt/v4`. Each is a record of functions chosen by
    the environment; what the service relies on them for is stated as a ghost
    predicate that lemmas take as a precondition. */
module Crypto {
  import opened Wrappers

  /** bcrypt: `generate` is `GenerateFromPassword` at the default cost (the
      random salt is part of the chosen function; a failure is an error such
      as an over-long password), `compare` is `CompareHashAndPassword`
      returning nil. */
  datatype Bcrypt = Bcrypt(generate: string -> Result<string>, compare: (string, string) -> bool) {

    /** A password matches every hash generated from it. */
    ghost predicate Sound() {
      forall p :: generate(p).Ok? ==> compare(p, generate(p).value)
    }

    /** No other password matches a generated hash, among the passwords
        bcrypt reads whole. */
    ghost predicate Discriminating() {
      forall p, q :: p != q && WithinKey(p) && WithinKey(q) && generate(q).Ok? ==> !compare(p, generate(q).value)
    }
  }

  /** bcrypt keys its cipher with the password's bytes followed by a NUL and
      reads at most 72 bytes of that key, so two passwords that agree on
      their first 72 bytes are one key. A password of at most 71 ASCII
      characters is read whole, terminator included. */
  predicate WithinKey(p: string) {
    |p| <= 71 && forall i :: 0 <= i < |p| ==> (p[i] as int) < 128
  }

  /** `PasswordManager.HashPassword`. */
  function HashPassword(b: Bcrypt, password: string): Result<string> {
    b.generate(password)
  }

  /** `PasswordManager.CheckPassword` returning nil. */
  predicate CheckPassword(b: Bcrypt, plain: string, hashed: string) {
    b.compare(plain, hashed)
  }

  lemma HashThenCheck(b: Bcrypt, password: string)
    requires b.Sound()
    requires HashPassword(b, password).Ok?
    ensures CheckPassword(b, password, HashPassword(b, password).value)
  {
  }

  lemma OtherPasswordFails(b: Bcrypt, password: string, other: string)
    requires b.Discriminating()
    requires other != password && HashPassword(b, password).Ok?
    ensures WithinKey(password) && WithinKey(other) ==> !CheckPassword(b, other, HashPassword(b, password).value)
  {
  }

  /** The payload of a token: `CustomClaims` with its standard `iat`/`exp`. */
  datatype Claims = Claims(userId: string, role: string, issuedAt: int, expiresAt: int)

  /** A parsed token: its claims and the signature it carries. */
  datatype Jws = Jws(claims: Claims, signature: string)

  /** HS256 JWS: `sign(secret, claims)` is the HMAC-SHA256 signature of the
      encoded header and claims, `serialize` the compact `header.payload.sig`
      form, `parse` its decoding (None for any string that is not one). */
  datatype Jose = Jose(sign: (string, Claims) -> string, serialize: Jws -> string, parse: string -> Option<Jws>) {

    /** Parsing undoes serialisation. */
    ghost predicate Coherent() {
      forall t :: parse(serialize(t)) == Some(t)
    }
  }
}

=== FILE: employer_repo.dfy ===
/** The PostgreSQL employer repository: lookup by email, login, the code
    issuers, email verification, the profile overwrite and the pagination
    arithmetic. */
module EmployerRepo {
  import opened Wrappers
  import opened Text
  import opened Crypto
  import opened Jwt
  import opened Store
  import opened Otp
  import opened Models

  const ErrEmptyEmail := "email is empty"
  const ErrEmailNotFound := "email not found"
  const ErrBadLogin := "invalid email or password"
  const LoginSuccessful := "Login successful"
  const EmployerRole := "employer"
  const ErrCreate := "failed to create employer record: "
  const ErrStatusUpdate := "failed to update verification status"
  const ErrEmployerStatusUpdate := "failed to update employer verification status"

  // ---------------------------------------------------------------------
  // Lookup and creation

  /** `GetEmployerByEmail`: an empty email is an error, an unknown one is
      `(nil, nil)` -- here `Ok(None)` -- and any other query error is
      passed on. */
  function GetEmployerByEmail(db: Db, email: string, query: Io): (r: Result<Option<Employer>>)
    ensures email == "" ==> r == Err(ErrEmptyEmail)
    ensures email != "" && query.Fails? ==> r == Err(query.reason)
    ensures r.Ok? <==> email != "" && query.Done?
    ensures r.Ok? && r.value.Some? ==> r.value.value in db.employers && r.value.value.email == email
    ensures r.Ok? && r.value.Some? ==> exists i ::
      && 0 <= i < |db.employers| && db.employers[i] == r.value.value
      && forall k :: 0 <= k < i ==> db.employers[k].email != email
    ensures r.Ok? ==> (r.value.None? <==> forall e :: e in db.employers ==> e.email != email)
  {
    if email == "" then Err(ErrEmptyEmail)
    else if query.Fails? then Err(query.reason)
    else Ok(EmployerByEmail(db, email))
  }

  /** `CreateEmployer`: inserts the profile under the next auto-increment id
      and returns that id. */
  function CreateEmployer(db: Db, profile: Employer, create: Io): (s: Step<nat>)
    ensures s.db.candidates == db.candidates && s.db.verifications == db.verifications && s.db.outbox == db.outbox
    ensures s.db.skills == db.skills && s.db.education == db.education
    ensures s.result.Ok? <==> create.Done?
    ensures s.result.Ok? ==>
      && s.result.value == db.nextEmployerId
      && s.db.employers == db.employers + [profile.(id := s.result.value)]
      && s.db.nextEmployerId > s.result.value
    ensures s.result.Err? ==> s == Step(db, Err(ErrCreate + create.reason))
  {
    if create.Fails? then Step(db, Err(ErrCreate + create.reason))
    else
      var id := db.nextEmployerId;
      Step(db.(employers := db.employers + [profile.(id := id)], nextEmployerId := id + 1), Ok(id))
  }

  /** Ids handed out are fresh: no stored employer already has one. */
  predicate IdsBelowCounter(db: Db) {
    forall e :: e in db.employers ==> e.id < db.nextEmployerId
  }

  /** Creation keeps every id below the counter. */
  lemma CreateKeepsIdsFresh(db: Db, profile: Employer, create: Io)
    requires IdsBelowCounter(db)
    ensures IdsBelowCounter(CreateEmployer(db, profile, create).db)
  {
  }

  // ---------------------------------------------------------------------
  // Login

  /** `Login`. Unlike the candidate repository it tells an unknown email
      ("email not found") from a wrong password. The subject and the
      returned id are the decimal form of the numeric id. The maker is the
      repository's own, built from the `JWT_SECRET` environment value. */
  function Login(db: Db, jwt: JwtMaker, jose: Jose, b: Bcrypt, req: LoginRequest, clock: Readings, query: Io): (r: Result<LoginResponse>)
    ensures query.Fails? ==> r == Err(query.reason)
    ensures query.Done? && EmployerByEmail(db, req.email).None? ==> r == Err(ErrEmailNotFound)
    ensures query.Done? && EmployerByEmail(db, req.email).Some? ==>
      var e := EmployerByEmail(db, req.email).value;
      && (CheckPassword(b, req.password, e.password) ==>
            r == Ok(LoginResponse(Itoa(e.id), EmployerRole, GenerateToken(jwt, jose, Itoa(e.id), EmployerRole, clock), LoginSuccessful)))
      && (!CheckPassword(b, req.password, e.password) ==> r == Err(ErrBadLogin))
  {
    if query.Fails? then Err(query.reason)
    else match EmployerByEmail(db, req.email)
      case None => Err(ErrEmailNotFound)
      case Some(e) =>
        if !CheckPassword(b, req.password, e.password) then Err(ErrBadLogin)
        else
          var id := Itoa(e.id);
          Ok(LoginResponse(id, EmployerRole, GenerateToken(jwt, jose, id, EmployerRole, clock), LoginSuccessful))
  }

  /** The returned id reads back as the employer's numeric id, and the token
      validates under the same maker to that id and the role "employer". */
  lemma LoginSubjectIsEmployerId(db: Db, jwt: JwtMaker, jose: Jose, b: Bcrypt, req: LoginRequest, clock: Readings, now: int)
    requires jose.Coherent()
    requires Login(db, jwt, jose, b, req, clock, Done).Ok?
    requires EmployerByEmail(db, req.email).value.id <= MaxUint64
    requires Live(clock, now)
    ensures var resp := Login(db, jwt, jose, b, req, clock, Done).value;
      && ParseUint64(resp.id) == Ok(EmployerByEmail(db, req.email).value.id)
      && ValidateToken(jwt, jose, resp.token, now) == Ok(Claims(resp.id, EmployerRole, clock.second, clock.first + TokenLifetime))
  {
    var e := EmployerByEmail(db, req.email).value;
    ParseItoa(e.id);
    GenerateValidate(jwt, jose, Itoa(e.id), EmployerRole, clock, now);
  }

  // ---------------------------------------------------------------------
  // Codes

  /** `SendOtp`: the map-form reissue. */
  function SendOtp(db: Db, email: string, now: Time, first: Draw, second: Draw, store1: Io, store2: Io, mail: Io): (s: Step<()>)
    ensures AccountsUnchanged(db, s.db)
    ensures OthersKeptBut(db.verifications, s.db.verifications, email)
    ensures s.result.Ok? <==> store1.Done? && MapWriteFits(db.verifications, email) && store2.Done? && mail.Done?
    ensures store1.Done? && !MapWriteFits(db.verifications, email) ==> s == Step(db, Err(ErrStoreOtp + ErrUniqueViolation))
    ensures s.result.Ok? ==>
      && email in s.db.verifications
      && s.db.verifications[email] ==
           Verification(Code(second), now + Code(first), false, if email in db.verifications then db.verifications[email].role else "")
      && s.db.outbox == db.outbox + [Mail(email, Code(second))]
    ensures s.result.Ok? && email != UnkeyedEmail && email !in db.verifications ==>
      && UnkeyedEmail in s.db.verifications
      && s.db.verifications[UnkeyedEmail] == Verification(Code(first), now + FiveMinutes, false, "")
  {
    ReissueOtp(db, email, now, first, second, store1, store2, mail)
  }

  /** `ResendOtp` delegates to `SendOtp`. */
  function ResendOtp(db: Db, email: string, now: Time, first: Draw, second: Draw, store1: Io, store2: Io, mail: Io): (s: Step<()>)
    ensures s == SendOtp(db, email, now, first, second, store1, store2, mail)
  {
    SendOtp(db, email, now, first, second, store1, store2, mail)
  }

  /** `SendPasswordResetOtp` repeats `SendOtp`'s code line for line, so for
      every input it has `SendOtp`'s outcome. */
  function SendPasswordResetOtp(db: Db, email: string, now: Time, first: Draw, second: Draw, store1: Io, store2: Io, mail: Io): (s: Step<()>)
    ensures s == SendOtp(db, email, now, first, second, store1, store2, mail)
  {
    ReissueOtp(db, email, now, first, second, store1, store2, mail)
  }

  /** Resending needs no existing row: with the empty email free it succeeds
      for an email that has none, and the struct write then leaves an
      unverified row with the mailed code; an existing row that was verified
      is reset to unverified. Only an email with no row, while the empty
      email's row exists, is refused. */
  lemma ResendUpserts(db: Db, email: string, now: Time, first: Draw, second: Draw)
    ensures var s := ResendOtp(db, email, now, first, second, Done, Done, Done);
      && (s.result.Ok? <==> MapWriteFits(db.verifications, email))
      && (s.result.Ok? ==>
           && email in s.db.verifications
           && !s.db.verifications[email].verified
           && s.db.verifications[email].otp == Code(second))
  {
  }

  /** `VerifyEmail`: the read and the shared check, then mark the
      verification row and every employer row with this email. */
  function VerifyEmail(db: Db, email: string, otp: nat, now: Time, read: Io, markRecord: Io, markEmployer: Io): (s: Step<()>)
    ensures s.db.candidates == db.candidates && s.db.skills == db.skills && s.db.education == db.education
    ensures s.db.outbox == db.outbox && s.db.nextEmployerId == db.nextEmployerId
    ensures read.Fails? ==> s == Step(db, Err(ErrNotRegistered))
    ensures ReadCheck(db.verifications, email, otp, now, read).Err? ==> s == Step(db, ReadCheck(db.verifications, email, otp, now, read))
    ensures s.result.Ok? <==> read.Done? && Accepts(db.verifications, email, otp, now) && markRecord.Done? && markEmployer.Done?
    ensures read.Done? && Accepts(db.verifications, email, otp, now) && markRecord.Done? ==>
      && email in s.db.verifications && s.db.verifications[email].verified
      && OthersUnchanged(db.verifications, s.db.verifications, email)
    ensures s.result.Ok? ==>
      && |s.db.employers| == |db.employers|
      && (forall i :: 0 <= i < |db.employers| && db.employers[i].email == email ==> s.db.employers[i].isVerified)
      && (forall i :: 0 <= i < |db.employers| && db.employers[i].email != email ==> s.db.employers[i] == db.employers[i])
    ensures s.result.Err? ==> s.db.employers == db.employers
  {
    var check := ReadCheck(db.verifications, email, otp, now, read);
    if check.Err? then Step(db, check)
    else if markRecord.Fails? then Step(db, Err(ErrStatusUpdate))
    else
      var db1 := db.(verifications := db.verifications[email := db.verifications[email].(verified := true)]);
      if markEmployer.Fails? then Step(db1, Err(ErrEmployerStatusUpdate))
      else Step(db1.(employers := MarkEmployersVerified(db1.employers, email)), Ok(()))
  }

  /** `VerifyPasswordResetOtp`: the same read and three checks, writing
      nothing. */
  function VerifyPasswordResetOtp(db: Db, email: string, otp: nat, now: Time, read: Io): (r: Result<()>)
    ensures r.Ok? <==> read.Done? && Accepts(db.verifications, email, otp, now)
    ensures read.Fails? || email !in db.verifications ==> r == Err(ErrNotRegistered)
    ensures read.Done? && email in db.verifications && db.verifications[email].otp != otp ==> r == Err(ErrInvalidOtp)
    ensures r.Err? ==> r.error in {ErrNotRegistered, ErrInvalidOtp, ErrOtpExpired}
  {
    ReadCheck(db.verifications, email, otp, now, read)
  }

  /** A code sent by `SendOtp` verifies the employer when entered before it
      expires, exactly when the send could write its first code. */
  lemma SendThenVerify(db: Db, email: string, now: Time, first: Draw, second: Draw, later: Time)
    requires now <= later <= now + Code(first)
    ensures var s := SendOtp(db, email, now, first, second, Done, Done, Done);
      var v := VerifyEmail(s.db, email, Code(second), later, Done, Done, Done);
      && (v.result.Ok? <==> MapWriteFits(db.verifications, email))
      && (v.result.Ok? ==> v.db.verifications[email].verified)
  {
  }

  // ---------------------------------------------------------------------
  // Profile and passwords

  /** The profile `UpdateEmployer` saves: all six request fields replace the
      stored ones, empty or not. */
  function Overwrite(e: Employer, input: UpdateEmployerInput): (o: Employer)
    ensures o.companyName == input.companyName && o.email == input.email && o.phone == input.phone
    ensures o.industry == input.industry && o.location == input.location && o.website == input.website
    ensures o.id == e.id && o.password == e.password && o.isVerified == e.isVerified && o.isTrusted == e.isTrusted
  {
    e.(companyName := input.companyName, email := input.email, industry := input.industry,
       phone := input.phone, location := input.location, website := input.website)
  }

  /** `UpdateEmployer`: the row whose id reads as `input.id` is overwritten
      and saved in place; a failed lookup passes its error on as is, and no
      such row gives `record not found`. */
  function UpdateEmployer(db: Db, input: UpdateEmployerInput, lookup: Io, save: Io): (s: Step<()>)
    ensures s.db == db.(employers := s.db.employers)
    ensures lookup.Fails? ==> s == Step(db, Err(lookup.reason))
    ensures lookup.Done? && EmployerById(db, input.id).None? ==> s == Step(db, Err(ErrRecordNotFound))
    ensures lookup.Done? && EmployerById(db, input.id).Some? && save.Fails? ==> s == Step(db, Err(save.reason))
    ensures s.result.Ok? <==> lookup.Done? && EmployerById(db, input.id).Some? && save.Done?
    ensures s.result.Err? ==> s.db == db
    ensures s.result.Ok? ==>
      var i := EmployerIndexById(db.employers, input.id).value;
      && |s.db.employers| == |db.employers|
      && (forall k :: 0 <= k < |db.employers| && k != i ==> s.db.employers[k] == db.employers[k])
      && s.db.employers[i] == Overwrite(db.employers[i], input)
  {
    if lookup.Fails? then Step(db, Err(lookup.reason))
    else match EmployerIndexById(db.employers, input.id)
    case None => Step(db, Err(ErrRecordNotFound))
    case Some(i) =>
      if save.Fails? then Step(db, Err(save.reason))
      else Step(db.(employers := db.employers[i := Overwrite(db.employers[i], input)]), Ok(()))
  }

  /** The stored profile afterwards is exactly the request's, whatever was
      stored before, so the update is idempotent; identity, credentials and
      flags are kept. */
  lemma OverwriteIdempotent(e: Employer, input: UpdateEmployerInput)
    ensures Overwrite(Overwrite(e, input), input) == Overwrite(e, input)
  {
  }

  /** `UpdatePassword`: every employer row with the email gets the hash. */
  function UpdatePassword(db: Db, email: string, hash: string): (r: Db)
    ensures r == db.(employers := r.employers)
    ensures |r.employers| == |db.employers|
    ensures forall i :: 0 <= i < |db.employers| ==>
      r.employers[i] == (if db.employers[i].email == email then db.employers[i].(password := hash) else db.employers[i])
  {
    db.(employers := SetEmployerPasswordByEmail(db.employers, email, hash))
  }

  /** `UpdatePasswordByID`. */
  function UpdatePasswordById(db: Db, userId: string, hash: string): (r: Db)
    ensures r == db.(employers := r.employers)
    ensures |r.employers| == |db.employers|
    ensures forall i :: 0 <= i < |db.employers| ==>
      r.employers[i] == (if EmployerKey(db.employers[i]) == userId then db.employers[i].(password := hash) else db.employers[i])
  {
    db.(employers := SetEmployerPasswordById(db.employers, userId, hash))
  }

  // ---------------------------------------------------------------------
  // Pagination

  const MinInt32: int := -0x8000_0000
  const MaxInt32: int := 0x7FFF_FFFF
  const Two32: int := 0x1_0000_0000

  type Int32 = x: int | -0x8000_0000 <= x <= 0x7FFF_FFFF

  /** Two's-complement wrap-around of a 32-bit result. */
  function Wrap32(x: int): (r: Int32)
    ensures (r - x) % Two32 == 0
    ensures MinInt32 <= x <= MaxInt32 ==> r == x
  {
    var m := x % Two32;
    if m > MaxInt32 then m - Two32 else m
  }

  /** A page below 1 becomes 1. */
  function ClampPage(page: Int32): (p: Int32)
    ensures p >= 1
    ensures page >= 1 ==> p == page
  {
    if page < 1 then 1 else page
  }

  /** A limit outside [1, 100] becomes 10. */
  function ClampLimit(limit: Int32): (l: Int32)
    ensures 1 <= l <= 100
    ensures 1 <= limit <= 100 ==> l == limit
    ensures !(1 <= limit <= 100) ==> l == 10
  {
    if limit < 1 || limit > 100 then 10 else limit
  }

  /** Clamping clamped values changes nothing. */
  lemma ClampIdempotent(page: Int32, limit: Int32)
    ensures ClampPage(ClampPage(page)) == ClampPage(page)
    ensures ClampLimit(ClampLimit(limit)) == ClampLimit(limit)
  {
  }

  /** The offset as written: `(page - 1) * limit` in 32-bit arithmetic on
      the clamped values. */
  function Offset(page: Int32, limit: Int32): (r: Int32)
    ensures (r - OffsetIntended(page, limit)) % Two32 == 0
    ensures OffsetIntended(page, limit) <= MaxInt32 ==> r == OffsetIntended(page, limit)
  {
    Wrap32((ClampPage(page) - 1) * ClampLimit(limit))
  }

  /** The offset the query is evidently meant to use: the number of rows on
      the pages before the requested one. */
  function OffsetIntended(page: Int32, limit: Int32): (n: nat)
    ensures n % ClampLimit(limit) == 0 && n / ClampLimit(limit) == ClampPage(page) - 1
  {
    MulDiv(ClampPage(page) - 1, ClampLimit(limit));
    (ClampPage(page) - 1) * ClampLimit(limit)
  }

  /** A multiple of `l` divides by `l` exactly. */
  lemma {:induction false} MulDiv(q: nat, l: int)
    requires l > 0
    ensures (q * l) % l == 0 && (q * l) / l == q
  {
    var d := (q * l) / l;
    var m := (q * l) % l;
    assert q * l == d * l + m;
    assert (q - d) * l == m;
    if q - d >= 1 {
      MulBound(l, 1, q - d);
      assert false;
    } else if q - d <= -1 {
      MulBound(l, q - d, -1);
      assert false;
    }
  }

  /** `Offset(n)` with a value that is not positive adds no OFFSET clause, so
      the rows served start at this position. */
  function FirstRowServed(offset: int): nat {
    if offset > 0 then offset else 0
  }

  /** Both agree as long as the product fits in 32 bits. */
  lemma OffsetAgreesInRange(page: Int32, limit: Int32)
    requires ClampPage(page) <= MaxInt32 / 100
    ensures Offset(page, limit) == OffsetIntended(page, limit)
  {
    var p := ClampPage(page) - 1;
    MulBound(p, ClampLimit(limit), 100);
    assert p * 100 <= MaxInt32;
  }

  /** `a * b <= a * c` for a non-negative `a` and `b <= c`. */
  lemma {:induction false} MulBound(a: nat, b: int, c: int)
    requires b <= c
    ensures a * b <= a * c
  {
    if a > 0 {
      MulBound(a - 1, b, c);
      assert a * b == (a - 1) * b + b;
      assert a * c == (a - 1) * c + c;
    }
  }

  /** A very large page wraps to a negative offset, so the first page is
      served instead of an empty one. */
  lemma OffsetWraps()
    ensures Offset(MaxInt32, 10) == -20
    ensures FirstRowServed(Offset(MaxInt32, 10)) == 0
    ensures OffsetIntended(MaxInt32, 10) == 21474836460
  {
  }
}

=== FILE: employer_usecase.dfy ===
/** The employer use case: signup with lookup, hashing, optional details and
    a first code; its own code issuer; the OTP-gated reset and the
    password change; and the pagination clamp in front of the repository. */
module EmployerUsecase {
  import opened Wrappers
  import opened Text
  import opened Crypto
  import opened Store
  import opened Otp
  import opened Models
  import EmployerRepo

  const ErrEmailExists := "email already exists"
  const ErrHash := "failed to hash password"
  const ErrEmployerNotFound := "employer not found"
  const ErrWrongCurrent := "current password is incorrect"
  const ErrHashNew := "failed to hash new password"
  const SignupRegistered := "Employer registered successfully. OTP sent to email."

  // ---------------------------------------------------------------------
  // Signup

  /** A context value, or the empty string when the key is absent. */
  function Detail(context: map<string, string>, key: string): string {
    if key in context then context[key] else ""
  }

  /** The phone number: parsed from the context when present and non-empty
      (a malformed number reads as 0), otherwise 0. */
  function Phone(context: map<string, string>): (phone: int)
    ensures ("phone" !in context || context["phone"] == "") ==> phone == 0
    ensures "phone" in context && |context["phone"]| > 0 && AllDigits(context["phone"]) && ValueOf(context["phone"]) <= MaxInt64 ==>
      phone == ValueOf(context["phone"])
    ensures "phone" in context && MalformedInt(context["phone"]) ==> phone == 0
    ensures "phone" in context && |context["phone"]| > 0 && AllDigits(context["phone"]) && ValueOf(context["phone"]) > MaxInt64 ==>
      phone == MaxInt64
    ensures "phone" in context && |context["phone"]| > 1 && context["phone"][0] == '-' && AllDigits(context["phone"][1..])
            && ValueOf(context["phone"][1..]) > -MinInt64 ==>
      phone == MinInt64
    ensures MinInt64 <= phone <= MaxInt64
  {
    if "phone" in context && context["phone"] != "" then ParseInt64(context["phone"]) else 0
  }

  /** The profile `Signup` creates from the request and the hash. */
  function NewEmployer(req: SignupRequest, hash: string): Employer {
    Employer(0, req.email, hash, req.name, Phone(req.context),
             Detail(req.context, "industry"), Detail(req.context, "location"), Detail(req.context, "website"),
             false, false)
  }

  /** A phone number written by `Itoa` is read back. */
  lemma PhoneRoundTrip(context: map<string, string>, n: nat)
    requires n <= MaxInt64
    requires "phone" in context && context["phone"] == Itoa(n)
    ensures Phone(context) == n
  {
  }

  /** `Signup`: propagate lookup errors other than not-found (an empty email
      among them), refuse an existing email, hash the password, create the
      employer, then issue a five-minute code. A failed code leaves the new
      employer in place. */
  function Signup(db: Db, b: Bcrypt, req: SignupRequest, now: Time, draw: Draw,
                  lookup: Io, create: Io, store: Io, mail: Io): (s: Step<AuthResponse>)
    ensures req.email == "" ==> s == Step(db, Err(EmployerRepo.ErrEmptyEmail))
    ensures req.email != "" && lookup.Done? && EmployerByEmail(db, req.email).Some? ==> s == Step(db, Err(ErrEmailExists))
    ensures s.db.candidates == db.candidates && s.db.skills == db.skills && s.db.education == db.education
    ensures s.result.Ok? <==>
      && req.email != ""
      && (lookup.Fails? ==> lookup.reason == ErrRecordNotFound)
      && (lookup.Done? ==> EmployerByEmail(db, req.email).None?)
      && HashPassword(b, req.password).Ok? && create.Done? && store.Done? && mail.Done?
    ensures s.result.Ok? ==>
      && s.result.value == AuthResponse(Itoa(db.nextEmployerId), SignupRegistered)
      && s.db.employers == db.employers + [NewEmployer(req, HashPassword(b, req.password).value).(id := db.nextEmployerId)]
      && s.db.outbox == db.outbox + [Mail(req.email, Code(draw))]
    ensures s.result.Err? && create.Done? && store.Fails? && HashPassword(b, req.password).Ok? && req.email != "" && lookup.Done?
            && EmployerByEmail(db, req.email).None? ==>
      |s.db.employers| == |db.employers| + 1
  {
    var found := EmployerRepo.GetEmployerByEmail(db, req.email, lookup);
    if found.Err? && found.error != ErrRecordNotFound then Step(db, Err(found.error))
    else if found.Ok? && found.value.Some? then Step(db, Err(ErrEmailExists))
    else match HashPassword(b, req.password)
      case Err(_) => Step(db, Err(ErrHash))
      case Ok(hash) =>
        var created := EmployerRepo.CreateEmployer(db, NewEmployer(req, hash), create);
        if created.result.Err? then Step(created.db, Err(created.result.error))
        else
          var sent := SendOtp(created.db, req.email, FiveMinutes, now, draw, store, mail);
          if sent.result.Err? then Step(sent.db, Err("failed to send OTP: " + sent.result.error))
          else Step(sent.db, Ok(AuthResponse(Itoa(created.result.value), SignupRegistered)))
  }

  /** `SendOtp` of the use case: one code, expiry `now + expiry`, written with
      a struct `Assign` and mailed. */
  function SendOtp(db: Db, email: string, expiry: nat, now: Time, draw: Draw, store: Io, mail: Io): (s: Step<()>)
    ensures AccountsUnchanged(db, s.db)
    ensures OthersUnchanged(db.verifications, s.db.verifications, email)
    ensures store.Fails? ==> s == Step(db, Err("failed to store OTP in the database: " + store.reason))
    ensures store.Done? ==>
      && email in s.db.verifications
      && s.db.verifications[email].otp == Code(draw)
      && s.db.verifications[email].expiry == now + expiry
    ensures store.Done? && email in db.verifications ==>
      s.db.verifications[email].verified == db.verifications[email].verified
    ensures s.db.outbox == db.outbox + (if store.Done? && mail.Done? then [Mail(email, Code(draw))] else [])
    ensures store.Done? && mail.Fails? ==> s.result == Err("failed to send OTP via email: " + mail.reason)
    ensures s.result.Ok? <==> store.Done? && mail.Done?
  {
    IssueOtp(db, email, expiry, now, draw, store, mail,
             "failed to store OTP in the database: ", "failed to send OTP via email: ")
  }

  /** The signup code is the one mailed, and it verifies the new employer for
      the next five minutes. */
  lemma SignupThenVerify(db: Db, b: Bcrypt, req: SignupRequest, now: Time, draw: Draw, later: Time)
    requires Signup(db, b, req, now, draw, Done, Done, Done, Done).result.Ok?
    requires now <= later <= now + FiveMinutes
    ensures var s := Signup(db, b, req, now, draw, Done, Done, Done, Done);
      var v := EmployerRepo.VerifyEmail(s.db, req.email, Code(draw), later, Done, Done, Done);
      && v.result.Ok?
      && v.db.employers[|db.employers|].isVerified
  {
    var s := Signup(db, b, req, now, draw, Done, Done, Done, Done);
    assert s.db.employers[|db.employers|].email == req.email;
  }

  // ---------------------------------------------------------------------
  // Passwords

  /** Every employer row with the email now holds the hash; the rest of the
      table is as it was. */
  predicate PasswordSetByEmail(es: seq<Employer>, es': seq<Employer>, email: string, hash: string) {
    && |es'| == |es|
    && (forall i :: 0 <= i < |es| && es[i].email == email ==> es'[i] == es[i].(password := hash))
    && (forall i :: 0 <= i < |es| && es[i].email != email ==> es'[i] == es[i])
  }

  /** `ResetPassword`: the reset code must pass the shared check; then the
      new password's hash replaces the stored one. The code stays usable. */
  function ResetPassword(db: Db, b: Bcrypt, email: string, otp: nat, newPassword: string, now: Time, read: Io, update: Io): (s: Step<()>)
    ensures !(read.Done? && Accepts(db.verifications, email, otp, now)) ==>
      s == Step(db, ReadCheck(db.verifications, email, otp, now, read))
    ensures s.result.Ok? <==> read.Done? && Accepts(db.verifications, email, otp, now) && HashPassword(b, newPassword).Ok? && update.Done?
    ensures s.result.Err? ==> s.db == db
    ensures s.result.Ok? ==>
      && s.db == db.(employers := s.db.employers)
      && PasswordSetByEmail(db.employers, s.db.employers, email, HashPassword(b, newPassword).value)
  {
    var check := EmployerRepo.VerifyPasswordResetOtp(db, email, otp, now, read);
    if check.Err? then Step(db, check)
    else match HashPassword(b, newPassword)
      case Err(_) => Step(db, Err(ErrHash))
      case Ok(hash) =>
        if update.Fails? then Step(db, Err(update.reason))
        else Step(EmployerRepo.UpdatePassword(db, email, hash), Ok(()))
  }

  /** A reset leaves the verification table alone, so the same code resets
      the password a second time while it is unexpired. */
  lemma ResetCodeReplays(db: Db, b: Bcrypt, email: string, otp: nat, p1: string, p2: string, now: Time, later: Time)
    requires ResetPassword(db, b, email, otp, p1, now, Done, Done).result.Ok?
    requires HashPassword(b, p2).Ok?
    requires now <= later <= db.verifications[email].expiry
    ensures var s1 := ResetPassword(db, b, email, otp, p1, now, Done, Done);
      ResetPassword(s1.db, b, email, otp, p2, later, Done, Done).result.Ok?
  {
  }

  /** What `ResetPassword` evidently means: a used code is spent. The record's
      expiry is moved to 0, before any clock reading. */
  function ResetPasswordIntended(db: Db, b: Bcrypt, email: string, otp: nat, newPassword: string, now: Time, read: Io, update: Io): (s: Step<()>)
    ensures !(read.Done? && Accepts(db.verifications, email, otp, now)) ==>
      s == Step(db, ReadCheck(db.verifications, email, otp, now, read))
    ensures s.result.Ok? <==> read.Done? && Accepts(db.verifications, email, otp, now) && HashPassword(b, newPassword).Ok? && update.Done?
    ensures s.result.Err? ==> s.db == db
    ensures s.result.Ok? ==>
      && PasswordSetByEmail(db.employers, s.db.employers, email, HashPassword(b, newPassword).value)
      && email in s.db.verifications && s.db.verifications[email].expiry == 0
  {
    var check := EmployerRepo.VerifyPasswordResetOtp(db, email, otp, now, read);
    if check.Err? then Step(db, check)
    else match HashPassword(b, newPassword)
      case Err(_) => Step(db, Err(ErrHash))
      case Ok(hash) =>
        if update.Fails? then Step(db, Err(update.reason))
        else
          var db1 := EmployerRepo.UpdatePassword(db, email, hash);
          Step(db1.(verifications := db1.verifications[email := db1.verifications[email].(expiry := 0)]), Ok(()))
  }

  /** With the code spent, a second reset with it fails as expired. */
  lemma IntendedResetCodeIsSpent(db: Db, b: Bcrypt, email: string, otp: nat, p1: string, p2: string, now: Time, later: Time, read: Io, update: Io)
    requires ResetPasswordIntended(db, b, email, otp, p1, now, read, update).result.Ok?
    ensures var s1 := ResetPasswordIntended(db, b, email, otp, p1, now, read, update);
      ResetPasswordIntended(s1.db, b, email, otp, p2, later, read, update).result == Err(ErrOtpExpired)
  {
  }

  /** `ChangePassword`: the employer must exist ("employer not found"
      otherwise) and the current password must match; then the new
      password's hash is stored by id. */
  function ChangePassword(db: Db, b: Bcrypt, userId: string, current: string, newPassword: string, lookup: Io, update: Io): (s: Step<()>)
    ensures lookup.Fails? || EmployerById(db, userId).None? ==> s == Step(db, Err(ErrEmployerNotFound))
    ensures lookup.Done? && EmployerById(db, userId).Some? && !CheckPassword(b, current, EmployerById(db, userId).value.password) ==>
      s == Step(db, Err(ErrWrongCurrent))
    ensures s.result.Err? ==> s.db == db
    ensures s.result.Ok? <==>
      && lookup.Done? && EmployerById(db, userId).Some?
      && CheckPassword(b, current, EmployerById(db, userId).value.password)
      && HashPassword(b, newPassword).Ok? && update.Done?
    ensures s.result.Ok? ==>
      && s.db == db.(employers := s.db.employers)
      && |s.db.employers| == |db.employers|
      && (forall i :: 0 <= i < |db.employers| && EmployerKey(db.employers[i]) == userId ==>
            s.db.employers[i] == db.employers[i].(password := HashPassword(b, newPassword).value))
      && (forall i :: 0 <= i < |db.employers| && EmployerKey(db.employers[i]) != userId ==> s.db.employers[i] == db.employers[i])
  {
    if lookup.Fails? then Step(db, Err(ErrEmployerNotFound))
    else match EmployerById(db, userId)
      case None => Step(db, Err(ErrEmployerNotFound))
      case Some(e) =>
        if !CheckPassword(b, current, e.password) then Step(db, Err(ErrWrongCurrent))
        else match HashPassword(b, newPassword)
          case Err(_) => Step(db, Err(ErrHashNew))
          case Ok(hash) =>
            if update.Fails? then Step(db, Err(update.reason))
            else Step(EmployerRepo.UpdatePasswordById(db, userId, hash), Ok(()))
  }

  /** After a successful change the new password matches the stored hash and
      a different old one no longer does, when both are read whole. */
  lemma ChangeThenCheck(db: Db, b: Bcrypt, userId: string, current: string, newPassword: string, update: Io)
    requires b.Sound() && b.Discriminating()
    requires ChangePassword(db, b, userId, current, newPassword, Done, update).result.Ok?
    ensures var s := ChangePassword(db, b, userId, current, newPassword, Done, update);
      var e := EmployerById(s.db, userId);
      && e.Some?
      && CheckPassword(b, newPassword, e.value.password)
      && (current != newPassword && WithinKey(current) && WithinKey(newPassword) ==> !CheckPassword(b, current, e.value.password))
  {
    var s := ChangePassword(db, b, userId, current, newPassword, Done, update);
    var i := EmployerIndexById(db.employers, userId).value;
    assert EmployerKey(s.db.employers[i]) == userId;
    var j := EmployerIndexById(s.db.employers, userId).value;
    assert EmployerKey(db.employers[j]) == userId;
    HashThenCheck(b, newPassword);
    if current != newPassword {
      OtherPasswordFails(b, newPassword, current);
    }
  }

  // ---------------------------------------------------------------------
  // Pagination

  /** What the repository finally works with after `GetEmployersWithPagination`
      of the use case clamps and the repository clamps again: page, limit and
      offset. */
  function Paging(page: EmployerRepo.Int32, limit: EmployerRepo.Int32): (r: (EmployerRepo.Int32, EmployerRepo.Int32, EmployerRepo.Int32))
    ensures r.0 >= 1 && 1 <= r.1 <= 100
    ensures r == (EmployerRepo.ClampPage(page), EmployerRepo.ClampLimit(limit), EmployerRepo.Offset(page, limit))
  {
    EmployerRepo.ClampIdempotent(page, limit);
    var p := EmployerRepo.ClampPage(page);
    var l := EmployerRepo.ClampLimit(limit);
    (EmployerRepo.ClampPage(p), EmployerRepo.ClampLimit(l), EmployerRepo.Offset(p, l))
  }
}

=== FILE: grpc.dfy ===
/** The parts of the gRPC server that hold logic of their own: where
    `VerifyToken` finds its token, how the OTP handlers read the code's
    text, and how the pagination handlers fill in defaults, build filters
    and count pages. */
module Grpc {
  import opened Wrappers
  import opened Text
  import opened Crypto
  import opened Jwt
  import opened Store
  import opened Otp
  import opened EmployerRepo
  import CandidateRepo
  import CandidateUsecase
  import EmployerUsecase

  /** The status codes the modelled handlers produce; a plain Go error
      returned from a handler reaches the client as `Unknown`. */
  datatype Status = Unknown | InvalidArgument | Unauthenticated

  datatype Reply<T> = Reply(value: T) | Refused(status: Status, message: string)

  /** A handler's answer together with the state it leaves behind. */
  datatype Served<T> = Served(db: Db, reply: Reply<T>)

  const ErrNoToken := "No token provided"
  const InvalidTokenPrefix := "Invalid token: "
  const ErrOtpFormat := "invalid OTP format: "
  const EmailVerified := "Email verified successfully"
  const PasswordReset := "Password reset successful"

  // ---------------------------------------------------------------------
  // VerifyToken

  /** The token `VerifyToken` examines: the request's own (absent when the
      request is nil), or else the first `authorization` metadata value
      (`authorization` is `None` when the call carries no metadata). */
  function SelectToken(request: Option<string>, authorization: Option<seq<string>>): (token: string)
    ensures request.Some? && request.value != "" ==> token == request.value
    ensures token != "" ==> (request.Some? && token == request.value) || (authorization.Some? && token in authorization.value)
  {
    var fromRequest := if request.Some? then request.value else "";
    if fromRequest != "" then fromRequest
    else if authorization.Some? && |authorization.value| > 0 then authorization.value[0]
    else ""
  }

  /** Metadata is consulted only when the request carries no token. */
  lemma RequestTokenWins(request: string, md1: Option<seq<string>>, md2: Option<seq<string>>)
    requires request != ""
    ensures SelectToken(Some(request), md1) == SelectToken(Some(request), md2)
  {
  }

  /** One leading "Bearer " is removed; any other token is left alone. */
  function StripBearer(token: string): (r: string)
    ensures HasPrefix(token, Bearer) ==> Bearer + r == token
    ensures !HasPrefix(token, Bearer) ==> r == token
    ensures |r| <= |token|
  {
    if HasPrefix(token, Bearer) then TrimPrefix(token, Bearer) else token
  }

  /** Putting "Bearer " in front and stripping it gives the token back, and
      only one prefix comes off. */
  lemma StripBearerRoundTrip(token: string)
    ensures StripBearer(Bearer + token) == token
    ensures StripBearer(Bearer + Bearer + token) == Bearer + token
  {
    assert (Bearer + token)[..|Bearer|] == Bearer;
    assert (Bearer + Bearer + token)[..|Bearer|] == Bearer;
    assert Bearer + Bearer + token == Bearer + (Bearer + token);
  }

  /** `VerifyToken`: no token at all is "No token provided"; a token that
      does not validate is "Invalid token: " and the reason; otherwise the
      claims' user id and role. Both failures are `Unauthenticated`. */
  function VerifyToken(jwt: JwtMaker, jose: Jose, request: Option<string>, authorization: Option<seq<string>>, now: int)
    : (r: Reply<(string, string)>)
    ensures SelectToken(request, authorization) == "" ==> r == Refused(Unauthenticated, ErrNoToken)
    ensures r.Refused? ==> r.status == Unauthenticated
    ensures r.Reply? <==>
      var token := SelectToken(request, authorization);
      token != "" && Authentic(jwt, jose, StripBearer(token), now)
    ensures r.Reply? ==>
      var t := jose.parse(StripBearer(SelectToken(request, authorization))).value;
      r.value == (t.claims.userId, t.claims.role)
  {
    var token := SelectToken(request, authorization);
    if token == "" then Refused(Unauthenticated, ErrNoToken)
    else match CandidateUsecase.VerifyToken(jwt, jose, StripBearer(token), now)
      case Err(e) => Refused(Unauthenticated, InvalidTokenPrefix + e)
      case Ok(c) => Reply((c.userId, c.role))
  }

  /** A token minted by the same maker is accepted while it is live, both in
      the request and as a bearer header in the metadata. */
  lemma MintedTokenAccepted(jwt: JwtMaker, jose: Jose, userId: string, role: string, clock: Readings, now: int, rest: seq<string>)
    requires jose.Coherent()
    requires Live(clock, now)
    requires var t := GenerateToken(jwt, jose, userId, role, clock); t != "" && !HasPrefix(t, Bearer)
    ensures var t := GenerateToken(jwt, jose, userId, role, clock);
      && VerifyToken(jwt, jose, Some(t), None, now) == Reply((userId, role))
      && VerifyToken(jwt, jose, None, Some([Bearer + t] + rest), now) == Reply((userId, role))
      && VerifyToken(jwt, jose, Some(""), Some([Bearer + t] + rest), now) == Reply((userId, role))
  {
    var t := GenerateToken(jwt, jose, userId, role, clock);
    StripBearerRoundTrip(t);
    GenerateValidate(jwt, jose, userId, role, clock, now);
  }

  // ---------------------------------------------------------------------
  // The OTP's text

  /** The text of Go's `*strconv.NumError` for `ParseUint`; the quoting of
      unusual characters in the input is not reproduced. */
  function NumErrorText(text: string, reason: string): string {
    "strconv.ParseUint: parsing \"" + text + "\": " + reason
  }

  /** `strconv.ParseUint(text, 10, 64)` with its error spelled out. */
  function ParseOtp(text: string): (r: Result<nat>)
    ensures r.Ok? <==> |text| > 0 && AllDigits(text) && ValueOf(text) <= MaxUint64
    ensures r.Ok? ==> r.value == ValueOf(text)
    ensures r.Err? ==> r == Err(NumErrorText(text, ErrSyntax)) || r == Err(NumErrorText(text, ErrRange))
  {
    match ParseUint64(text)
    case Ok(n) => Ok(n)
    case Err(e) => Err(NumErrorText(text, e))
  }

  /** A mailed code, written in decimal, reads back as itself. */
  lemma MailedCodeParses(d: Draw)
    ensures ParseOtp(Itoa(Code(d))) == Ok(Code(d))
  {
    ParseItoa(Code(d));
  }

  /** `CandidateVerifyEmail`: a text that does not parse is returned as the
      raw parse error, before the database is consulted. */
  function CandidateVerifyEmail(db: Db, email: string, otpText: string, now: Time, read: Io, markRecord: Io, markCandidate: Io)
    : (s: Served<string>)
    ensures ParseOtp(otpText).Err? ==> s == Served(db, Refused(Unknown, ParseOtp(otpText).error))
    ensures s.reply.Reply? <==>
      ParseOtp(otpText).Ok? && CandidateRepo.VerifyEmail(db, email, ParseOtp(otpText).value, now, read, markRecord, markCandidate).result.Ok?
    ensures s.reply.Reply? ==> s.reply.value == EmailVerified
  {
    match ParseOtp(otpText)
    case Err(e) => Served(db, Refused(Unknown, e))
    case Ok(otp) =>
      var v := CandidateRepo.VerifyEmail(db, email, otp, now, read, markRecord, markCandidate);
      if v.result.Err? then Served(v.db, Refused(Unknown, v.result.error)) else Served(v.db, Reply(EmailVerified))
  }

  /** `CandidateResetPassword`: the parse error is wrapped as "invalid OTP
      format: ..."; a good code goes on to the use case's reset, whose state
      and error the handler passes on. */
  function CandidateResetPassword(db: Db, b: Bcrypt, email: string, otpText: string, newPassword: string, now: Time, read: Io, update: Io)
    : (s: Served<string>)
    ensures ParseOtp(otpText).Err? ==> s == Served(db, Refused(Unknown, ErrOtpFormat + ParseOtp(otpText).error))
    ensures s.reply.Reply? <==>
      ParseOtp(otpText).Ok? && CandidateUsecase.ResetPassword(db, b, email, ParseOtp(otpText).value, newPassword, now, read, update).result.Ok?
    ensures ParseOtp(otpText).Ok? ==>
      var r := CandidateUsecase.ResetPassword(db, b, email, ParseOtp(otpText).value, newPassword, now, read, update);
      s.db == r.db && (r.result.Err? ==> s.reply == Refused(Unknown, r.result.error))
    ensures s.reply.Reply? ==> s.reply.value == PasswordReset
  {
    match ParseOtp(otpText)
    case Err(e) => Served(db, Refused(Unknown, ErrOtpFormat + e))
    case Ok(otp) =>
      var r := CandidateUsecase.ResetPassword(db, b, email, otp, newPassword, now, read, update);
      if r.result.Err? then Served(r.db, Refused(Unknown, r.result.error)) else Served(r.db, Reply(PasswordReset))
  }

  /** `EmployerVerifyEmail`: the parse error becomes an `InvalidArgument`
      status. */
  function EmployerVerifyEmail(db: Db, email: string, otpText: string, now: Time, read: Io, markRecord: Io, markEmployer: Io)
    : (s: Served<string>)
    ensures ParseOtp(otpText).Err? ==> s == Served(db, Refused(InvalidArgument, ErrOtpFormat + ParseOtp(otpText).error))
    ensures s.reply.Reply? <==>
      ParseOtp(otpText).Ok? && EmployerRepo.VerifyEmail(db, email, ParseOtp(otpText).value, now, read, markRecord, markEmployer).result.Ok?
    ensures s.reply.Reply? ==> s.reply.value == EmailVerified
  {
    match ParseOtp(otpText)
    case Err(e) => Served(db, Refused(InvalidArgument, ErrOtpFormat + e))
    case Ok(otp) =>
      var v := EmployerRepo.VerifyEmail(db, email, otp, now, read, markRecord, markEmployer);
      if v.result.Err? then Served(v.db, Refused(Unknown, v.result.error)) else Served(v.db, Reply(EmailVerified))
  }

  /** `EmployerResetPassword`: as for candidates, with the employer use
      case's reset. */
  function EmployerResetPassword(db: Db, b: Bcrypt, email: string, otpText: string, newPassword: string, now: Time, read: Io, update: Io)
    : (s: Served<string>)
    ensures ParseOtp(otpText).Err? ==> s == Served(db, Refused(Unknown, ErrOtpFormat + ParseOtp(otpText).error))
    ensures s.reply.Reply? <==>
      ParseOtp(otpText).Ok? && EmployerUsecase.ResetPassword(db, b, email, ParseOtp(otpText).value, newPassword, now, read, update).result.Ok?
    ensures ParseOtp(otpText).Ok? ==>
      var r := EmployerUsecase.ResetPassword(db, b, email, ParseOtp(otpText).value, newPassword, now, read, update);
      s.db == r.db && (r.result.Err? ==> s.reply == Refused(Unknown, r.result.error))
    ensures s.reply.Reply? ==> s.reply.value == PasswordReset
  {
    match ParseOtp(otpText)
    case Err(e) => Served(db, Refused(Unknown, ErrOtpFormat + e))
    case Ok(otp) =>
      var r := EmployerUsecase.ResetPassword(db, b, email, otp, newPassword, now, read, update);
      if r.result.Err? then Served(r.db, Refused(Unknown, r.result.error)) else Served(r.db, Reply(PasswordReset))
  }

  /** A text with a character other than a decimal digit is refused by all
      four handlers, and none of them touches the state. */
  lemma NonDecimalRefused(db: Db, b: Bcrypt, email: string, otpText: string, newPassword: string, now: Time, io: Io, k: nat)
    requires k < |otpText| && !IsDigit(otpText[k])
    ensures var s := CandidateVerifyEmail(db, email, otpText, now, io, io, io); s.db == db && s.reply.Refused?
    ensures var s := CandidateResetPassword(db, b, email, otpText, newPassword, now, io, io); s.db == db && s.reply.Refused?
    ensures var s := EmployerVerifyEmail(db, email, otpText, now, io, io, io); s.db == db && s.reply.Refused? && s.reply.status == InvalidArgument
    ensures var s := EmployerResetPassword(db, b, email, otpText, newPassword, now, io, io); s.db == db && s.reply.Refused?
  {
    assert !AllDigits(otpText);
  }

  /** The mailed code gets past every parse gate: the handlers then answer
      exactly as the operation behind them does. */
  lemma MailedCodeReachesOperation(db: Db, email: string, d: Draw, now: Time, read: Io, markRecord: Io, markEmployer: Io)
    ensures EmployerVerifyEmail(db, email, Itoa(Code(d)), now, read, markRecord, markEmployer).reply.Reply?
        <==> EmployerRepo.VerifyEmail(db, email, Code(d), now, read, markRecord, markEmployer).result.Ok?
  {
    MailedCodeParses(d);
  }

  // ---------------------------------------------------------------------
  // Pagination

  datatype PageRequest = PageRequest(page: Int32, limit: Int32)

  /** Page 1 and limit 10 when the request has no pagination message; the
      message's values, unchecked, otherwise. */
  function Paging(pagination: Option<PageRequest>): (r: (Int32, Int32))
    ensures pagination.None? ==> r == (1, 10)
    ensures pagination.Some? ==> r == (pagination.value.page, pagination.value.limit)
  {
    if pagination.Some? then (pagination.value.page, pagination.value.limit) else (1, 10)
  }

  /** A filter's value: text, or the candidates' minimum experience. */
  datatype FilterValue = Text(text: string) | Count(count: int)

  /** Only a non-empty text and a positive minimum enter a filter map. */
  predicate Meaningful(filters: map<string, FilterValue>) {
    forall key :: key in filters ==>
      match filters[key]
      case Text(t) => t != ""
      case Count(n) => n > 0
  }

  /** `GetCandidatesWithPagination`'s filters. */
  function CandidateFilters(keyword: string, skill: string, location: string, minExperience: int): (f: map<string, FilterValue>)
    ensures Meaningful(f)
    ensures f.Keys <= {"keyword", "skill", "location", "min_experience"}
    ensures "keyword" in f <==> keyword != ""
    ensures "skill" in f <==> skill != ""
    ensures "location" in f <==> location != ""
    ensures "min_experience" in f <==> minExperience > 0
  {
    var f0 := map[];
    var f1 := if keyword != "" then f0["keyword" := Text(keyword)] else f0;
    var f2 := if skill != "" then f1["skill" := Text(skill)] else f1;
    var f3 := if location != "" then f2["location" := Text(location)] else f2;
    if minExperience > 0 then f3["min_experience" := Count(minExperience)] else f3
  }

  /** `GetEmployersWithPagination`'s filters. */
  function EmployerFilters(keyword: string, industry: string, location: string): (f: map<string, FilterValue>)
    ensures Meaningful(f)
    ensures f.Keys <= {"keyword", "industry", "location"}
    ensures "keyword" in f <==> keyword != ""
    ensures "industry" in f <==> industry != ""
    ensures "location" in f <==> location != ""
  {
    var f0 := map[];
    var f1 := if keyword != "" then f0["keyword" := Text(keyword)] else f0;
    var f2 := if industry != "" then f1["industry" := Text(industry)] else f1;
    if location != "" then f2["location" := Text(location)] else f2
  }

  /** Each filter carries the request's value unchanged. */
  lemma FiltersCarryValues(keyword: string, skill: string, location: string, minExperience: int)
    ensures var f := CandidateFilters(keyword, skill, location, minExperience);
      && (keyword != "" ==> f["keyword"] == Text(keyword))
      && (skill != "" ==> f["skill"] == Text(skill))
      && (location != "" ==> f["location"] == Text(location))
      && (minExperience > 0 ==> f["min_experience"] == Count(minExperience))
    ensures var f := EmployerFilters(keyword, skill, location);
      && (keyword != "" ==> f["keyword"] == Text(keyword))
      && (skill != "" ==> f["industry"] == Text(skill))
      && (location != "" ==> f["location"] == Text(location))
  {
  }

  /** Go's integer division, which truncates toward zero. */
  function Quot(a: int, b: int): (q: int)
    requires b != 0
    ensures a >= 0 && b > 0 ==> q == a / b
  {
    var q := Abs(a) / Abs(b);
    if (a < 0) != (b < 0) then -q else q
  }

  function Abs(x: int): nat {
    if x < 0 then -x else x
  }

  /** The number of pages of `limit` rows that `count` rows fill, and 1 for
      no rows at all. */
  predicate PagesFor(count: nat, limit: nat, n: int) {
    && n >= 1
    && (count == 0 ==> n == 1)
    && (count > 0 ==> (n - 1) * limit < count <= n * limit)
  }

  /** Euclidean division bounds its dividend between two multiples. */
  lemma DivBounds(a: nat, l: nat)
    requires l > 0
    ensures 0 <= a / l
    ensures (a / l) * l <= a < (a / l) * l + l
  {
  }

  lemma MulPred(q: int, l: int)
    ensures (q - 1) * l == q * l - l
  {
  }

  lemma MulGrows(x: nat, l: nat)
    requires l >= 1
    ensures x <= x * l
  {
  }

  /** The ceiling division behind `totalPages`, for a positive limit. */
  lemma {:induction false} CeilingDivision(count: nat, limit: nat)
    requires limit > 0
    ensures PagesFor(count, limit, if Quot(count + limit - 1, limit) < 1 then 1 else Quot(count + limit - 1, limit))
  {
    var a: nat := count + limit - 1;
    var q := a / limit;
    assert Quot(a, limit) == q;
    DivBounds(a, limit);
    MulPred(q, limit);
    if count == 0 {
      assert q == 0;
    }
  }

  /** `totalPages` as written: the ceiling of the count over the REQUEST's
      limit, at least 1. The division is undefined for a limit of 0. */
  function TotalPages(count: nat, limit: Int32): (n: int)
    requires limit != 0
    ensures n >= 1
    ensures limit > 0 ==> PagesFor(count, limit as nat, n)
  {
    var n := Quot(count + limit - 1, limit);
    assert limit > 0 ==> PagesFor(count, limit as nat, if n < 1 then 1 else n) by {
      if limit > 0 {
        CeilingDivision(count, limit as nat);
      }
    }
    if n < 1 then 1 else n
  }

  /** `totalPages` as evidently intended: the ceiling over the limit the
      repository actually applied. */
  function TotalPagesIntended(count: nat, limit: Int32): (n: int)
    ensures PagesFor(count, ClampLimit(limit) as nat, n)
  {
    TotalPages(count, ClampLimit(limit))
  }

  /** Inside the accepted range both agree. */
  lemma TotalPagesAgreeInRange(count: nat, limit: Int32)
    requires 1 <= limit <= 100
    ensures TotalPages(count, limit) == TotalPagesIntended(count, limit)
  {
  }

  /** Outside it they part: a limit of 200 is served ten rows a page, so
      1000 rows fill 100 pages, not the 5 reported; a pagination message
      with limit 0 sends 0 on to the division. */
  lemma TotalPagesMisreports()
    ensures ClampLimit(200) == 10
    ensures TotalPages(1000, 200) == 5
    ensures TotalPagesIntended(1000, 200) == 100
    ensures Paging(Some(PageRequest(1, 0))).1 == 0
  {
    assert Quot(1199, 200) == 5;
    assert Quot(1009, 10) == 100;
  }

  /** A negative limit in the request also reaches the division: an empty
      table is reported as two pages with limit -1, where the repository
      served one page of ten. */
  lemma TotalPagesNegativeLimit()
    ensures Paging(Some(PageRequest(1, -1))).1 == -1
    ensures TotalPages(0, -1) == 2
    ensures TotalPagesIntended(0, -1) == 1
    ensures TotalPages(5, -1) == 1
  {
    assert Quot(-2, -1) == 2;
    assert Quot(3, -1) == -3;
    assert Quot(9, 10) == 0;
  }

  /** The pagination part of the response: the total, the page and limit as
      requested (or defaulted), and the page count, each narrowed to 32
      bits. */
  datatype PageInfo = PageInfo(totalCount: Int32, page: Int32, limit: Int32, totalPages: Int32)

  function Pagination(count: nat, pagination: Option<PageRequest>): (info: PageInfo)
    requires Paging(pagination).1 != 0
    ensures (info.page, info.limit) == Paging(pagination)
    ensures count <= MaxInt32 ==> info.totalCount == count
    ensures count <= MaxInt32 && Paging(pagination).1 > 0 ==> PagesFor(count, Paging(pagination).1 as nat, info.totalPages)
  {
    var (page, limit) := Paging(pagination);
    var n := TotalPages(count, limit);
    assert count <= MaxInt32 && limit > 0 ==> n <= MaxInt32 by {
      if count <= MaxInt32 && limit > 0 {
        PagesBound(count, limit as nat, n);
      }
    }
    PageInfo(Wrap32(count), page, limit, Wrap32(n))
  }

  /** Pages never outnumber rows, except the one page of an empty table. */
  lemma PagesBound(count: nat, limit: nat, n: int)
    requires limit > 0 && PagesFor(count, limit, n)
    ensures n <= count || n == 1
  {
    if count > 0 {
      MulGrows(n - 1, limit);
    }
  }
}

=== FILE: jwt.dfy ===
/** `JWTMaker` and the bearer-header helper: minting a signed token for a user
    id and role, validating one, and extracting its subject. */
module Jwt {
  import opened Wrappers
  import opened Text
  import opened Crypto

  /** `ExpiresAt = now + 24h`. */
  const TokenLifetime: int := 24 * 60 * 60

  /** The library's messages for a token that does not parse, carries a
      signature other than the expected one, claims an issue time still in
      the future, or is past its expiry. */
  const ErrMalformed := "token is malformed"
  const ErrSignatureInvalid := "signature is invalid"
  const ErrUsedBeforeIssued := "Token used before issued"
  const ErrExpired := "token is expired"

  const ErrInvalidToken := "invalid token"

  const Bearer := "Bearer "
  const ErrMissingHeader := "missing Authorization header"
  const ErrMissingBearer := "invalid Authorization header format: missing 'Bearer ' prefix"
  const ErrEmptyToken := "token is empty"

  datatype JwtMaker = JwtMaker(secretKey: string)

  /** The two clock readings `GenerateToken` makes, in the order it makes
      them: the first for `ExpiresAt`, the second for `IssuedAt`. */
  datatype Readings = Readings(first: int, second: int)

  /** The claims `GenerateToken` signs. The expiry is 24 hours after the
      first reading and the issue time is the second, so when the readings
      straddle a second boundary the token lives one second less. */
  function NewClaims(userId: string, role: string, clock: Readings): (c: Claims)
    ensures c.userId == userId && c.role == role
    ensures c.issuedAt == clock.second && c.expiresAt == clock.first + TokenLifetime
    ensures c.expiresAt - c.issuedAt == TokenLifetime - (clock.second - clock.first)
  {
    Claims(userId, role, clock.second, clock.first + TokenLifetime)
  }

  /** The moments at which a token minted with these readings is neither
      early nor expired. */
  predicate Live(clock: Readings, now: int) {
    clock.second <= now <= clock.first + TokenLifetime
  }

  /** `GenerateToken`: the compact serialisation of the claims and their
      signature under the maker's secret. */
  function GenerateToken(j: JwtMaker, jose: Jose, userId: string, role: string, clock: Readings): (token: string)
    ensures jose.Coherent() ==>
      var c := NewClaims(userId, role, clock);
      jose.parse(token) == Some(Jws(c, jose.sign(j.secretKey, c)))
  {
    var c := NewClaims(userId, role, clock);
    jose.serialize(Jws(c, jose.sign(j.secretKey, c)))
  }

  /** The standard claims' optional `iat` check: an issue time of 0 is
      absent, any other must not lie after `now`. */
  predicate IssuedBy(c: Claims, now: int) {
    c.issuedAt == 0 || c.issuedAt <= now
  }

  /** The standard claims' optional `exp` check: an expiry of 0 is absent,
      any other must not lie before `now`. */
  predicate Unexpired(c: Claims, now: int) {
    c.expiresAt == 0 || now <= c.expiresAt
  }

  /** A token is valid when it parses, its signature is the one the secret
      gives its claims, and at `now` it is already issued and not expired. */
  predicate Authentic(j: JwtMaker, jose: Jose, token: string, now: int) {
    match jose.parse(token)
    case None => false
    case Some(t) =>
      t.signature == jose.sign(j.secretKey, t.claims) && IssuedBy(t.claims, now) && Unexpired(t.claims, now)
  }

  /** `ValidateToken`. The library checks the claims first, recording an
      expiry and then letting an early issue time overwrite it, and then the
      signature, whose failure overwrites both; so a bad signature is
      reported ahead of an early issue time, and that ahead of an expiry. */
  function ValidateToken(j: JwtMaker, jose: Jose, token: string, now: int): (r: Result<Claims>)
    ensures r.Ok? <==> Authentic(j, jose, token, now)
    ensures r.Ok? ==> jose.parse(token) == Some(Jws(r.value, jose.sign(j.secretKey, r.value)))
    ensures jose.parse(token).None? ==> r == Err(ErrMalformed)
    ensures jose.parse(token).Some? ==>
      var t := jose.parse(token).value;
      && (t.signature != jose.sign(j.secretKey, t.claims) ==> r == Err(ErrSignatureInvalid))
      && (t.signature == jose.sign(j.secretKey, t.claims) && !IssuedBy(t.claims, now) ==> r == Err(ErrUsedBeforeIssued))
      && (t.signature == jose.sign(j.secretKey, t.claims) && IssuedBy(t.claims, now) && !Unexpired(t.claims, now) ==>
            r == Err(ErrExpired))
    ensures r.Err? ==> r.error in {ErrMalformed, ErrSignatureInvalid, ErrUsedBeforeIssued, ErrExpired}
  {
    match jose.parse(token)
    case None => Err(ErrMalformed)
    case Some(t) =>
      if t.signature != jose.sign(j.secretKey, t.claims) then Err(ErrSignatureInvalid)
      else if !IssuedBy(t.claims, now) then Err(ErrUsedBeforeIssued)
      else if !Unexpired(t.claims, now) then Err(ErrExpired)
      else Ok(t.claims)
  }

  /** `ExtractUserIDFromToken`: the subject of a valid token; every failure
      becomes the one message "invalid token". */
  function ExtractUserIDFromToken(j: JwtMaker, jose: Jose, token: string, now: int): (r: Result<string>)
    ensures r.Ok? <==> Authentic(j, jose, token, now)
    ensures r.Ok? ==> jose.parse(token).value.claims.userId == r.value
    ensures r.Err? ==> r.error == ErrInvalidToken
  {
    match ValidateToken(j, jose, token, now)
    case Ok(c) => Ok(c.userId)
    case Err(_) => Err(ErrInvalidToken)
  }

  /** A freshly minted token validates to the claims it was minted with from
      its issue time to its expiry: the issue time is the second reading and
      the expiry 24 hours after the first. */
  lemma GenerateValidate(j: JwtMaker, jose: Jose, userId: string, role: string, clock: Readings, now: int)
    requires jose.Coherent()
    requires Live(clock, now)
    ensures ValidateToken(j, jose, GenerateToken(j, jose, userId, role, clock), now)
         == Ok(Claims(userId, role, clock.second, clock.first + TokenLifetime))
    ensures ExtractUserIDFromToken(j, jose, GenerateToken(j, jose, userId, role, clock), now) == Ok(userId)
  {
  }

  /** Past 24 hours after the first reading, a token minted after the epoch
      (and issued before its own expiry) is rejected as expired. */
  lemma GeneratedTokenExpires(j: JwtMaker, jose: Jose, userId: string, role: string, clock: Readings, now: int)
    requires jose.Coherent()
    requires 0 < clock.first && clock.second <= clock.first + TokenLifetime < now
    ensures ValidateToken(j, jose, GenerateToken(j, jose, userId, role, clock), now) == Err(ErrExpired)
  {
  }

  /** When the second boundary falls between the two readings, the token
      expires 86399 seconds after its issue time: it is accepted at the end
      of the first reading's 24 hours and refused one second later, 24 hours
      after issue. */
  lemma StraddledReadingsShortenLifetime(j: JwtMaker, jose: Jose, userId: string, role: string, t: int)
    requires jose.Coherent()
    requires 0 < t
    ensures var token := GenerateToken(j, jose, userId, role, Readings(t, t + 1));
      && ValidateToken(j, jose, token, t + TokenLifetime) == Ok(Claims(userId, role, t + 1, t + TokenLifetime))
      && ValidateToken(j, jose, token, (t + 1) + TokenLifetime) == Err(ErrExpired)
  {
    GenerateValidate(j, jose, userId, role, Readings(t, t + 1), t + TokenLifetime);
  }

  /** Before its issue time (a clock set back, or a second server running
      behind) a minted token is rejected as used before issued. */
  lemma GeneratedTokenNotYetIssued(j: JwtMaker, jose: Jose, userId: string, role: string, clock: Readings, now: int)
    requires jose.Coherent()
    requires 0 < clock.second && now < clock.second
    ensures ValidateToken(j, jose, GenerateToken(j, jose, userId, role, clock), now) == Err(ErrUsedBeforeIssued)
  {
  }

  /** Claims with neither an issue time nor an expiry, correctly signed, are
      accepted at every moment. */
  lemma TimelessClaimsAccepted(j: JwtMaker, jose: Jose, userId: string, role: string, now: int)
    requires jose.Coherent()
    ensures var c := Claims(userId, role, 0, 0);
      ValidateToken(j, jose, jose.serialize(Jws(c, jose.sign(j.secretKey, c))), now) == Ok(c)
  {
  }

  /** A token minted under one secret is rejected under another whose
      signature of the same claims differs. */
  lemma ForeignSecretRejected(minter: JwtMaker, checker: JwtMaker, jose: Jose, userId: string, role: string, clock: Readings, now: int)
    requires jose.Coherent()
    requires var c := NewClaims(userId, role, clock);
      jose.sign(minter.secretKey, c) != jose.sign(checker.secretKey, c)
    ensures ValidateToken(checker, jose, GenerateToken(minter, jose, userId, role, clock), now) == Err(ErrSignatureInvalid)
    ensures ExtractUserIDFromToken(checker, jose, GenerateToken(minter, jose, userId, role, clock), now) == Err(ErrInvalidToken)
  {
  }

  /** `ExtractTokenFromHeader`: the text after a case-sensitive "Bearer "
      prefix, rejecting an empty header, a missing prefix and an empty
      token, in that order. */
  function ExtractTokenFromHeader(header: string): (r: Result<string>)
    ensures header == "" ==> r == Err(ErrMissingHeader)
    ensures header != "" && !HasPrefix(header, Bearer) ==> r == Err(ErrMissingBearer)
    ensures header == Bearer ==> r == Err(ErrEmptyToken)
    ensures r.Ok? <==> HasPrefix(header, Bearer) && |header| > |Bearer|
    ensures r.Ok? ==> Bearer + r.value == header && r.value != ""
  {
    if header == "" then Err(ErrMissingHeader)
    else if !HasPrefix(header, Bearer) then Err(ErrMissingBearer)
    else
      var token := TrimPrefix(header, Bearer);
      if token == "" then Err(ErrEmptyToken) else Ok(token)
  }

  /** Putting "Bearer " in front of a non-empty token and extracting it
      gives the token back. */
  lemma HeaderRoundTrip(token: string)
    requires token != ""
    ensures ExtractTokenFromHeader(Bearer + token) == Ok(token)
  {
    assert HasPrefix(Bearer + token, Bearer) by {
      assert (Bearer + token)[..|Bearer|] == Bearer;
    }
  }
}

=== FILE: models.dfy ===
/** The request and response records the use cases and repositories
    exchange. Field sets follow the places the records are used. */
module Models {

  /** A signup request; `context` carries the optional employer details
      (`phone`, `industry`, `location`, `website`). */
  datatype SignupRequest = SignupRequest(
    name: string,
    email: string,
    password: string,
    role: string,
    context: map<string, string>)

  datatype LoginRequest = LoginRequest(email: string, password: string, role: string)

  datatype LoginResponse = LoginResponse(id: string, role: string, token: string, message: string)

  datatype AuthResponse = AuthResponse(id: string, message: string)

  /** The profile fields a candidate may change; an empty string or a zero
      number means "leave as it is". */
  datatype UpdateCandidateInput = UpdateCandidateInput(
    name: string,
    email: string,
    phone: int,
    experience: int,
    currentLocation: string,
    preferredLocation: string)

  /** The employer profile as the update request carries it, all six fields
      always written. */
  datatype UpdateEmployerInput = UpdateEmployerInput(
    id: string,
    companyName: string,
    phone: int,
    email: string,
    industry: string,
    location: string,
    website: string)
}

=== FILE: otp.dfy ===
/** One-time codes: drawing a code, the two upsert forms GORM offers, the
    shared `pkg.SendOtp` writer, the map-form reissue both repositories use,
    and the check every verifier applies (record missing, then code mismatch,
    then expiry, the expiry second itself still accepted). */
module Otp {
  import opened Wrappers
  import opened Store

  /** `rand.Intn(900000) + 100000`. */
  const CodeFloor: nat := 100000
  const CodeSpan: nat := 900000

  /** A value `rand.Intn(900000)` can return. */
  type Draw = d: int | 0 <= d < 900000

  /** The five minutes (`5*60`) the repositories give a code. */
  const FiveMinutes: nat := 5 * 60

  const ErrNotRegistered := "email not found or not registered"
  const ErrInvalidOtp := "invalid OTP"
  const ErrOtpExpired := "OTP has expired"

  /** The six-digit code a draw gives. */
  function Code(d: Draw): (code: nat)
    ensures 100000 <= code <= 999999
  {
    CodeFloor + d
  }

  lemma CodeDeterminesDraw(a: Draw, b: Draw)
    requires Code(a) == Code(b)
    ensures a == b
  {
  }

  // ---------------------------------------------------------------------
  // Checking a code

  /** The code is the stored one for `email` and has not expired at `now`. */
  predicate Accepts(t: map<string, Verification>, email: string, otp: nat, now: Time) {
    email in t && t[email].otp == otp && now <= t[email].expiry
  }

  /** The check `VerifyEmail` and `VerifyPasswordResetOtp` of both
      repositories perform. It reads the table and changes nothing. */
  function CheckOtp(t: map<string, Verification>, email: string, otp: nat, now: Time): (r: Result<()>)
    ensures r.Ok? <==> Accepts(t, email, otp, now)
    ensures email !in t ==> r == Err(ErrNotRegistered)
    ensures email in t && t[email].otp != otp ==> r == Err(ErrInvalidOtp)
    ensures r == Err(ErrOtpExpired) <==> email in t && t[email].otp == otp && now > t[email].expiry
  {
    if email !in t then Err(ErrNotRegistered)
    else if t[email].otp != otp then Err(ErrInvalidOtp)
    else if now > t[email].expiry then Err(ErrOtpExpired)
    else Ok(())
  }

  /** `Where("email = ?", e).First(&verification)` and then `CheckOtp`: the
      repositories turn every error of that query, not only a missing row,
      into "email not found or not registered". */
  function ReadCheck(t: map<string, Verification>, email: string, otp: nat, now: Time, read: Io): (r: Result<()>)
    ensures r.Ok? <==> read.Done? && Accepts(t, email, otp, now)
    ensures read.Fails? || email !in t ==> r == Err(ErrNotRegistered)
    ensures read.Done? ==> r == CheckOtp(t, email, otp, now)
    ensures r.Err? ==> r.error in {ErrNotRegistered, ErrInvalidOtp, ErrOtpExpired}
  {
    if read.Fails? then Err(ErrNotRegistered) else CheckOtp(t, email, otp, now)
  }

  // ---------------------------------------------------------------------
  // Writing a code

  /** GORM writes a field of an `Assign`ed struct only when it is non-zero. */
  function NonZeroOr(value: nat, current: nat): nat {
    if value != 0 then value else current
  }

  /** `Where("email = ?", e).Assign(VerificationTable{...}).FirstOrCreate(...)`:
      an existing row gets the struct's non-zero fields, so its
      `verification_status` is kept; a new row is created from the struct. */
  function AssignStruct(t: map<string, Verification>, email: string, otp: nat, expiry: nat): (r: map<string, Verification>)
    ensures email in r && OthersUnchanged(t, r, email)
    ensures email !in t ==> r[email] == Verification(otp, expiry, false, "")
    ensures email in t ==>
      && r[email].verified == t[email].verified && r[email].role == t[email].role
      && r[email].otp == (if otp != 0 then otp else t[email].otp)
      && r[email].expiry == (if expiry != 0 then expiry else t[email].expiry)
  {
    if email in t then
      t[email := t[email].(otp := NonZeroOr(otp, t[email].otp), expiry := NonZeroOr(expiry, t[email].expiry))]
    else
      t[email := Verification(otp, expiry, false, "")]
  }

  /** The email of the row the map form's create path inserts. GORM fills a
      new row only from struct and map conditions; the string condition
      `email = ?` is neither, and the destination is a zero struct, so the
      row's email stays empty. */
  const UnkeyedEmail := ""

  /** Whether the map form's write can land: the email has a row to update,
      or the empty email is still free for the row the create path inserts. */
  predicate MapWriteFits(t: map<string, Verification>, email: string) {
    email in t || UnkeyedEmail !in t
  }

  /** `Model(&VerificationTable{}).Where("email = ?", e).Assign(map{...})
      .FirstOrCreate(&VerificationTable{})`: an existing row gets all three
      columns, so its `verification_status` becomes false. Without one, the
      create path inserts the columns under the empty email, not under `e`,
      and repeats that key when such a row already exists. */
  function AssignMap(t: map<string, Verification>, email: string, otp: nat, expiry: nat): (r: Result<map<string, Verification>>)
    ensures r.Ok? <==> MapWriteFits(t, email)
    ensures r.Err? ==> r.error == ErrUniqueViolation
    ensures email in t ==>
      && r.Ok? && email in r.value && OthersUnchanged(t, r.value, email)
      && r.value[email].otp == otp && r.value[email].expiry == expiry && !r.value[email].verified
      && r.value[email].role == t[email].role
    ensures email !in t && r.Ok? ==>
      && r.value.Keys == t.Keys + {UnkeyedEmail}
      && OthersUnchanged(t, r.value, UnkeyedEmail)
      && r.value[UnkeyedEmail] == Verification(otp, expiry, false, "")
  {
    if email in t then
      Ok(t[email := t[email].(otp := otp, expiry := expiry, verified := false)])
    else if UnkeyedEmail in t then
      Err(ErrUniqueViolation)
    else
      Ok(t[UnkeyedEmail := Verification(otp, expiry, false, "")])
  }

  /** A first code for an email with no row lands under the empty email, so
      the email itself still has no code to check. */
  lemma FreshEmailWritesBlankRow(t: map<string, Verification>, email: string, otp: nat, expiry: nat, now: Time)
    requires email != UnkeyedEmail && email !in t && UnkeyedEmail !in t
    ensures var r := AssignMap(t, email, otp, expiry);
      && r.Ok?
      && email !in r.value
      && CheckOtp(r.value, email, otp, now) == Err(ErrNotRegistered)
      && r.value[UnkeyedEmail].otp == otp
  {
  }

  /** The map form evidently means to upsert the row of `email` itself. */
  function AssignMapIntended(t: map<string, Verification>, email: string, otp: nat, expiry: nat): (r: map<string, Verification>)
    ensures email in r && OthersUnchanged(t, r, email)
    ensures r[email].otp == otp && r[email].expiry == expiry && !r[email].verified
    ensures r[email].role == (if email in t then t[email].role else "")
  {
    if email in t then
      t[email := t[email].(otp := otp, expiry := expiry, verified := false)]
    else
      t[email := Verification(otp, expiry, false, "")]
  }

  /** The intended write makes the code checkable for that email until its
      expiry, whether the email had a row or not. */
  lemma IntendedAssignRecordsEmail(t: map<string, Verification>, email: string, otp: nat, expiry: nat, now: Time)
    ensures var r := AssignMapIntended(t, email, otp, expiry);
      && (now <= expiry ==> CheckOtp(r, email, otp, now) == Ok(()))
      && (now > expiry ==> CheckOtp(r, email, otp, now) == Err(ErrOtpExpired))
  {
  }

  /** With a non-zero code and expiry the two forms write the same row, except
      that on an existing row the map form also clears the verified flag, and
      that on the create path it files the row under the empty email (or
      repeats that key). */
  lemma AssignFormsDiffer(t: map<string, Verification>, email: string, otp: nat, expiry: nat)
    requires otp != 0 && expiry != 0
    ensures var s := AssignStruct(t, email, otp, expiry);
      && (email in t ==> AssignMap(t, email, otp, expiry) == Ok(s[email := s[email].(verified := false)]))
      && (email !in t && UnkeyedEmail !in t ==> AssignMap(t, email, otp, expiry) == Ok(t[UnkeyedEmail := s[email]]))
      && (email !in t && UnkeyedEmail in t ==> AssignMap(t, email, otp, expiry) == Err(ErrUniqueViolation))
  {
    if email in t {
      var v := t[email];
      var w := v.(otp := NonZeroOr(otp, v.otp), expiry := NonZeroOr(expiry, v.expiry));
      assert v.(otp := otp, expiry := expiry, verified := false) == w.(verified := false);
      assert AssignStruct(t, email, otp, expiry) == t[email := w];
      assert t[email := w][email := w.(verified := false)] == t[email := w.(verified := false)];
    }
  }

  /** Only the verification table and the outbox differ. */
  predicate AccountsUnchanged(db: Db, db': Db) {
    && db'.candidates == db.candidates
    && db'.employers == db.employers
    && db'.nextEmployerId == db.nextEmployerId
    && db'.skills == db.skills
    && db'.education == db.education
  }

  /** Every row except `email`'s is as it was. */
  predicate OthersUnchanged(t: map<string, Verification>, t': map<string, Verification>, email: string) {
    t' - {email} == t - {email}
  }

  /** Draw a code, upsert it for `to` with expiry `now + offset` through a
      struct `Assign`, then mail it. A failed write sends nothing; a failed
      mail leaves the write in place. The two error prefixes are the
      caller's. */
  function IssueOtp(db: Db, to: string, offset: nat, now: Time, draw: Draw, store: Io, mail: Io,
                    storeError: string, mailError: string): (s: Step<()>)
    ensures AccountsUnchanged(db, s.db)
    ensures OthersUnchanged(db.verifications, s.db.verifications, to)
    ensures store.Fails? ==> s == Step(db, Err(storeError + store.reason))
    ensures store.Done? ==>
      && to in s.db.verifications
      && s.db.verifications[to].otp == Code(draw)
      && s.db.verifications[to].expiry == now + offset
    ensures store.Done? && to in db.verifications ==>
      && s.db.verifications[to].verified == db.verifications[to].verified
      && s.db.verifications[to].role == db.verifications[to].role
    ensures store.Done? && to !in db.verifications ==> !s.db.verifications[to].verified
    ensures s.db.outbox == db.outbox + (if store.Done? && mail.Done? then [Mail(to, Code(draw))] else [])
    ensures s.result.Ok? <==> store.Done? && mail.Done?
    ensures store.Done? && mail.Fails? ==> s.result == Err(mailError + mail.reason)
  {
    var code := Code(draw);
    if store.Fails? then Step(db, Err(storeError + store.reason))
    else
      var db1 := db.(verifications := AssignStruct(db.verifications, to, code, now + offset));
      if mail.Fails? then Step(db1, Err(mailError + mail.reason))
      else Step(db1.(outbox := db1.outbox + [Mail(to, code)]), Ok(()))
  }

  /** `pkg.SendOtp(db, to, otpexpiry)`: the argument is an expiry offset in
      seconds, not an absolute time. */
  function SendOtp(db: Db, to: string, otpexpiry: nat, now: Time, draw: Draw, store: Io, mail: Io): (s: Step<()>)
    ensures AccountsUnchanged(db, s.db)
    ensures OthersUnchanged(db.verifications, s.db.verifications, to)
    ensures store.Fails? ==> s == Step(db, Err("failed to store OTP information in the database: " + store.reason))
    ensures store.Done? ==>
      && to in s.db.verifications
      && s.db.verifications[to].otp == Code(draw)
      && s.db.verifications[to].expiry == now + otpexpiry
    ensures store.Done? && to in db.verifications ==>
      s.db.verifications[to].verified == db.verifications[to].verified
    ensures s.db.outbox == db.outbox + (if store.Done? && mail.Done? then [Mail(to, Code(draw))] else [])
    ensures store.Done? && mail.Fails? ==> s.result == Err("failed to send email: " + mail.reason)
    ensures s.result.Ok? <==> store.Done? && mail.Done?
  {
    IssueOtp(db, to, otpexpiry, now, draw, store, mail,
             "failed to store OTP information in the database: ", "failed to send email: ")
  }

  /** The code `SendOtp` stores is accepted from issue until `now + otpexpiry`
      inclusive, rejected as expired after it, and any other code is
      rejected as invalid. */
  lemma SentCodeWindow(db: Db, to: string, otpexpiry: nat, now: Time, draw: Draw, store: Io, mail: Io, later: Time, other: nat)
    requires store.Done?
    requires other != Code(draw)
    ensures var t := SendOtp(db, to, otpexpiry, now, draw, store, mail).db.verifications;
      && (now <= later <= now + otpexpiry ==> CheckOtp(t, to, Code(draw), later) == Ok(()))
      && (later > now + otpexpiry ==> CheckOtp(t, to, Code(draw), later) == Err(ErrOtpExpired))
      && CheckOtp(t, to, other, later) == Err(ErrInvalidOtp)
  {
  }

  /** Every verification row other than those of `email` and of the empty
      email is as it was. */
  predicate OthersKeptBut(t: map<string, Verification>, t': map<string, Verification>, email: string) {
    t' - {email, UnkeyedEmail} == t - {email, UnkeyedEmail}
  }

  const ErrStoreOtp := "failed to store OTP in the database: "
  const ErrSendOtp := "failed to send OTP: "

  /** `SendPasswordResetOtp` of both repositories and the employer
      repository's `SendOtp`: draw a code, write it with a five-minute expiry
      and status false through a map `Assign`, then hand the code to
      `pkg.SendOtp` -- which draws a second code and writes it to the row of
      `email` through a struct `Assign`, using the first code as its expiry
      offset. For an email with no row, the first code goes to the row of the
      empty email. */
  function ReissueOtp(db: Db, email: string, now: Time, first: Draw, second: Draw, store1: Io, store2: Io, mail: Io): (s: Step<()>)
    ensures AccountsUnchanged(db, s.db)
    ensures OthersKeptBut(db.verifications, s.db.verifications, email)
    ensures email in db.verifications ==> OthersUnchanged(db.verifications, s.db.verifications, email)
    ensures store1.Fails? ==> s == Step(db, Err(ErrStoreOtp + store1.reason))
    ensures store1.Done? && !MapWriteFits(db.verifications, email) ==> s == Step(db, Err(ErrStoreOtp + ErrUniqueViolation))
    ensures store1.Done? && email in db.verifications ==>
      && email in s.db.verifications && !s.db.verifications[email].verified
      && s.db.verifications[email].role == db.verifications[email].role
    ensures store1.Done? && email in db.verifications && store2.Fails? ==>
      && s.db.verifications[email].otp == Code(first)
      && s.db.verifications[email].expiry == now + FiveMinutes
    ensures store1.Done? && email != UnkeyedEmail && email !in db.verifications && UnkeyedEmail !in db.verifications ==>
      && UnkeyedEmail in s.db.verifications
      && s.db.verifications[UnkeyedEmail] == Verification(Code(first), now + FiveMinutes, false, "")
    ensures store1.Done? && email != UnkeyedEmail && email !in db.verifications && store2.Fails? ==> email !in s.db.verifications
    ensures store1.Done? && MapWriteFits(db.verifications, email) && store2.Done? ==>
      && email in s.db.verifications
      && s.db.verifications[email] ==
           Verification(Code(second), now + Code(first), false, if email in db.verifications then db.verifications[email].role else "")
    ensures s.db.outbox == db.outbox +
      (if store1.Done? && MapWriteFits(db.verifications, email) && store2.Done? && mail.Done? then [Mail(email, Code(second))] else [])
    ensures s.result.Ok? <==> store1.Done? && MapWriteFits(db.verifications, email) && store2.Done? && mail.Done?
  {
    var code := Code(first);
    if store1.Fails? then
      Step(db, Err(ErrStoreOtp + store1.reason))
    else match AssignMap(db.verifications, email, code, now + FiveMinutes)
      case Err(e) => Step(db, Err(ErrStoreOtp + e))
      case Ok(t) =>
        var s := SendOtp(db.(verifications := t), email, code, now, second, store2, mail);
        if s.result.Err? then Step(s.db, Err(ErrSendOtp + s.result.error)) else s
  }

  /** After a successful reissue the mailed code stays valid for at least
      `CodeFloor` seconds (more than a day), not five minutes, and the first
      code drawn is never mailed. The reissue succeeds exactly when the map
      write fits. */
  lemma ReissueOutlivesFiveMinutes(db: Db, email: string, now: Time, first: Draw, second: Draw)
    ensures var s := ReissueOtp(db, email, now, first, second, Done, Done, Done);
      && (s.result.Ok? <==> MapWriteFits(db.verifications, email))
      && (s.result.Ok? ==>
           && s.db.outbox == db.outbox + [Mail(email, Code(second))]
           && CheckOtp(s.db.verifications, email, Code(second), now + CodeFloor) == Ok(())
           && s.db.verifications[email].expiry - now > FiveMinutes)
  {
  }

  /** Two reissues for two emails with no row: the first files its first code
      under the empty email, so the second repeats that key and fails. */
  lemma SecondFreshEmailRefused(db: Db, a: string, b: string, now: Time, f1: Draw, s1: Draw, f2: Draw, s2: Draw)
    requires a != b && a != UnkeyedEmail && b != UnkeyedEmail
    requires a !in db.verifications && b !in db.verifications && UnkeyedEmail !in db.verifications
    ensures var s := ReissueOtp(db, a, now, f1, s1, Done, Done, Done);
      var s' := ReissueOtp(s.db, b, now, f2, s2, Done, Done, Done);
      && s.result.Ok?
      && s'.result == Err(ErrStoreOtp + ErrUniqueViolation)
      && s'.db == s.db
  {
    var s := ReissueOtp(db, a, now, f1, s1, Done, Done, Done);
    assert UnkeyedEmail in s.db.verifications;
  }

  /** What the reissue evidently means to do: one code, written once to the
      email's own row with a five-minute expiry and status false, and
      mailed. */
  function ReissueOtpIntended(db: Db, email: string, now: Time, draw: Draw, store: Io, mail: Io): (s: Step<()>)
    ensures AccountsUnchanged(db, s.db)
    ensures OthersUnchanged(db.verifications, s.db.verifications, email)
    ensures store.Fails? ==> s.db == db && s.result.Err?
    ensures store.Done? ==> email in s.db.verifications && !s.db.verifications[email].verified
    ensures s.db.outbox == db.outbox + (if store.Done? && mail.Done? then [Mail(email, Code(draw))] else [])
    ensures s.result.Ok? <==> store.Done? && mail.Done?
  {
    var code := Code(draw);
    if store.Fails? then
      Step(db, Err(ErrStoreOtp + store.reason))
    else
      var db1 := db.(verifications := AssignMapIntended(db.verifications, email, code, now + FiveMinutes));
      if mail.Fails? then Step(db1, Err(ErrSendOtp + mail.reason))
      else Step(db1.(outbox := db1.outbox + [Mail(email, code)]), Ok(()))
  }

  /** The intended reissue gives the mailed code exactly five minutes. */
  lemma IntendedReissueWindow(db: Db, email: string, now: Time, draw: Draw, store: Io, mail: Io, later: Time)
    requires store.Done?
    ensures var t := ReissueOtpIntended(db, email, now, draw, store, mail).db.verifications;
      && (now <= later <= now + FiveMinutes ==> CheckOtp(t, email, Code(draw), later) == Ok(()))
      && (later > now + FiveMinutes ==> CheckOtp(t, email, Code(draw), later) == Err(ErrOtpExpired))
  {
  }
}

=== FILE: skills.dfy ===
/** The candidate repository's skill list: `AddSkills` trims the name,
    rejects an empty one and updates a case-insensitive match instead of
    adding a second row; `GetSkills` reads the candidate's rows in ascending
    skill order and returns their trimmed, non-empty names. */
module Skills {
  import opened Wrappers
  import opened Text
  import opened Store

  const ErrEmptySkill := "skill cannot be empty"
  const ErrGetSkills := "failed to get skills: "
  /** GORM's refusal of an update or delete without a `WHERE` condition. */
  const ErrMissingWhere := "WHERE conditions required"

  // ---------------------------------------------------------------------
  // The table's invariant

  /** A stored skill name is trimmed and non-empty. */
  predicate CleanName(name: string) {
    name != "" && IsTrimmed(name)
  }

  /** Every name is clean and no candidate has two rows whose names differ
      only in case. */
  predicate WellFormed(rows: seq<Skill>) {
    && (forall i :: 0 <= i < |rows| ==> CleanName(rows[i].skill))
    && (forall i, j :: 0 <= i < j < |rows| && rows[i].candidateId == rows[j].candidateId ==>
          !EqualFold(rows[i].skill, rows[j].skill))
  }

  /** The row `LOWER(skill) = LOWER(name)` selects for the candidate. */
  predicate Matches(row: Skill, candidateId: string, name: string) {
    row.candidateId == candidateId && EqualFold(row.skill, name)
  }

  function MatchIndex(rows: seq<Skill>, candidateId: string, name: string): (r: Option<nat>)
    ensures r.Some? ==> r.value < |rows| && Matches(rows[r.value], candidateId, name)
    ensures r.None? ==> forall k :: 0 <= k < |rows| ==> !Matches(rows[k], candidateId, name)
  {
    FirstIndex(rows, (row: Skill) => Matches(row, candidateId, name))
  }

  // ---------------------------------------------------------------------
  // AddSkills

  /** The write of `AddSkills`: a matching row is rewritten from the input by
      a struct `Updates`, which writes the trimmed name and only a non-empty
      level; otherwise a new row is inserted. */
  function Upsert(rows: seq<Skill>, candidateId: string, name: string, level: string): (r: seq<Skill>)
    ensures exists row :: row in r && row.candidateId == candidateId && row.skill == name
    ensures match MatchIndex(rows, candidateId, name)
      case Some(i) =>
        && |r| == |rows|
        && (forall k :: 0 <= k < |rows| && k != i ==> r[k] == rows[k])
        && r[i].candidateId == candidateId && r[i].skill == name
        && EqualFold(r[i].skill, rows[i].skill)
      case None => r == rows + [Skill(candidateId, name, level)]
  {
    match MatchIndex(rows, candidateId, name)
    case Some(i) =>
      var prior := rows[i];
      var r := rows[i := Skill(candidateId, name, if level != "" then level else prior.level)];
      assert Matches(prior, candidateId, name);
      assert r[i] in r;
      r
    case None =>
      var r := rows + [Skill(candidateId, name, level)];
      assert r[|rows|] in r;
      r
  }

  /** `AddSkills` as written: trim the name and refuse an empty one, then
      look for a case-insensitive match. A match is rewritten by a struct
      `Updates` on the found row, but a skill row has no primary key, so the
      update carries no `WHERE` condition and is refused with
      `ErrMissingWhere` before anything is written; only a new name is
      inserted. */
  function AddSkills(db: Db, input: Skill, candidateId: string, query: Io, write: Io): (s: Step<()>)
    ensures s.db == db.(skills := s.db.skills)
    ensures TrimSpace(input.skill) == "" ==> s == Step(db, Err(ErrEmptySkill))
    ensures s.result.Ok? <==>
      && TrimSpace(input.skill) != "" && query.Done?
      && MatchIndex(db.skills, candidateId, TrimSpace(input.skill)).None? && write.Done?
    ensures TrimSpace(input.skill) != "" && query.Done? && MatchIndex(db.skills, candidateId, TrimSpace(input.skill)).Some? ==>
      s == Step(db, Err(ErrMissingWhere))
    ensures s.result.Err? ==> s.db == db
    ensures s.result.Ok? ==> s.db.skills == db.skills + [Skill(candidateId, TrimSpace(input.skill), input.level)]
  {
    var name := TrimSpace(input.skill);
    if name == "" then Step(db, Err(ErrEmptySkill))
    else if query.Fails? then Step(db, Err(query.reason))
    else if MatchIndex(db.skills, candidateId, name).Some? then Step(db, Err(ErrMissingWhere))
    else if write.Fails? then Step(db, Err(write.reason))
    else Step(db.(skills := db.skills + [Skill(candidateId, name, input.level)]), Ok(()))
  }

  /** Adding a skill again under another spelling is refused and leaves the
      table as it was, although the source logs it as an update. */
  lemma ReAddRefused()
    ensures var db := Db(map[], [], [], 1, [Skill("c1", "Go", "junior")], [], []);
      AddSkills(db, Skill("", " go ", "senior"), "c1", Done, Done) == Step(db, Err(ErrMissingWhere))
  {
    assert LeadingSpace(" go ") == 1;
    assert " go "[1..] == "go ";
    assert TrailingSpace("go ") == 1;
    assert TrimSpace(" go ") == "go";
    assert EqualFold("Go", "go") by {
      assert ToLower("Go") == "go";
      assert ToLower("go") == "go";
    }
  }

  /** The evidently intended `AddSkills`: a match is updated in place (the
      trimmed name, and the level only when one is given) instead of being
      refused. */
  function AddSkillsIntended(db: Db, input: Skill, candidateId: string, query: Io, write: Io): (s: Step<()>)
    ensures s.db == db.(skills := s.db.skills)
    ensures TrimSpace(input.skill) == "" ==> s == Step(db, Err(ErrEmptySkill))
    ensures s.result.Ok? <==> TrimSpace(input.skill) != "" && query.Done? && write.Done?
    ensures s.result.Err? ==> s.db == db
    ensures s.result.Ok? ==> s.db.skills == Upsert(db.skills, candidateId, TrimSpace(input.skill), input.level)
  {
    var name := TrimSpace(input.skill);
    if name == "" then Step(db, Err(ErrEmptySkill))
    else if query.Fails? then Step(db, Err(query.reason))
    else if write.Fails? then Step(db, Err(write.reason))
    else Step(db.(skills := Upsert(db.skills, candidateId, name, input.level)), Ok(()))
  }

  /** `AddSkills` keeps the table well formed: names stay clean and a second
      spelling of a skill never becomes a second row. */
  lemma {:induction false} AddSkillsPreservesWellFormed(db: Db, input: Skill, candidateId: string, query: Io, write: Io)
    requires WellFormed(db.skills)
    ensures WellFormed(AddSkills(db, input, candidateId, query, write).db.skills)
  {
    var s := AddSkills(db, input, candidateId, query, write);
    var name := TrimSpace(input.skill);
    if s.result.Ok? {
      var rows := db.skills;
      var rows' := s.db.skills;
      forall a, b | 0 <= a < b < |rows'| && rows'[a].candidateId == rows'[b].candidateId
        ensures !EqualFold(rows'[a].skill, rows'[b].skill)
      {
        if b == |rows| {
          assert !Matches(rows[a], candidateId, name);
        }
      }
    }
  }

  /** The intended upsert keeps the table well formed as well. */
  lemma {:induction false} IntendedAddPreservesWellFormed(db: Db, input: Skill, candidateId: string, query: Io, write: Io)
    requires WellFormed(db.skills)
    ensures WellFormed(AddSkillsIntended(db, input, candidateId, query, write).db.skills)
  {
    var s := AddSkillsIntended(db, input, candidateId, query, write);
    var name := TrimSpace(input.skill);
    if s.result.Ok? {
      var rows := db.skills;
      var rows' := s.db.skills;
      match MatchIndex(rows, candidateId, name)
      case Some(i) =>
        assert rows'[i].skill == name;
        forall a, b | 0 <= a < b < |rows'| && rows'[a].candidateId == rows'[b].candidateId
          ensures !EqualFold(rows'[a].skill, rows'[b].skill)
        {
          if a == i {
            assert !EqualFold(rows[i].skill, rows[b].skill);
          } else if b == i {
            assert !EqualFold(rows[a].skill, rows[i].skill);
          }
        }
      case None =>
        forall a, b | 0 <= a < b < |rows'| && rows'[a].candidateId == rows'[b].candidateId
          ensures !EqualFold(rows'[a].skill, rows'[b].skill)
        {
          if b == |rows| {
            assert !Matches(rows[a], candidateId, name);
          }
        }
    }
  }

  // ---------------------------------------------------------------------
  // Ordering

  predicate SortedBySkill(rows: seq<Skill>) {
    forall i :: 0 < i < |rows| ==> LessEq(rows[i - 1].skill, rows[i].skill)
  }

  /** Inserts `x` into rows already in skill order. */
  function Insert(x: Skill, rows: seq<Skill>): (r: seq<Skill>)
    requires SortedBySkill(rows)
    ensures SortedBySkill(r)
    ensures multiset(r) == multiset(rows) + multiset{x}
    ensures |r| == |rows| + 1
    ensures r[0] == x || (rows != [] && r[0] == rows[0])
  {
    if rows == [] || LessEq(x.skill, rows[0].skill) then [x] + rows
    else
      LessEqTotal(x.skill, rows[0].skill);
      var rest := Insert(x, rows[1..]);
      assert rows == [rows[0]] + rows[1..];
      [rows[0]] + rest
  }

  /** `ORDER BY skill ASC`: a permutation of the rows in skill order. */
  function SortBySkill(rows: seq<Skill>): (r: seq<Skill>)
    ensures SortedBySkill(r)
    ensures multiset(r) == multiset(rows)
    ensures |r| == |rows|
  {
    if rows == [] then []
    else
      assert rows == [rows[0]] + rows[1..];
      Insert(rows[0], SortBySkill(rows[1..]))
  }

  // ---------------------------------------------------------------------
  // GetSkills

  /** `Where("candidate_id = ?", id)`: the candidate's rows in table order. */
  function RowsOf(rows: seq<Skill>, candidateId: string): (r: seq<Skill>)
    ensures forall row :: row in r <==> row in rows && row.candidateId == candidateId
    ensures forall row :: multiset(r)[row] == if row.candidateId == candidateId then multiset(rows)[row] else 0
    ensures |r| <= |rows|
  {
    SelectWhere(rows, (row: Skill) => row.candidateId == candidateId)
  }

  /** The loop of `GetSkills`: each row's trimmed name, empty names dropped. */
  function Names(rows: seq<Skill>): (r: seq<string>)
    ensures |r| <= |rows|
    ensures forall n :: n in r <==> n != "" && exists row :: row in rows && TrimSpace(row.skill) == n
  {
    if rows == [] then []
    else
      var n := TrimSpace(rows[0].skill);
      assert forall row :: row in rows <==> row == rows[0] || row in rows[1..];
      (if n != "" then [n] else []) + Names(rows[1..])
  }

  /** Every row's skill text, trimmed, in row order. */
  function Trimmed(rows: seq<Skill>): (r: seq<string>)
    ensures |r| == |rows|
    ensures forall i :: 0 <= i < |rows| ==> r[i] == TrimSpace(rows[i].skill)
  {
    seq(|rows|, i requires 0 <= i < |rows| => TrimSpace(rows[i].skill))
  }

  /** `Names` is the trimmed skill texts with the blank ones filtered out,
      in row order and with repeats kept: so the count of names is the count
      of non-blank rows, and each name occurs as often as rows carry it. */
  lemma {:induction false} NamesAreNonBlankTrimmed(rows: seq<Skill>)
    ensures Names(rows) == SelectWhere(Trimmed(rows), (n: string) => n != "")
  {
    if rows != [] {
      assert Trimmed(rows) == [TrimSpace(rows[0].skill)] + Trimmed(rows[1..]);
      NamesAreNonBlankTrimmed(rows[1..]);
    }
  }

  /** `GetSkills`: the names of the candidate's rows, read in skill order. */
  function GetSkills(db: Db, candidateId: string, query: Io): (r: Result<seq<string>>)
    ensures query.Fails? ==> r == Err(ErrGetSkills + query.reason)
    ensures r.Ok? <==> query.Done?
    ensures r.Ok? ==> forall n :: n in r.value <==>
      n != "" && exists row :: row in db.skills && row.candidateId == candidateId && TrimSpace(row.skill) == n
    ensures r.Ok? ==> forall i :: 0 <= i < |r.value| ==> IsTrimmed(r.value[i]) && r.value[i] != ""
    ensures r.Ok? ==> exists rows ::
      && SortedBySkill(rows) && multiset(rows) == multiset(RowsOf(db.skills, candidateId))
      && r.value == Names(rows)
  {
    if query.Fails? then Err(ErrGetSkills + query.reason)
    else
      var own := RowsOf(db.skills, candidateId);
      var sorted := SortBySkill(own);
      SortKeepsRows(own);
      NamesOfSelection(db.skills, sorted, candidateId);
      Ok(Names(sorted))
  }

  /** Sorting neither adds nor drops a row. */
  lemma SortKeepsRows(rows: seq<Skill>)
    ensures forall row :: row in SortBySkill(rows) <==> row in rows
  {
    var sorted := SortBySkill(rows);
    forall row ensures row in sorted <==> row in rows {
      assert row in sorted <==> multiset(sorted)[row] > 0;
    }
  }

  /** The names of any reordering of a candidate's rows are that
      candidate's non-blank names, each trimmed. */
  lemma NamesOfSelection(rows: seq<Skill>, selected: seq<Skill>, candidateId: string)
    requires forall row :: row in selected <==> row in rows && row.candidateId == candidateId
    ensures forall n :: n in Names(selected) <==>
      n != "" && exists row :: row in rows && row.candidateId == candidateId && TrimSpace(row.skill) == n
    ensures forall i :: 0 <= i < |Names(selected)| ==> IsTrimmed(Names(selected)[i]) && Names(selected)[i] != ""
  {
    var names := Names(selected);
    forall n ensures n in names <==>
      n != "" && exists row :: row in rows && row.candidateId == candidateId && TrimSpace(row.skill) == n
    {
      if n in names {
        var row :| row in selected && TrimSpace(row.skill) == n;
        assert row in rows && row.candidateId == candidateId;
      }
    }
    forall i | 0 <= i < |names| ensures IsTrimmed(names[i]) && names[i] != "" {
      assert names[i] in names;
    }
  }

  /** On rows with clean names the loop drops and changes nothing. */
  lemma {:induction false} NamesOfClean(rows: seq<Skill>)
    requires forall i :: 0 <= i < |rows| ==> CleanName(rows[i].skill)
    ensures |Names(rows)| == |rows|
    ensures forall i :: 0 <= i < |rows| ==> Names(rows)[i] == rows[i].skill
  {
    if rows != [] {
      TrimTrimmed(rows[0].skill);
      NamesOfClean(rows[1..]);
    }
  }

  /** On a well-formed table `GetSkills` returns one name per row of the
      candidate, in ascending order. */
  lemma GetSkillsSorted(db: Db, candidateId: string)
    requires WellFormed(db.skills)
    ensures var r := GetSkills(db, candidateId, Done);
      && |r.value| == |RowsOf(db.skills, candidateId)|
      && forall i :: 0 < i < |r.value| ==> LessEq(r.value[i - 1], r.value[i])
  {
    var own := RowsOf(db.skills, candidateId);
    var sorted := SortBySkill(own);
    SortKeepsRows(own);
    forall i | 0 <= i < |sorted| ensures CleanName(sorted[i].skill) {
      assert sorted[i] in sorted;
    }
    NamesOfClean(sorted);
  }

  /** A skill added successfully is among those `GetSkills` returns, under
      its trimmed name. */
  lemma AddThenGet(db: Db, input: Skill, candidateId: string)
    requires TrimSpace(input.skill) != ""
    ensures var s := AddSkills(db, input, candidateId, Done, Done);
      s.result.Ok? ==> TrimSpace(input.skill) in GetSkills(s.db, candidateId, Done).value
  {
    var s := AddSkills(db, input, candidateId, Done, Done);
    var name := TrimSpace(input.skill);
    TrimTrimmed(name);
    if s.result.Ok? {
      assert s.db.skills[|db.skills|] in s.db.skills;
    }
  }

  /** With the intended upsert every add of a non-blank name succeeds and
      the name is read back, whether it was new or a second spelling. */
  lemma IntendedAddThenGet(db: Db, input: Skill, candidateId: string)
    requires TrimSpace(input.skill) != ""
    ensures var s := AddSkillsIntended(db, input, candidateId, Done, Done);
      && s.result.Ok?
      && TrimSpace(input.skill) in GetSkills(s.db, candidateId, Done).value
  {
    var s := AddSkillsIntended(db, input, candidateId, Done, Done);
    var name := TrimSpace(input.skill);
    TrimTrimmed(name);
    match MatchIndex(db.skills, candidateId, name)
    case Some(i) =>
      assert s.db.skills[i] in s.db.skills;
    case None =>
      assert s.db.skills[|db.skills|] in s.db.skills;
  }
}

=== FILE: store.dfy ===
/** The persistent state the repositories read and write, as one immutable
    value: the tables GORM maps the domain structs to, plus the mail the
    service has handed to SMTP. A table is a sequence in insertion order.
    GORM's `First` is taken to be the first matching element, which is the
    lowest primary key for employers (their ids come from a counter) but not
    for candidates (their ids are random UUIDs). A `Where(...).Update(...)`
    rewrites every matching element. The verification table is keyed by
    email. */
module Store {
  import opened Wrappers
  import opened Text

  /** A clock reading: a Unix second after the epoch. */
  type Time = n: int | n > 0 witness 1

  /** A `candidates` row. The id is the UUID the database generates. */
  datatype Candidate = Candidate(
    id: string,
    email: string,
    password: string,
    name: string,
    phone: int,
    experience: int,
    currentLocation: string,
    preferredLocation: string,
    isVerified: bool)

  /** An `employers` row. The id is the database's auto-increment counter;
      `isVerified` is the `is_verified` column `VerifyEmail` writes. */
  datatype Employer = Employer(
    id: nat,
    email: string,
    password: string,
    companyName: string,
    phone: int,
    industry: string,
    location: string,
    website: string,
    isVerified: bool,
    isTrusted: bool)

  datatype Skill = Skill(candidateId: string, skill: string, level: string)

  datatype Education = Education(
    candidateId: string,
    university: string,
    location: string,
    major: string,
    startDate: string,
    endDate: string,
    grade: string)

  /** A `verification_tables` row: the current code, its absolute expiry in
      Unix seconds, the verification status and the role signup recorded. */
  datatype Verification = Verification(otp: nat, expiry: nat, verified: bool, role: string)

  /** A message handed to the SMTP server carrying a one-time code. */
  datatype Mail = Mail(to: string, code: nat)

  datatype Db = Db(
    verifications: map<string, Verification>,
    candidates: seq<Candidate>,
    employers: seq<Employer>,
    nextEmployerId: nat,
    skills: seq<Skill>,
    education: seq<Education>,
    outbox: seq<Mail>)

  /** The state after an operation together with what it returned. */
  datatype Step<T> = Step(db: Db, result: Result<T>)

  /** `gorm.ErrRecordNotFound`. */
  const ErrRecordNotFound := "record not found"
  /** What PostgreSQL reports when an insert repeats a key. */
  const ErrUniqueViolation := "duplicate key value violates unique constraint"

  // ---------------------------------------------------------------------
  // Generic table access

  /** The elements satisfying `p`, in order, as an SQL `SELECT ... WHERE`. */
  function SelectWhere<T(==, !new)>(s: seq<T>, p: T -> bool): (r: seq<T>)
    ensures forall x :: x in r <==> x in s && p(x)
    ensures forall x :: multiset(r)[x] == if p(x) then multiset(s)[x] else 0
    ensures |r| <= |s|
  {
    if s == [] then []
    else
      assert s == [s[0]] + s[1..];
      (if p(s[0]) then [s[0]] else []) + SelectWhere(s[1..], p)
  }

  /** Position of the first element satisfying `p`. */
  function FirstIndex<T>(s: seq<T>, p: T -> bool): (r: Option<nat>)
    ensures r.Some? ==> r.value < |s| && p(s[r.value])
    ensures r.Some? ==> forall k :: 0 <= k < r.value ==> !p(s[k])
    ensures r.None? ==> forall k :: 0 <= k < |s| ==> !p(s[k])
  {
    if s == [] then None
    else if p(s[0]) then Some(0)
    else
      match FirstIndex(s[1..], p)
      case None => None
      case Some(i) => Some(i + 1)
  }

  /** Applies `f` to every element satisfying `p`, as an SQL `UPDATE ... WHERE`. */
  function UpdateWhere<T>(s: seq<T>, p: T -> bool, f: T -> T): (r: seq<T>)
    ensures |r| == |s|
    ensures forall i :: 0 <= i < |s| ==> r[i] == (if p(s[i]) then f(s[i]) else s[i])
  {
    if s == [] then [] else [if p(s[0]) then f(s[0]) else s[0]] + UpdateWhere(s[1..], p, f)
  }

  // ---------------------------------------------------------------------
  // Lookups: `Where("email = ?", ...).First(...)` and `Where("id = ?", ...)`

  function CandidateIndexByEmail(cs: seq<Candidate>, email: string): (r: Option<nat>)
    ensures r.Some? ==> r.value < |cs| && cs[r.value].email == email
    ensures r.Some? ==> forall k :: 0 <= k < r.value ==> cs[k].email != email
    ensures r.None? ==> forall c :: c in cs ==> c.email != email
  {
    FirstIndex(cs, (c: Candidate) => c.email == email)
  }

  function CandidateIndexById(cs: seq<Candidate>, id: string): (r: Option<nat>)
    ensures r.Some? ==> r.value < |cs| && cs[r.value].id == id
    ensures r.Some? ==> forall k :: 0 <= k < r.value ==> cs[k].id != id
    ensures r.None? ==> forall c :: c in cs ==> c.id != id
  {
    FirstIndex(cs, (c: Candidate) => c.id == id)
  }

  function CandidateByEmail(db: Db, email: string): (r: Option<Candidate>)
    ensures r.Some? ==> r.value in db.candidates && r.value.email == email
    ensures r.None? <==> forall c :: c in db.candidates ==> c.email != email
    ensures r.Some? ==> exists i ::
      && 0 <= i < |db.candidates| && db.candidates[i] == r.value
      && forall k :: 0 <= k < i ==> db.candidates[k].email != email
  {
    match CandidateIndexByEmail(db.candidates, email)
    case None => None
    case Some(i) => Some(db.candidates[i])
  }

  function CandidateById(db: Db, id: string): (r: Option<Candidate>)
    ensures r.Some? ==> r.value in db.candidates && r.value.id == id
    ensures r.None? <==> forall c :: c in db.candidates ==> c.id != id
    ensures r.Some? ==> exists i ::
      && 0 <= i < |db.candidates| && db.candidates[i] == r.value
      && forall k :: 0 <= k < i ==> db.candidates[k].id != id
  {
    match CandidateIndexById(db.candidates, id)
    case None => None
    case Some(i) => Some(db.candidates[i])
  }

  /** An employer id as the string the queries compare it with. */
  function EmployerKey(e: Employer): string {
    Itoa(e.id)
  }

  function EmployerIndexByEmail(es: seq<Employer>, email: string): (r: Option<nat>)
    ensures r.Some? ==> r.value < |es| && es[r.value].email == email
    ensures r.Some? ==> forall k :: 0 <= k < r.value ==> es[k].email != email
    ensures r.None? ==> forall e :: e in es ==> e.email != email
  {
    FirstIndex(es, (e: Employer) => e.email == email)
  }

  function EmployerIndexById(es: seq<Employer>, id: string): (r: Option<nat>)
    ensures r.Some? ==> r.value < |es| && EmployerKey(es[r.value]) == id
    ensures r.Some? ==> forall k :: 0 <= k < r.value ==> EmployerKey(es[k]) != id
    ensures r.None? ==> forall e :: e in es ==> EmployerKey(e) != id
  {
    FirstIndex(es, (e: Employer) => EmployerKey(e) == id)
  }

  function EmployerByEmail(db: Db, email: string): (r: Option<Employer>)
    ensures r.Some? ==> r.value in db.employers && r.value.email == email
    ensures r.None? <==> forall e :: e in db.employers ==> e.email != email
    ensures r.Some? ==> exists i ::
      && 0 <= i < |db.employers| && db.employers[i] == r.value
      && forall k :: 0 <= k < i ==> db.employers[k].email != email
  {
    match EmployerIndexByEmail(db.employers, email)
    case None => None
    case Some(i) => Some(db.employers[i])
  }

  function EmployerById(db: Db, id: string): (r: Option<Employer>)
    ensures r.Some? ==> r.value in db.employers && EmployerKey(r.value) == id
    ensures r.None? <==> forall e :: e in db.employers ==> EmployerKey(e) != id
    ensures r.Some? ==> exists i ::
      && 0 <= i < |db.employers| && db.employers[i] == r.value
      && forall k :: 0 <= k < i ==> EmployerKey(db.employers[k]) != id
  {
    match EmployerIndexById(db.employers, id)
    case None => None
    case Some(i) => Some(db.employers[i])
  }

  // ---------------------------------------------------------------------
  // Column updates

  /** `Model(&Candidate{}).Where("email = ?", email).Update("password", hash)`. */
  function SetCandidatePasswordByEmail(cs: seq<Candidate>, email: string, hash: string): (r: seq<Candidate>)
    ensures |r| == |cs|
    ensures forall i :: 0 <= i < |cs| ==> r[i] == (if cs[i].email == email then cs[i].(password := hash) else cs[i])
  {
    UpdateWhere(cs, (c: Candidate) => c.email == email, (c: Candidate) => c.(password := hash))
  }

  /** `Model(&Candidate{}).Where("id = ?", id).Update("password", hash)`. */
  function SetCandidatePasswordById(cs: seq<Candidate>, id: string, hash: string): (r: seq<Candidate>)
    ensures |r| == |cs|
    ensures forall i :: 0 <= i < |cs| ==> r[i] == (if cs[i].id == id then cs[i].(password := hash) else cs[i])
  {
    UpdateWhere(cs, (c: Candidate) => c.id == id, (c: Candidate) => c.(password := hash))
  }

  /** `Model(&Candidate{}).Where("email = ?", email).Update("is_verified", true)`. */
  function MarkCandidatesVerified(cs: seq<Candidate>, email: string): (r: seq<Candidate>)
    ensures |r| == |cs|
    ensures forall i :: 0 <= i < |cs| ==> r[i] == (if cs[i].email == email then cs[i].(isVerified := true) else cs[i])
  {
    UpdateWhere(cs, (c: Candidate) => c.email == email, (c: Candidate) => c.(isVerified := true))
  }

  function SetEmployerPasswordByEmail(es: seq<Employer>, email: string, hash: string): (r: seq<Employer>)
    ensures |r| == |es|
    ensures forall i :: 0 <= i < |es| ==> r[i] == (if es[i].email == email then es[i].(password := hash) else es[i])
  {
    UpdateWhere(es, (e: Employer) => e.email == email, (e: Employer) => e.(password := hash))
  }

  function SetEmployerPasswordById(es: seq<Employer>, id: string, hash: string): (r: seq<Employer>)
    ensures |r| == |es|
    ensures forall i :: 0 <= i < |es| ==> r[i] == (if EmployerKey(es[i]) == id then es[i].(password := hash) else es[i])
  {
    UpdateWhere(es, (e: Employer) => EmployerKey(e) == id, (e: Employer) => e.(password := hash))
  }

  function MarkEmployersVerified(es: seq<Employer>, email: string): (r: seq<Employer>)
    ensures |r| == |es|
    ensures forall i :: 0 <= i < |es| ==> r[i] == (if es[i].email == email then es[i].(isVerified := true) else es[i])
  {
    UpdateWhere(es, (e: Employer) => e.email == email, (e: Employer) => e.(isVerified := true))
  }
}

=== FILE: text.dfy ===
/** The string helpers of Go's standard library that the service relies on:
    `strings.HasPrefix`/`TrimPrefix`/`TrimSpace`/`ToLower` and
    `strconv.Itoa`/`ParseUint`/`ParseInt`, plus the ascending text order a
    SQL `ORDER BY` uses. */
module Text {
  import opened Wrappers

  // ---------------------------------------------------------------------
  // Prefixes

  predicate HasPrefix(s: string, prefix: string) {
    |prefix| <= |s| && s[..|prefix|] == prefix
  }

  /** `strings.TrimPrefix`: drops one leading `prefix`, if there is one. */
  function TrimPrefix(s: string, prefix: string): (r: string)
    ensures HasPrefix(s, prefix) ==> prefix + r == s
    ensures !HasPrefix(s, prefix) ==> r == s
  {
    if HasPrefix(s, prefix) then
      assert s == s[..|prefix|] + s[|prefix|..];
      s[|prefix|..]
    else s
  }

  // ---------------------------------------------------------------------
  // White space

  /** `unicode.IsSpace`: the Latin-1 spaces and the Unicode White_Space set. */
  predicate IsSpace(c: char) {
    var n := c as int;
    n == 0x20 || 0x09 <= n <= 0x0D || n == 0x85 || n == 0xA0 || n == 0x1680
    || 0x2000 <= n <= 0x200A || n == 0x2028 || n == 0x2029 || n == 0x202F
    || n == 0x205F || n == 0x3000
  }

  predicate AllSpace(s: string) {
    forall i :: 0 <= i < |s| ==> IsSpace(s[i])
  }

  /** Neither starts nor ends with white space. */
  predicate IsTrimmed(s: string) {
    s == [] || (!IsSpace(s[0]) && !IsSpace(s[|s| - 1]))
  }

  /** Length of the run of white space that starts `s`. */
  function LeadingSpace(s: string): (n: nat)
    ensures n <= |s|
    ensures AllSpace(s[..n])
    ensures n < |s| ==> !IsSpace(s[n])
  {
    if |s| == 0 || !IsSpace(s[0]) then 0
    else
      var k := LeadingSpace(s[1..]);
      assert s[..k + 1] == [s[0]] + s[1..][..k];
      k + 1
  }

  /** Length of the run of white space that ends `s`. */
  function TrailingSpace(s: string): (n: nat)
    ensures n <= |s|
    ensures AllSpace(s[|s| - n..])
    ensures n < |s| ==> !IsSpace(s[|s| - n - 1])
  {
    if |s| == 0 || !IsSpace(s[|s| - 1]) then 0
    else
      var k := TrailingSpace(s[..|s| - 1]);
      assert s[|s| - (k + 1)..] == s[..|s| - 1][|s| - 1 - k..] + [s[|s| - 1]];
      k + 1
  }

  /** `strings.TrimSpace`: the infix of `s` left after removing the white
      space at both ends. */
  function TrimSpace(s: string): (r: string)
    ensures IsTrimmed(r)
    ensures r == [] <==> AllSpace(s)
    ensures exists i, j :: 0 <= i <= j <= |s| && r == s[i..j] && AllSpace(s[..i]) && AllSpace(s[j..])
  {
    var i := LeadingSpace(s);
    var j := |s| - TrailingSpace(s[i..]);
    TrimBounds(s, i, j);
    s[i..j]
  }

  lemma {:induction false} TrimBounds(s: string, i: nat, j: int)
    requires i == LeadingSpace(s) && j == |s| - TrailingSpace(s[i..])
    ensures i <= j <= |s|
    ensures AllSpace(s[..i]) && AllSpace(s[j..])
    ensures IsTrimmed(s[i..j])
    ensures i == j <==> AllSpace(s)
  {
    var rest := s[i..];
    var t := TrailingSpace(rest);
    assert rest[|rest| - t..] == s[j..];
    if i < |s| {
      assert !IsSpace(rest[0]);
      if t == |rest| {
        assert false;
      }
      var m := |rest| - t - 1;
      assert i + m == j - 1;
      assert rest[m] == s[i + m];
      assert !IsSpace(s[j - 1]);
      assert !AllSpace(s) by { assert !IsSpace(s[i]); }
    } else {
      assert s[..i] == s;
    }
  }

  /** Trimming a string that is already trimmed gives it back. */
  lemma TrimTrimmed(s: string)
    requires IsTrimmed(s)
    ensures TrimSpace(s) == s
  {
    assert LeadingSpace(s) == 0;
    assert s[0..] == s;
    assert TrailingSpace(s) == 0;
  }

  // ---------------------------------------------------------------------
  // Case

  /** Lower-cases the ASCII letters A-Z and keeps every other character. */
  function LowerChar(c: char): char {
    if 'A' <= c <= 'Z' then (c as int + 32) as char else c
  }

  function ToLower(s: string): (r: string)
    ensures |r| == |s|
    ensures forall i :: 0 <= i < |s| ==> r[i] == LowerChar(s[i])
  {
    if s == [] then [] else [LowerChar(s[0])] + ToLower(s[1..])
  }

  /** Case-insensitive equality as SQL `LOWER(a) = LOWER(b)` decides it. */
  predicate EqualFold(a: string, b: string) {
    ToLower(a) == ToLower(b)
  }

  lemma ToLowerIdempotent(s: string)
    ensures ToLower(ToLower(s)) == ToLower(s)
  {
  }

  // ---------------------------------------------------------------------
  // Decimal numbers

  const MaxUint64: nat := 0xFFFF_FFFF_FFFF_FFFF
  const MaxInt64: int := 0x7FFF_FFFF_FFFF_FFFF
  const MinInt64: int := -0x8000_0000_0000_0000

  /** The texts of Go's `strconv.ErrSyntax` and `strconv.ErrRange`. */
  const ErrSyntax := "invalid syntax"
  const ErrRange := "value out of range"

  predicate IsDigit(c: char) {
    '0' <= c <= '9'
  }

  predicate AllDigits(s: string) {
    forall i :: 0 <= i < |s| ==> IsDigit(s[i])
  }

  function DigitValue(c: char): nat
    requires IsDigit(c)
  {
    c as int - '0' as int
  }

  function DigitChar(d: nat): (c: char)
    requires d < 10
    ensures IsDigit(c) && DigitValue(c) == d
  {
    ('0' as int + d) as char
  }

  /** The number a string of decimal digits denotes. */
  function ValueOf(s: string): nat
    requires AllDigits(s)
  {
    if s == [] then 0 else ValueOf(s[..|s| - 1]) * 10 + DigitValue(s[|s| - 1])
  }

  /** `strconv.Itoa` on a non-negative number: its shortest decimal form. */
  function Itoa(n: nat): (r: string)
    ensures |r| >= 1 && AllDigits(r)
    ensures r[0] == '0' ==> r == "0"
    ensures ValueOf(r) == n
  {
    if n < 10 then [DigitChar(n)]
    else
      var front := Itoa(n / 10);
      var r := front + [DigitChar(n % 10)];
      assert r[..|r| - 1] == front;
      r
  }

  /** Distinct numbers have distinct decimal forms. */
  lemma ItoaInjective(a: nat, b: nat)
    requires Itoa(a) == Itoa(b)
    ensures a == b
  {
  }

  /** `strconv.Itoa` on any `int`: a minus sign before the magnitude. */
  function FormatInt(i: int): (r: string)
    ensures i >= 0 ==> r == Itoa(i)
    ensures i < 0 ==> r == "-" + Itoa(-i)
    ensures MinInt64 <= i <= MaxInt64 ==> ParseInt64(r) == i
  {
    if i < 0 then "-" + Itoa(-i) else Itoa(i)
  }

  /** Length of the run of digits that starts `s`. */
  function DigitRun(s: string): (k: nat)
    ensures k <= |s|
    ensures AllDigits(s[..k])
    ensures k < |s| ==> !IsDigit(s[k])
    ensures forall j :: 0 <= j < k ==> IsDigit(s[j])
  {
    if |s| == 0 || !IsDigit(s[0]) then 0
    else
      var k := DigitRun(s[1..]);
      assert s[..k + 1] == [s[0]] + s[1..][..k];
      k + 1
  }

  /** `strconv.ParseUint(s, 10, 64)`. Go scans left to right and reports the
      first problem it meets: an overflow of the digits read so far is a range
      error, a character that is not a digit (or an empty input) a syntax
      error. */
  function ParseUint64(s: string): (r: Result<nat>)
    ensures r.Ok? <==> |s| > 0 && AllDigits(s) && ValueOf(s) <= MaxUint64
    ensures r.Ok? ==> r.value == ValueOf(s)
    ensures r.Err? ==> r.error == ErrSyntax || r.error == ErrRange
    ensures r == Err(ErrRange) <==> ValueOf(s[..DigitRun(s)]) > MaxUint64
  {
    var k := DigitRun(s);
    if s == [] then Err(ErrSyntax)
    else if ValueOf(s[..k]) > MaxUint64 then
      assert k < |s| ==> !IsDigit(s[k]);
      assert AllDigits(s) ==> k == |s|;
      assert AllDigits(s) ==> s[..k] == s;
      Err(ErrRange)
    else if k < |s| then
      assert !AllDigits(s) by { assert !IsDigit(s[k]); }
      Err(ErrSyntax)
    else
      assert s[..k] == s;
      Ok(ValueOf(s))
  }

  /** Every decimal form `Itoa` writes is read back by `ParseUint64`. */
  lemma ParseItoa(n: nat)
    requires n <= MaxUint64
    ensures ParseUint64(Itoa(n)) == Ok(n)
  {
  }

  /** `s` without one leading sign, if it has one. */
  function Unsigned(s: string): string {
    if s != [] && (s[0] == '+' || s[0] == '-') then s[1..] else s
  }

  /** Go's scan of `s` after its sign finds nothing to read, or meets a
      character that is not a digit before the digits read overflow 64 bits:
      `strconv.ParseInt` reports a syntax error. */
  predicate MalformedInt(s: string) {
    || Unsigned(s) == []
    || exists k :: 0 <= k < |Unsigned(s)| && !IsDigit(Unsigned(s)[k])
                   && AllDigits(Unsigned(s)[..k]) && ValueOf(Unsigned(s)[..k]) <= MaxUint64
  }

  function Pow10(n: nat): (p: nat)
    ensures p >= 1
  {
    if n == 0 then 1 else 10 * Pow10(n - 1)
  }

  /** `n` digits denote less than `10^n`. */
  lemma {:induction false} ValueOfBelow(s: string)
    requires AllDigits(s)
    ensures ValueOf(s) < Pow10(|s|)
  {
    if s != [] {
      var front := s[..|s| - 1];
      assert AllDigits(front) by {
        forall i | 0 <= i < |front| ensures IsDigit(front[i]) {
          assert front[i] == s[i];
        }
      }
      ValueOfBelow(front);
    }
  }

  /** The text form of a UUID as PostgreSQL's `gen_random_uuid()` writes it:
      32 lower-case hexadecimal digits in groups of 8, 4, 4, 4 and 12,
      joined by '-'. */
  predicate UuidText(s: string) {
    && |s| == 36
    && forall i :: 0 <= i < 36 ==>
         if i == 8 || i == 13 || i == 18 || i == 23 then s[i] == '-'
         else IsDigit(s[i]) || 'a' <= s[i] <= 'f'
  }

  /** `strconv.Atoi` fails with a syntax error on every UUID: the ninth
      character, '-', stops the digits after at most eight of them. */
  lemma UuidMalformed(s: string)
    requires UuidText(s)
    ensures MalformedInt(s)
  {
    assert s[0] != '+' && s[0] != '-';
    assert Unsigned(s) == s;
    var k := DigitRun(s);
    assert !IsDigit(s[8]);
    assert k <= 8;
    ValueOfBelow(s[..k]);
    assert Pow10(k) <= Pow10(8) by { Pow10Monotone(k, 8); }
    assert !IsDigit(s[k]);
  }

  lemma {:induction false} Pow10Monotone(a: nat, b: nat)
    requires a <= b
    ensures Pow10(a) <= Pow10(b)
  {
    if a < b {
      Pow10Monotone(a, b - 1);
    }
  }

  /** The first character that is not a digit ends the digit run. */
  lemma DigitRunIsFirst(s: string, k: nat)
    requires k < |s| && !IsDigit(s[k]) && AllDigits(s[..k])
    ensures DigitRun(s) == k
  {
    var d := DigitRun(s);
    if d < k {
      assert false;
    } else if d > k {
      assert false;
    }
  }

  /** The value half of `strconv.ParseInt(s, 10, 64)`, which is all the
      service keeps (it discards the error). After one optional sign, Go
      reads digits: a character that is not a digit, met before the digits
      read overflow 64 bits, is a syntax error and gives 0, as does nothing
      to read; a magnitude too large for the sign gives the nearest 64-bit
      bound. */
  function ParseInt64(s: string): (r: int)
    ensures MinInt64 <= r <= MaxInt64
    ensures |s| > 0 && AllDigits(s) && ValueOf(s) <= MaxInt64 ==> r == ValueOf(s)
    ensures |s| > 1 && s[0] == '+' && AllDigits(s[1..]) && ValueOf(s[1..]) <= MaxInt64 ==> r == ValueOf(s[1..])
    ensures |s| > 1 && s[0] == '-' && AllDigits(s[1..]) && ValueOf(s[1..]) <= -MinInt64 ==> r == -(ValueOf(s[1..]) as int)
    ensures s == [] || (!IsDigit(s[0]) && s[0] != '+' && s[0] != '-') ==> r == 0
    ensures MalformedInt(s) ==> r == 0
    ensures s != [] && |Unsigned(s)| > 0 && AllDigits(Unsigned(s)) && ValueOf(Unsigned(s)) > MaxInt64 ==>
      r == (if s[0] == '-' && ValueOf(Unsigned(s)) <= -MinInt64 then -(ValueOf(Unsigned(s)) as int)
            else if s[0] == '-' then MinInt64 else MaxInt64)
    ensures s != [] && ValueOf(Unsigned(s)[..DigitRun(Unsigned(s))]) > MaxUint64 ==>
      r == (if s[0] == '-' then MinInt64 else MaxInt64)
  {
    if s == [] then 0
    else
      var neg := s[0] == '-';
      var body := Unsigned(s);
      var u := ParseUint64(body);
      assert body == Unsigned(s);
      assert forall k :: 0 <= k < |body| && !IsDigit(body[k]) && AllDigits(body[..k]) ==> DigitRun(body) == k by {
        forall k | 0 <= k < |body| && !IsDigit(body[k]) && AllDigits(body[..k]) {
          DigitRunIsFirst(body, k);
        }
      }
      assert |body| > 0 && AllDigits(body) ==> body[..DigitRun(body)] == body;
      if u.Err? && u.error == ErrSyntax then 0
      else
        var un := if u.Err? then MaxUint64 else u.value;
        if !neg && un > MaxInt64 then MaxInt64
        else if neg && un > -MinInt64 then MinInt64
        else if neg then -(un as int) else un
  }

  // ---------------------------------------------------------------------
  // Text order

  /** Lexicographic order on character codes (the `C` collation). */
  predicate LessEq(a: string, b: string) {
    a == [] || (b != [] && (a[0] < b[0] || (a[0] == b[0] && LessEq(a[1..], b[1..]))))
  }

  lemma {:induction false} LessEqTotal(a: string, b: string)
    ensures LessEq(a, b) || LessEq(b, a)
  {
    if a != [] && b != [] && a[0] == b[0] {
      LessEqTotal(a[1..], b[1..]);
    }
  }

  lemma {:induction false} LessEqTransitive(a: string, b: string, c: string)
    requires LessEq(a, b) && LessEq(b, c)
    ensures LessEq(a, c)
  {
    if a != [] && b != [] && c != [] && a[0] == b[0] && b[0] == c[0] {
      LessEqTransitive(a[1..], b[1..], c[1..]);
    }
  }
}

=== FILE: wrappers.dfy ===
/** Failure-carrying values shared by every module of the model.
    Go returns `(value, error)` pairs; here a call either yields `Ok(value)`
    or `Err(message)`, where the message is the text of the Go error. */
module Wrappers {

  datatype Option<+T> = None | Some(value: T)

  datatype Result<+T> = Ok(value: T) | Err(error: string) {
    predicate IsFailure() {
      Err?
    }

    function PropagateFailure<U>(): Result<U>
      requires Err?
    {
      Err(error)
    }

    function Extract(): T
      requires Ok?
    {
      value
    }
  }

  /** The answer of an external collaborator that returns only an error:
      a database write or an SMTP delivery. */
  datatype Io = Done | Fails(reason: string)
}
